=== FILE: README.md ===
# FRIDAY voice assistant: the decision logic, in Dafny

FRIDAY is a desktop voice assistant. A wake-word listener hears "Friday" and
starts a recording. The recording ends on silence, gets transcribed, and is
routed either to a system action (open a site, search, launch an app) or to a
conversational model. The reply is cleaned up for speech and spoken through
whichever text-to-speech provider is currently selected.

Most of that is threads, devices and cloud SDKs. This project models the pure
decisions underneath, as immutable datatypes and total functions:

- `Base`: `Option`, bytes, list flattening, and the host platform.
- `Strings`: the Python `str` operations the program relies on. These are
  `replace` (left to right, non-overlapping), `strip` and `split()` over
  Python's full `str.isspace` whitespace set (including the Unicode space
  separators), ASCII-only `lower`/`title`, substring `in`, and decimal
  rendering of integers. `Normalize` is the `lower().strip()` form in which
  the matcher, the classifier and the window compare text.
- `Audio` (`backend/core/audio_engine.py`):
  - the endpointing loop of `record_audio_improved`, over an input device
    given as a stream of reads;
  - `stop_recording`;
  - the empty-input guard and backend order of `play_audio_improved`.
- `Speech` (`backend/core/ai_engine.py`):
  - `_clean_text_for_tts`;
  - the provider dispatch of `text_to_speech` and the provider helpers,
    including the one-way demotion from ElevenLabs to the local engine;
  - `_initialize_tts`.
- `Dialogue` (`backend/core/ai_engine.py`):
  - the `transcribe_audio` guards and `is_system_command`;
  - the history bound of `get_response`;
  - `_build_conversation_context` and `get_conversation_summary`.
- `Wake` (`backend/core/friday_wake_word.py`):
  - the wake-word matcher, with the four word-bounded patterns hand-coded;
  - the phrase list under add and remove;
  - the listening flag, the callback gate of `_process_audio_chunk`, and
    `set_sensitivity`.
- `Controller` (`backend/services/system_controller.py`):
  - URL normalisation, browser choice, and the search-engine and site tables;
  - the `execute_command` allow-list;
  - the per-platform application tables and volume actions.
- `Desktop` (`frontend/desktop/gui/main_window.py`):
  - command detection and intent routing, with the branch order of
    `handle_enhanced_system_commands`: because the website branch runs
    before the application branch, "open calculator" opens a website named
    "calculator" (`Desktop.OpenCalculatorOpensSite`);
  - search-term extraction;
  - camera control;
  - the recording, speaking and typed-input gates.

Cloud services, devices and the operating system are function parameters
(oracles), as follows:
- the transcriber and the conversational model map their input to
  `Option<string>`, where `None` means the call raised;
- each text-to-speech provider maps text to the bytes it produced, or `None`;
- the microphone is a stream `nat -> Read`;
- playback backends are a predicate saying which backend works;
- `urllib.parse.quote_plus` is an uninterpreted `encode: string -> string`;
- an exception raised by `webbrowser` or `subprocess` is an
  `error: Option<string>` argument.

## Model

| member | source | states |
|---|---|---|
| Audio.Sample | backend/core/audio_engine.py:169 | a sample decoded from two little-endian bytes lies in the signed 16-bit range |
| Audio.PeakAbove | backend/core/audio_engine.py:170-172 | the peak `max(abs(x))` exceeds a bound exactly when some sample of the chunk does |
| Audio.LoudIff | backend/core/audio_engine.py:169-172 | a 2048-byte chunk counts as voice iff one of its 1024 samples has magnitude above 500 |
| Audio.QuietRun | backend/core/audio_engine.py:172-175 | the silence counter after n chunks never exceeds n |
| Audio.QuietRunIsTrailingRun | backend/core/audio_engine.py:172-175 | the silence counter equals the length of the maximal run of quiet chunks ending at the latest one (a loud chunk resets it, a quiet one adds exactly 1) |
| Audio.ScanMeetsSpec | backend/core/audio_engine.py:161-184 | from any well-formed prefix without an earlier stop, the loop ends as the declarative description says: at the cap, at the first silence stop, at the first malformed chunk (kept, and the stop reason is then a chunk error), or before a failed or cancelled read |
| Audio.CaptureSpecUnique | backend/core/audio_engine.py:161-184 | at most one capture meets the declarative description, so the description fixes the count and the stop reason |
| Audio.ExtendPrefix | backend/core/audio_engine.py:165-180 | one more well-formed chunk with no silence stop extends the prefix the loop has accepted |
| Audio.EndsOnSilence | backend/core/audio_engine.py:178-180 | a silence stop after chunk k+1 ends the loop with k+1 chunks kept and reason silence |
| Audio.EndsOnMalformed | backend/core/audio_engine.py:165-184 | a chunk that does not unpack to 1024 samples is appended and then ends the loop as an error |
| Audio.EndsBeforeRead | backend/core/audio_engine.py:161-184 | leaving at the cap, on a failed read or on a stop request appends nothing more |
| Audio.ScanFromStart | backend/core/audio_engine.py:151-184 | the whole recording loop meets its declarative description, which by CaptureSpecUnique is the only capture that does |
| Audio.NoEarlySilenceStop | backend/core/audio_engine.py:156-178 | a silence stop is never taken while 10 or fewer chunks have been read |
| Audio.AllQuietStopsAt31 | backend/core/audio_engine.py:154-180 | all-quiet input with room for 31 chunks stops on silence after exactly 31 |
| Audio.AllQuietRun | backend/core/audio_engine.py:175 | over all-quiet input the silence counter equals the number of chunks read |
| Audio.LoudRunsToCap | backend/core/audio_engine.py:161-173 | continuous voice never stops on silence and runs to the cap |
| Audio.Frames | backend/core/audio_engine.py:165 | the frame list holds, in order, the data of every chunk read |
| Audio.StopRecording | backend/core/audio_engine.py:206-210 | stopping clears `is_recording`, sets `recording_stopped` and changes nothing else |
| Audio.Record | backend/core/audio_engine.py:130-204 | an engine that is not initialised or has no PyAudio handle returns none untouched; otherwise `is_recording` is false on every exit, and a returned buffer is never empty unless some chunk was read |
| Audio.RecordLoop | backend/core/audio_engine.py:150-197 | the loop written with a mutable frame list and counter computes the same result as `Record` and leaves `is_recording` false |
| Audio.CancelledLeavesStopped | backend/core/audio_engine.py:161-210 | a recording ended by a stop request leaves the engine exactly as `stop_recording` left it |
| Audio.RecordIsConcatenation | backend/core/audio_engine.py:165-197 | the result is the in-order concatenation of every chunk read, trailing silence included; zero chunks give none, never an empty buffer |
| Audio.AllQuietBufferLength | backend/core/audio_engine.py:154-197 | an all-quiet recording returns 31 full chunks, 31 × 2048 bytes |
| Audio.FullChunksLength | backend/core/audio_engine.py:194 | n full chunks join to n × 2048 bytes |
| Audio.BackendOrder | backend/core/audio_engine.py:228-236 | the default application is always the last resort, and the mixer library is tried only when it imported |
| Audio.TryInOrder | backend/core/audio_engine.py:228-236 | backends are tried in order up to the first that works; playback succeeds iff some backend works, and every backend tried before the last failed |
| Audio.PlayAudio | backend/core/audio_engine.py:212-258 | empty data (or no temporary file) fails without trying anything; otherwise success iff pygame (when present), the system command or the default app works, starting with pygame when present |
| Speech.EnsureTerminal | backend/core/ai_engine.py:540-542 | the stripped text is returned, with '.' appended exactly when it is non-empty and does not already end in '.', '!' or '?'; the result is empty iff the stripped text is |
| Speech.CleanTextTerminal | backend/core/ai_engine.py:514-544 | normalised text is empty or ends in '.', '!' or '?' |
| Speech.CleanTextHasNoMarkup | backend/core/ai_engine.py:517-518 | no '*', '_', '#' or '`' survives normalisation |
| Speech.StripMarkupRemovesMarkers | backend/core/ai_engine.py:517-518 | the markdown stage alone removes every marker |
| Speech.CollapseKeepsAbsent | backend/core/ai_engine.py:535-537 | punctuation collapsing introduces no character other than '.', '!' and '?' |
| Speech.ExpandKeepsAbsent | backend/core/ai_engine.py:531-532 | expanding abbreviations introduces no character absent from the text and the expansions |
| Speech.ExpandWithoutLeaders | backend/core/ai_engine.py:531-532 | a text without any abbreviation's first letter is left alone by the expansion stage |
| Speech.CleanTextOfPlain | backend/core/ai_engine.py:517-532 | text without markers or abbreviation initials reaches the punctuation stage unchanged |
| Speech.StripMarkupOfPlain | backend/core/ai_engine.py:517-518 | text without markers is left alone by the markdown stage |
| Speech.TableOrderExample | backend/core/ai_engine.py:521-532 | on "i.e.g." the table order expands "e.g." first and leaves "i.for example" |
| Speech.ReversedOrderDiffers | backend/core/ai_engine.py:521-532 | expanding "i.e." before "e.g." gives "that isg.", which differs from the result of the table order, so the order of the table matters |
| Speech.DoctorExample | backend/core/ai_engine.py:514-544 | "Dr. Smith vs. Dr. Jones..." is normalised to "Doctor Smith versus Doctor Jones." |
| Speech.TripleBangKeepsTwo | backend/core/ai_engine.py:535-537 | collapsing is one pass per pattern, so "!!!" becomes "!!", not "!" |
| Speech.WowCollapses | backend/core/ai_engine.py:535-537 | "Wow!!!" collapses to "Wow!!" |
| Speech.WowKeepsTwo | backend/core/ai_engine.py:514-544 | "Wow!!!" is spoken as "Wow!!", which already ends in '!', so no '.' is added |
| Speech.SystemTtsAsWritten | backend/core/ai_engine.py:423-457 | native speech as written: on Linux the call always fails, whatever espeak and festival would do |
| Speech.SystemTts | backend/core/ai_engine.py:423-457 | native speech as intended: Linux tries espeak and then festival, and reports the played sentinel on success; other platforms are unchanged |
| Speech.LinuxNativeSpeechAsWrittenFails | backend/core/ai_engine.py:430-452 | on Linux with a working espeak, the code as written returns none and the corrected one returns the sentinel |
| Speech.AcceptOrNative | backend/core/ai_engine.py:409-417 | provider audio longer than 1000 bytes is returned as is; anything else falls back to native speech on the same text |
| Speech.GttsTts | backend/core/ai_engine.py:356-383 | gTTS is called first with the cleaned text; its file is returned, with no other call, when it is over 1000 bytes; otherwise native speech is called next and its result is returned |
| Speech.LocalTts | backend/core/ai_engine.py:385-421 | without pyttsx3 this is native speech; with it the local engine is called first, its file is returned when it is over 1000 bytes, and otherwise native speech is called next and its result is returned |
| Speech.ElevenLabsTts | backend/core/ai_engine.py:330-354 | ElevenLabs output with at least one chunk is returned and the mode kept; otherwise the mode becomes local and the local engine is used |
| Speech.Dispatch | backend/core/ai_engine.py:312-319 | `elevenlabs` with a client goes to ElevenLabs, `gtts` to gTTS, and every other mode (local included) to native speech; the mode changes iff ElevenLabs was chosen and failed |
| Speech.TextToSpeech | backend/core/ai_engine.py:302-327 | empty or whitespace-only text returns none without consulting any provider; otherwise the cleaned text is dispatched and the mode can only be demoted |
| Speech.LocalModeUsesNativeSpeech | backend/core/ai_engine.py:312-319 | once demoted to `local`, speech goes to native speech, not the local engine, and the mode stays |
| Speech.LocalDispatch | backend/core/ai_engine.py:318-319 | the `local` and `system` modes both dispatch to native speech |
| Speech.ElevenLabsFailureDemotes | backend/core/ai_engine.py:312-354 | an ElevenLabs failure sets the mode to local and returns the local engine's audio, after calling ElevenLabs and then the local engine |
| Speech.ElevenLabsFallback | backend/core/ai_engine.py:330-354 | the same failure at dispatch level: ElevenLabs, then the local engine |
| Speech.SessionNeverPromotes | backend/core/ai_engine.py:312-353 | over any sequence of utterances the mode never moves back towards ElevenLabs, and the client is kept |
| Speech.InitTts | backend/core/ai_engine.py:109-151 | ElevenLabs is chosen iff a key is set, the client constructs and the test phrase succeeds; failing that, gTTS iff it imports and constructs; otherwise native speech; initialisation never picks `local` |
| Speech.InitModeLasts | backend/core/ai_engine.py:109-151 | unless ElevenLabs passed its start-up test, every later utterance is served by the start-up choice: gTTS when it was available, native speech otherwise |
| Dialogue.Transcribe | backend/core/ai_engine.py:167-221 | a transcript is returned iff there is a transcriber, the audio holds at least 1000 bytes, and the service returns text that is non-blank after stripping; the transcript is that text, stripped |
| Dialogue.IsSystemCommand | backend/core/ai_engine.py:222-259 | a command needs non-empty text and a command indicator in the lowered, stripped text |
| Dialogue.SystemCommandIff | backend/core/ai_engine.py:222-259 | a command iff the text is non-empty and mentions an indicator and a target but no question pattern |
| Dialogue.TakeLast | backend/core/ai_engine.py:292 | Python's `h[-n:]` is a suffix: the last n entries for positive n, all of them for 0, and all but the first -n for negative n |
| Dialogue.Trim | backend/core/ai_engine.py:291-292 | trimming keeps a suffix of at most `limit` entries when the limit is positive and leaves a history within the limit unchanged |
| Dialogue.Reply | backend/core/ai_engine.py:285-300 | a model failure keeps the user turn and apologises; a success appends the stripped reply and trims |
| Dialogue.GetResponse | backend/core/ai_engine.py:260-300 | without a model nothing changes; otherwise the user turn is appended, and then either the stripped reply is appended and the history trimmed, or (on failure) only the user turn stays and the apology is returned |
| Dialogue.ReplyRestoresBound | backend/core/ai_engine.py:267-292 | after a successful call with a positive limit the history is within the limit and ends with the reply, preceded by the user turn when the limit allows two |
| Dialogue.ConverseKeepsBound | backend/core/ai_engine.py:288-292 | over any run of successful calls the history stays within a positive limit |
| Dialogue.FailureOverrunsLimit | backend/core/ai_engine.py:267-300 | a failed call on a full history leaves it one entry over the limit |
| Dialogue.Snip | backend/core/ai_engine.py:484-486 | a message within n characters is kept; a longer one becomes its first n characters plus "..." |
| Dialogue.Window | backend/core/ai_engine.py:480 | `history[-5:-1]` is the four entries (fewer for shorter histories) before the latest one |
| Dialogue.ContextShowsRecentEntries | backend/core/ai_engine.py:474-488 | each of the (up to) four entries before the newest one appears in the context as a line with its role label and its text cut to 80 characters |
| Dialogue.ContextIgnoresLatest | backend/core/ai_engine.py:480 | the latest entry never affects the context |
| Dialogue.ContextSeesOnlyLastFive | backend/core/ai_engine.py:480 | entries older than the last five never affect the context |
| Dialogue.ContextBounded | backend/core/ai_engine.py:479-486 | context length is bounded by the header plus four lines of at most 92 characters |
| Dialogue.TopicsAreSnippedMessages | backend/core/ai_engine.py:559-561 | the topics are the user messages, in order, each cut to 50 characters |
| Dialogue.Take | backend/core/ai_engine.py:563 | `xs[:n]` is the first min(n, length) entries |
| Dialogue.RecentTopics | backend/core/ai_engine.py:559-563 | the topics are the first min(3, n) of the n user messages among the last six entries, in order, each cut to 50 characters |
| Dialogue.Summary | backend/core/ai_engine.py:551-564 | the fixed "No conversation history" text is returned iff the history is empty |
| Dialogue.SummaryCount | backend/core/ai_engine.py:556-563 | a non-empty history reports half its length, rounded down, as the number of exchanges |
| Dialogue.TopicsComeFromRecentUsers | backend/core/ai_engine.py:559-563 | every topic is a snipped user message among the last six entries, in order, and min(3, n) of them are shown |
| Dialogue.TopicsOfThreeExchanges | backend/core/ai_engine.py:559-563 | after three user/assistant exchanges the topics are the three user messages of those exchanges, oldest first |
| Wake.IRun | backend/core/friday_wake_word.py:162 | the run of 'i' letters starting at a position is maximal |
| Wake.MatchAtIff | backend/core/friday_wake_word.py:160-169 | a pattern matches at a position iff a word boundary precedes it and the word it spells is followed by a boundary |
| Wake.StretchedForward | backend/core/friday_wake_word.py:162 | a match of `fri+day` spells "fr", one or more 'i', then "day", between boundaries |
| Wake.StretchedBackward | backend/core/friday_wake_word.py:162 | any bounded word of that shape matches `fri+day` |
| Wake.SearchFromIff | backend/core/friday_wake_word.py:167-169 | the scan succeeds iff some later position matches |
| Wake.SearchIff | backend/core/friday_wake_word.py:168 | the left-to-right scan succeeds iff the text holds a word-bounded word that the pattern spells |
| Wake.ContainsWakeWordIff | backend/core/friday_wake_word.py:150-171 | the text wakes iff a configured phrase is a substring of the lowered, stripped text or one of the four fuzzy patterns matches |
| Wake.NormalizeIdempotent | backend/core/friday_wake_word.py:127-152 | lowering and stripping twice changes nothing more |
| Wake.PhraseWakes | backend/core/friday_wake_word.py:155-157 | a configured phrase inside the normalised text always wakes |
| Wake.FridaysMatchesAsSubstring | backend/core/friday_wake_word.py:155-157 | "fridays" wakes through plain substring containment, with no word boundary |
| Wake.StretchedIsAccepted | backend/core/friday_wake_word.py:162-168 | "friiiday" wakes through the fuzzy patterns alone |
| Wake.FrideyIsAccepted | backend/core/friday_wake_word.py:164-168 | "fridey" wakes through the fuzzy patterns alone |
| Wake.EmbeddedFuzzyWordIsRejected | backend/core/friday_wake_word.py:164 | "xfridey" does not match the word-bounded `fridey` pattern |
| Wake.DefaultPhrasesValid | backend/core/friday_wake_word.py:29-35 | the default phrase list is non-empty and duplicate-free |
| Wake.AddPhrase | backend/core/friday_wake_word.py:251-256 | the phrase is lowered and stripped; an empty or present phrase leaves the list alone, otherwise it is appended; a valid list stays valid |
| Wake.RemoveFirst | backend/core/friday_wake_word.py:262 | `list.remove` deletes the first occurrence and keeps the order of the other phrases; exactly one copy goes |
| Wake.RemoveFirstNoDup | backend/core/friday_wake_word.py:262 | on a duplicate-free list the removed phrase is gone and no duplicate appears |
| Wake.RemovePhrase | backend/core/friday_wake_word.py:258-265 | a phrase is removed only when present and more than one phrase exists, and then its first occurrence is deleted with the order of the rest kept; otherwise the list is unchanged |
| Wake.RemoveKeepsValid | backend/core/friday_wake_word.py:258-265 | removal keeps the list non-empty and duplicate-free, keeps every other phrase, and removes the phrase when more than one exists |
| Wake.EditsKeepValid | backend/core/friday_wake_word.py:251-265 | any sequence of additions and removals keeps the list non-empty and duplicate-free |
| Wake.StartListening | backend/core/friday_wake_word.py:65-85 | no recognizer gives false and no change; already listening gives true with nothing changed; otherwise the callback is stored, the flag set and one listener spawned |
| Wake.StopListening | backend/core/friday_wake_word.py:87-92 | the flag is always cleared and nothing else changes |
| Wake.StartTwiceStartsOnce | backend/core/friday_wake_word.py:71-73 | starting twice is the same as starting once |
| Wake.ListenersCountStarts | backend/core/friday_wake_word.py:65-92 | over any start/stop sequence, listeners are spawned exactly on the off-to-on transitions |
| Wake.HeardWakeWord | backend/core/friday_wake_word.py:123-148 | the callback fires iff something was recognised, its normalised text is non-empty and contains a wake word, and a callback is set |
| Wake.SetSensitivity | backend/core/friday_wake_word.py:228-249 | false with no recognizer; otherwise "high" gives 200/dynamic, "low" 500/static and anything else 300/dynamic |
| Wake.SensitivityOrder | backend/core/friday_wake_word.py:234-242 | high < medium < low thresholds, and only "low" turns dynamic adjustment off |
| Wake.SensitivityLastWins | backend/core/friday_wake_word.py:228-249 | setting the sensitivity twice is the same as setting it once to the second value |
| Controller.Lookup | backend/services/system_controller.py:112-113 | a key is found iff the table holds it, and the value found is paired with it in the table |
| Controller.NormalizeUrl | backend/services/system_controller.py:26-27 | the result always starts with "http://" or "https://", is the input when it already does, and otherwise prefixes "https://" |
| Controller.NormalizeUrlIdempotent | backend/services/system_controller.py:26-27 | normalising twice changes nothing more |
| Controller.ChooseBrowser | backend/services/system_controller.py:18-33 | a browser is used iff it is non-empty and its lowered name is supported, and then under its given name |
| Controller.OpenWebsite | backend/services/system_controller.py:22-38 | without error the normalised URL opens in the chosen browser with "Opening … in browser."; an error opens nothing and reports it |
| Controller.SiteAddress | backend/services/system_controller.py:192-215 | a known lowered, stripped name maps to its domain; an unknown one becomes the original name plus ".com" |
| Controller.OpenSpecificWebsite | backend/services/system_controller.py:190-215 | the site's address opens after URL normalisation; an error opens nothing |
| Controller.DomainsLackScheme | backend/services/system_controller.py:192-208 | every table domain is non-empty and starts with a letter other than 'h' |
| Controller.KnownSiteOpensHttps | backend/services/system_controller.py:190-215 | a known site always opens as "https://" plus its domain |
| Controller.TableDomainLacksScheme | backend/services/system_controller.py:192-208 | no table domain already carries a scheme |
| Controller.UnknownSiteKeepsSpelling | backend/services/system_controller.py:213-215 | an unknown site opens as the normalised original spelling plus ".com" |
| Controller.SearchBase | backend/services/system_controller.py:173-182 | a known lowered engine gives its base URL; any other falls back to Google |
| Controller.SearchBaseIsHttps | backend/services/system_controller.py:173-182 | every search base starts with "https://" |
| Controller.SearchWeb | backend/services/system_controller.py:170-188 | without error base + encoded query opens and the engine is named title-cased; an error opens nothing and reports it |
| Controller.SearchUrlSplits | backend/services/system_controller.py:180-182 | the opened search URL is exactly a table (or Google) base followed by the encoded query |
| Controller.SearchYoutube | backend/services/system_controller.py:40-51 | the results page for the encoded query opens, with the fixed message |
| Controller.PlayYoutubeVideo | backend/services/system_controller.py:53-64 | the same results page as a YouTube search opens, with its own message |
| Controller.ExecuteCommand | backend/services/system_controller.py:324-359 | a shell command runs iff the lowered first token is in the safe list; blank input reports "Empty command provided." and a disallowed one is refused; an allowed one replies with the report of running the whole line |
| Controller.CommandReport | backend/services/system_controller.py:341-359 | a completed run reports "Command output:" and the stripped stdout, then the stripped stderr when there is any; a time-out and an exception have their own replies |
| Controller.ReportTellsOutcome | backend/services/system_controller.py:350-359 | only a completed run's reply starts with the output header |
| Controller.AllowedStartsWithSafeWord | backend/services/system_controller.py:336-339 | an allowed command's first token is, letter for letter up to case, one of the safe commands |
| Controller.WindowsApp | backend/services/system_controller.py:79-125 | known names run their table command, the settings URI with its own message; unknown names are started by name |
| Controller.LookupAt | backend/services/system_controller.py:82-113 | an entry whose key no earlier entry has is what the dictionary lookup finds |
| Controller.SettingsNamesOpenSettings | backend/services/system_controller.py:93-118 | the three settings names open Windows Settings with the fixed message |
| Controller.UnixApp | backend/services/system_controller.py:143-165 | a known lowered name maps through the table; an unknown one passes through unchanged |
| Controller.OpenApplication | backend/services/system_controller.py:66-77 | dispatches on the platform, and an error reports "Unable to open …" |
| Controller.ManageVolume | backend/services/system_controller.py:361-418 | "mute" and "unmute" give fixed messages; "set" with a level reports it on macOS and Linux, while Windows presses volume-up and says "Volume adjusted."; anything else gives "Volume control completed." |
| Controller.VolumeReportsLevel | backend/services/system_controller.py:400-416 | on macOS and Linux "set" with a level reports "Volume set to N%." with N the decimal digits of the level, which read back to it |
| Desktop.EnhancedSystemCommandIff | frontend/desktop/gui/main_window.py:925-949 | a command iff some command pattern is a substring and no question phrase is |
| Desktop.SiteCommand | frontend/desktop/gui/main_window.py:983-989 | nothing opens exactly when no verb both occurs in the message and leaves a non-empty site after removal; otherwise the first such verb in list order decides the site |
| Desktop.YoutubeCommand | frontend/desktop/gui/main_window.py:966-972 | with a search word the query is the stripped text after the last "youtube" (the whole message when "youtube" is absent), and nothing opens exactly when that text is empty; without a search word youtube.com opens |
| Desktop.AppName | frontend/desktop/gui/main_window.py:993-1007 | no application exactly when no rung's words occur; otherwise the first rung in the order calculator, notepad, paint, settings, cmd/command prompt, task manager, explorer/files decides |
| Desktop.AppCommand | frontend/desktop/gui/main_window.py:992-1010 | an application is launched iff an application word is mentioned, and it is the one the priority chain names |
| Desktop.CommandFor | frontend/desktop/gui/main_window.py:951-1015 | the branches run in the order play, YouTube, Google, website, application: play words search the remainder or open youtube.com; "youtube" goes to the YouTube branch; a Google phrase searches the stripped remainder or opens google.com; a website word goes to the site loop; everything else to the application branch |
| Desktop.OpenNameOpensSite | frontend/desktop/gui/main_window.py:951-989 | "open", a space and a name without the letters of the play, YouTube and Google words opens the website of that name |
| Desktop.OpenCalculatorOpensSite | frontend/desktop/gui/main_window.py:937-1010 | "open calculator" opens a website named "calculator", not the calculator application, because the website branch runs before the application branch |
| Desktop.BrowseAloneDoesNothing | frontend/desktop/gui/main_window.py:983-1015 | a message with "browse" and none of the site verbs yields no command |
| Desktop.Perform | frontend/desktop/gui/main_window.py:961-1010 | an error launches nothing; everything except an app opens a URL in the default browser; video commands open the results page for the encoded terms, a Google search opens Google's base plus the encoded terms, a named site opens its normalised address, a plain URL opens normalised, and an app goes through `open_application` |
| Desktop.RouteMessage | frontend/desktop/gui/main_window.py:874-923 | camera plus control word goes to camera control; else a camera word with analysis or see/look/view goes to visual analysis; else a system command with a response; else the conversation |
| Desktop.ToggleCamera | frontend/desktop/gui/main_window.py:436-467 | an active camera is switched off; an inactive one is on afterwards iff it started |
| Desktop.HandleCameraControl | frontend/desktop/gui/main_window.py:1041-1058 | "on" verbs are checked before "off" verbs, the camera toggles only when its state differs, and otherwise the fixed fallback is returned |
| Desktop.CameraRequestIdempotent | frontend/desktop/gui/main_window.py:1045-1056 | repeating a camera request changes nothing more |
| Desktop.ActivationClaimedOnFailedStart | frontend/desktop/gui/main_window.py:1046-1048 | an "open camera" request reports activation even when the camera fails to start |
| Desktop.StartAutomaticRecording | frontend/desktop/gui/main_window.py:742-751 | a no-op when already recording; otherwise the recording flag is set |
| Desktop.HearCommand | frontend/desktop/gui/main_window.py:762-781 | audio is transcribed only above 2000 bytes, and a transcript is kept only when non-blank |
| Desktop.WindowGateSubsumesEngineGuard | frontend/desktop/gui/main_window.py:762 | audio past the window's gate always passes the engine's 1000-byte guard, and an accepted transcript is non-blank |
| Desktop.AutomaticRecording | frontend/desktop/gui/main_window.py:753-788 | the recording flag is cleared on the way out, and what is heard is the engine's recording put through the gates |
| Desktop.UnreadyEngineHearsNothing | frontend/desktop/gui/main_window.py:757-762 | an engine that is not ready yields "no clear audio" |
| Desktop.ManualVoiceRecording | frontend/desktop/gui/main_window.py:790-818 | an uninitialised engine only warns; otherwise the button starts a recording, or stops the one in progress |
| Desktop.ButtonTwiceStops | frontend/desktop/gui/main_window.py:797-818 | pressing the button twice ends with no recording in progress and the engine stopped |
| Desktop.SpeakResponse | frontend/desktop/gui/main_window.py:1060-1088 | a no-op while speaking; otherwise missing or empty audio is a generation failure, any other audio goes to playback, and playback success alone decides between played and playback failed; the speaking flag is clear afterwards |
| Desktop.BlankTextIsNotSpoken | frontend/desktop/gui/main_window.py:1072-1078 | blank text reports a generation failure and leaves the provider mode alone |
| Desktop.SendMessage | frontend/desktop/gui/main_window.py:853-872 | empty or placeholder input is ignored; anything else is sent stripped |

## Left out

- Threads and concurrency are modelled sequentially. This covers the daemon threads, the per-chunk recognition worker, the delayed temp-file cleanup, and `join` timeouts. It also covers the unsynchronised `is_recording`/`is_speaking` flags: `is_speaking` is only set inside the spawned thread, so the real guard is racy.
- Devices and the operating system are not modelled: PyAudio streams, pygame/winsound/afplay, `subprocess`, `os.system`, `webbrowser`, temp files and WAV writing. They appear only as oracle parameters or `error` arguments.
- Cloud SDKs are opaque oracles: Gemini, AssemblyAI, ElevenLabs, gTTS, pyttsx3 and Google speech recognition. The prompt text built by `_create_friday_prompt`, including the current time, and any attached image are folded into the model oracle.
- `urllib.parse.quote_plus` is the uninterpreted parameter `encode`.
- The four wake-word regular expressions are hand-coded matchers over ASCII word characters. No regex engine is modelled, and Unicode `\w` is not.
- `lower` and `title` are modelled on ASCII letters only.
- Controller.ExecuteCommand: lowering is ASCII-only. Python's full `lower` differs only on non-ASCII letters, and none appears in a safe command.
- The wall-clock `max_duration` is the frame cap `cap`.
- `_switch_to_next_provider` (backend/core/ai_engine.py:324) is not defined in the source. Every provider helper catches its own exceptions, so that branch is unreachable in the model and is omitted.
- `_play_with_pygame` is defined twice in audio_engine.py. Neither definition is modelled; the backends are the `works` predicate.
- Floating-point code is not modelled: the image resize in main_window.py and the energy-threshold `min` in friday_wake_word.py.
- `handle_visual_analysis`, `analyze_image`, `capture_and_analyze` and the video feed are not modelled. They depend on the camera and the vision model; routing to visual analysis is modelled.
- The file and system-information operations of system_controller.py are not part of this model: `create_file`, `read_file`, `list_directory` and `get_system_info`.
- backend/core/video_engine.py, backend/web_api.py, backend/config/settings.py, scripts/setup.py, the launchers and all tkinter widget construction are not part of this model.
- Dialogue.IsSystemCommand: its own contract states only the necessary condition. The full if-and-only-if is `Dialogue.SystemCommandIff`.
- Speech.AcceptOrNative: its fallback is the corrected `Speech.SystemTts`, not the Linux branch as written (see "## Findings"). The as-written behaviour is `Speech.SystemTtsAsWritten`.
- Speech.LocalTts: it also falls back to the corrected `Speech.SystemTts`. `Speech.ElevenLabsTts` and `Desktop.SpeakResponse` inherit this through their calls.
- Audio.Sample: it reads little-endian samples. `struct.unpack` with a bare format uses the host's native byte order, which is little-endian on the platforms the program targets.
- Audio.PlayAudio: `_play_with_system_command` returns True on every platform unless an exception escapes (backend/core/audio_engine.py:279-316). The `works` oracle may still report failure for it, so the model admits runs that reach the default application, which the source reaches only after such an exception.
- Dialogue.GetResponse: the `image_data` argument and the image it attaches to the request (backend/core/ai_engine.py:274-278) are folded into the model oracle.

## Findings

| source | as written | input that shows it | evidently intended | confidence | as-written member | corrected member |
|---|---|---|---|---|---|---|
| backend/core/ai_engine.py:430,443-452 | `subprocess` is imported only inside the Windows branch of `_system_tts`, so the Linux branch raises `NameError` and the method returns None | platform Linux, espeak installed and working | Linux tries espeak, then festival, and reports the played sentinel on success | not executed | Speech.SystemTtsAsWritten | Speech.SystemTts |

The corrected `Speech.SystemTts` is the definition the rest of the model uses.
`Speech.LinuxNativeSpeechAsWrittenFails` proves the two differ on that input.

All-silent input ends after 31 chunks. The code requires more than 10 chunks
and more than 30 consecutive quiet ones.

=== FILE: audio.dfy ===
/** The audio engine: endpointed recording of 16-bit mono PCM chunks with a
    peak-amplitude silence heuristic, the stop request that cancels it, and
    the ordered fallback chain of playback backends.

    The microphone is an oracle: `stream(k)` is what the k-th iteration of the
    recording loop sees. `cap` bounds the number of iterations and stands for
    the wall-clock `max_duration`. */
module Audio {
  import opened Base

  /** Samples per chunk (`chunk_size`) and the bytes they occupy. */
  const ChunkSamples: nat := 1024
  const ChunkBytes: nat := 2048
  /** A chunk whose peak |sample| exceeds this is voice. */
  const VoiceThreshold: nat := 500
  /** Consecutive quiet chunks that must be exceeded to stop (`silence_threshold`). */
  const SilenceLimit: nat := 30
  /** Chunks that must be exceeded before silence may stop (`min_recording_chunks`). */
  const MinChunks: nat := 10

  // ---------------------------------------------------------------------
  // Samples and loudness

  /** The k-th signed 16-bit sample of a little-endian PCM buffer. */
  function Sample(data: bytes, k: nat): (v: int)
    requires 2 * k + 1 < |data|
    ensures -32768 <= v < 32768
  {
    var u := data[2 * k] as int + 256 * data[2 * k + 1] as int;
    if u >= 32768 then u - 65536 else u
  }

  function Abs(x: int): nat {
    if x < 0 then -x else x
  }

  /** Python's `max(abs(x) for x in samples)`, 0 for an empty buffer. */
  function Peak(data: bytes): nat
    decreases |data|
  {
    if |data| < 2 then 0
    else
      var a := Abs(Sample(data, 0));
      var m := Peak(data[2..]);
      if a > m then a else m
  }

  /** The peak exceeds a bound exactly when some sample does. */
  lemma {:induction false} PeakAbove(data: bytes, t: nat)
    ensures Peak(data) > t <==> exists k :: 0 <= k < |data| / 2 && Abs(Sample(data, k)) > t
    decreases |data|
  {
    if |data| >= 2 {
      var rest := data[2..];
      PeakAbove(rest, t);
      forall k | 0 <= k < |rest| / 2 ensures Sample(rest, k) == Sample(data, k + 1) {
        assert rest[2 * k] == data[2 * (k + 1)];
        assert rest[2 * k + 1] == data[2 * (k + 1) + 1];
      }
      if Peak(data) > t && Abs(Sample(data, 0)) <= t {
        var k :| 0 <= k < |rest| / 2 && Abs(Sample(rest, k)) > t;
        assert Abs(Sample(data, k + 1)) > t;
      }
      if exists k :: 0 <= k < |data| / 2 && Abs(Sample(data, k)) > t {
        var k :| 0 <= k < |data| / 2 && Abs(Sample(data, k)) > t;
        if k > 0 {
          assert Abs(Sample(rest, k - 1)) > t;
        }
      }
    }
  }

  /** A full chunk counts as voice when its peak amplitude exceeds 500. */
  predicate Loud(data: bytes)
    requires |data| == ChunkBytes
  {
    Peak(data) > VoiceThreshold
  }

  lemma LoudIff(data: bytes)
    requires |data| == ChunkBytes
    ensures Loud(data) <==> exists k :: 0 <= k < ChunkSamples && Abs(Sample(data, k)) > VoiceThreshold
  {
    PeakAbove(data, VoiceThreshold);
  }

  // ---------------------------------------------------------------------
  // Reads and chunk classification

  /** What one iteration of the recording loop observes: a chunk from the
      stream, a read that raised, or a stop request that cleared
      `is_recording` before the loop condition was evaluated. */
  datatype Read = Chunk(data: bytes) | ReadFailed | StopRequested

  /** A chunk `struct.unpack` accepts: exactly 1024 samples. */
  predicate WellFormed(r: Read) {
    r.Chunk? && |r.data| == ChunkBytes
  }

  predicate Quiet(r: Read) {
    WellFormed(r) && !Loud(r.data)
  }

  /** The number of quiet chunks that end the first n reads. */
  function QuietRun(stream: nat -> Read, n: nat): (q: nat)
    ensures q <= n
    decreases n
  {
    if n == 0 then 0 else if Quiet(stream(n - 1)) then QuietRun(stream, n - 1) + 1 else 0
  }

  /** QuietRun is the length of the maximal quiet suffix: the last q reads are
      quiet, and the read before them (if any) is not. */
  lemma {:induction false} QuietRunIsTrailingRun(stream: nat -> Read, n: nat)
    ensures forall j :: n - QuietRun(stream, n) <= j < n ==> Quiet(stream(j))
    ensures QuietRun(stream, n) < n ==> !Quiet(stream(n - QuietRun(stream, n) - 1))
    decreases n
  {
    if n > 0 && Quiet(stream(n - 1)) {
      QuietRunIsTrailingRun(stream, n - 1);
      var q := QuietRun(stream, n - 1);
      assert QuietRun(stream, n) == q + 1;
      forall j | n - (q + 1) <= j < n ensures Quiet(stream(j)) {
        if j < n - 1 {
          assert n - 1 - q <= j < n - 1;
        }
      }
    }
  }

  /** After n chunks, the silence condition that ends a recording holds:
      more than 10 chunks and more than 30 consecutive quiet ones. */
  predicate SilenceStop(stream: nat -> Read, n: nat) {
    n > MinChunks && QuietRun(stream, n) > SilenceLimit
  }

  // ---------------------------------------------------------------------
  // The recording loop

  datatype Stop = Deadline | SilenceDetected | ChunkError | Cancelled

  /** How a recording loop ended: the number of chunks appended to `frames`
      and the reason the loop was left. */
  datatype Capture = Capture(count: nat, stop: Stop)

  /** The loop of `record_audio_improved` from iteration k with `silence`
      consecutive quiet chunks so far. A chunk is appended before it is
      unpacked, so a malformed chunk is kept even though it ends the loop. */
  function Scan(stream: nat -> Read, cap: nat, k: nat, silence: nat): Capture
    decreases cap - k
  {
    if k >= cap then Capture(k, Deadline)
    else match stream(k)
      case StopRequested => Capture(k, Cancelled)
      case ReadFailed => Capture(k, ChunkError)
      case Chunk(d) =>
        if |d| != ChunkBytes then Capture(k + 1, ChunkError)
        else
          var s := if Loud(d) then 0 else silence + 1;
          if k + 1 > MinChunks && s > SilenceLimit then Capture(k + 1, SilenceDetected)
          else Scan(stream, cap, k + 1, s)
  }

  /** What the loop ends with, stated without reference to the loop. */
  ghost predicate CaptureSpec(stream: nat -> Read, cap: nat, c: Capture) {
    && c.count <= cap
    // every appended frame is stream data; only the last may be malformed
    && (forall j :: 0 <= j < c.count ==> stream(j).Chunk?)
    && (forall j :: 0 <= j < c.count - 1 ==> WellFormed(stream(j)))
    // the silence stop is taken at the first chunk count where it holds
    && (c.stop == SilenceDetected <==> c.count > 0 && SilenceStop(stream, c.count))
    && (forall n :: 0 < n < c.count ==> !SilenceStop(stream, n))
    && (c.stop == Deadline ==> c.count == cap)
    && (c.stop == Cancelled ==> c.count < cap && stream(c.count) == StopRequested)
    && (c.stop == ChunkError ==>
          (c.count < cap && stream(c.count) == ReadFailed)
          || (c.count > 0 && !WellFormed(stream(c.count - 1))))
    // a malformed chunk is the last one kept, and it ends the loop as an error
    && (c.count > 0 && !WellFormed(stream(c.count - 1)) ==> c.stop == ChunkError)
  }

  /** The description leaves no freedom: at most one capture meets it, so
      with ScanFromStart it characterises the loop completely. */
  lemma CaptureSpecUnique(stream: nat -> Read, cap: nat, c1: Capture, c2: Capture)
    requires CaptureSpec(stream, cap, c1) && CaptureSpec(stream, cap, c2)
    ensures c1 == c2
  {
  }

  lemma {:induction false} ScanMeetsSpec(stream: nat -> Read, cap: nat, k: nat)
    requires k <= cap
    requires forall j :: 0 <= j < k ==> WellFormed(stream(j))
    requires forall n :: 0 < n <= k ==> !SilenceStop(stream, n)
    ensures var c := Scan(stream, cap, k, QuietRun(stream, k));
      k <= c.count && CaptureSpec(stream, cap, c)
    decreases cap - k
  {
    var c := Scan(stream, cap, k, QuietRun(stream, k));
    if k < cap && WellFormed(stream(k)) {
      var s := if Loud(stream(k).data) then 0 else QuietRun(stream, k) + 1;
      assert s == QuietRun(stream, k + 1);
      if !(k + 1 > MinChunks && s > SilenceLimit) {
        assert c == Scan(stream, cap, k + 1, QuietRun(stream, k + 1));
        ExtendPrefix(stream, k);
        ScanMeetsSpec(stream, cap, k + 1);
      } else {
        assert c == Capture(k + 1, SilenceDetected);
        EndsOnSilence(stream, cap, k);
      }
    } else if k < cap && stream(k).Chunk? {
      assert c == Capture(k + 1, ChunkError);
      EndsOnMalformed(stream, cap, k);
    } else {
      assert c.count == k;
      EndsBeforeRead(stream, cap, k, c.stop);
    }
  }

  /** A well-formed chunk k with no silence stop after it extends the prefix
      the loop has accepted. */
  lemma ExtendPrefix(stream: nat -> Read, k: nat)
    requires WellFormed(stream(k)) && !SilenceStop(stream, k + 1)
    requires forall j :: 0 <= j < k ==> WellFormed(stream(j))
    requires forall n :: 0 < n <= k ==> !SilenceStop(stream, n)
    ensures forall j :: 0 <= j < k + 1 ==> WellFormed(stream(j))
    ensures forall n :: 0 < n <= k + 1 ==> !SilenceStop(stream, n)
  {
  }

  /** The silence stop after chunk k + 1 meets the description. */
  lemma EndsOnSilence(stream: nat -> Read, cap: nat, k: nat)
    requires k < cap && WellFormed(stream(k))
    requires forall j :: 0 <= j < k ==> WellFormed(stream(j))
    requires forall n :: 0 < n <= k ==> !SilenceStop(stream, n)
    requires SilenceStop(stream, k + 1)
    ensures CaptureSpec(stream, cap, Capture(k + 1, SilenceDetected))
  {
  }

  /** Appending a malformed chunk k ends the loop as described. */
  lemma EndsOnMalformed(stream: nat -> Read, cap: nat, k: nat)
    requires k < cap && stream(k).Chunk? && !WellFormed(stream(k))
    requires forall j :: 0 <= j < k ==> WellFormed(stream(j))
    requires forall n :: 0 < n <= k ==> !SilenceStop(stream, n)
    ensures CaptureSpec(stream, cap, Capture(k + 1, ChunkError))
  {
    assert QuietRun(stream, k + 1) == 0;
  }

  /** Leaving the loop before read k appends nothing more. */
  lemma EndsBeforeRead(stream: nat -> Read, cap: nat, k: nat, stop: Stop)
    requires k <= cap
    requires k == cap ==> stop == Deadline
    requires k < cap ==> (!stream(k).Chunk? &&
      stop == (if stream(k) == StopRequested then Cancelled else ChunkError))
    requires forall j :: 0 <= j < k ==> WellFormed(stream(j))
    requires forall n :: 0 < n <= k ==> !SilenceStop(stream, n)
    ensures CaptureSpec(stream, cap, Capture(k, stop))
  {
  }

  /** The whole recording loop meets its declarative description. */
  lemma ScanFromStart(stream: nat -> Read, cap: nat)
    ensures CaptureSpec(stream, cap, Scan(stream, cap, 0, 0))
  {
    ScanMeetsSpec(stream, cap, 0);
  }

  /** A silence stop is never taken while 10 or fewer chunks have been read. */
  lemma NoEarlySilenceStop(stream: nat -> Read, cap: nat)
    ensures var c := Scan(stream, cap, 0, 0);
      c.stop == SilenceDetected ==> c.count > MinChunks && QuietRun(stream, c.count) > SilenceLimit
  {
    ScanFromStart(stream, cap);
  }

  /** All-quiet input stops on silence after exactly 31 chunks, provided the
      cap allows that many. */
  lemma AllQuietStopsAt31(stream: nat -> Read, cap: nat)
    requires forall j :: Quiet(stream(j))
    requires cap >= 31
    ensures Scan(stream, cap, 0, 0) == Capture(31, SilenceDetected)
  {
    ScanFromStart(stream, cap);
    var c := Scan(stream, cap, 0, 0);
    AllQuietRun(stream, 31);
    assert SilenceStop(stream, 31);
    AllQuietRun(stream, c.count);
    assert Quiet(stream(c.count));
  }

  lemma {:induction false} AllQuietRun(stream: nat -> Read, n: nat)
    requires forall j :: Quiet(stream(j))
    ensures QuietRun(stream, n) == n
    decreases n
  {
    if n > 0 {
      AllQuietRun(stream, n - 1);
    }
  }

  /** Continuous voice never stops on silence: the loop runs to the cap. */
  lemma LoudRunsToCap(stream: nat -> Read, cap: nat)
    requires forall j :: WellFormed(stream(j)) && Loud(stream(j).data)
    ensures Scan(stream, cap, 0, 0) == Capture(cap, Deadline)
  {
    ScanFromStart(stream, cap);
    var c := Scan(stream, cap, 0, 0);
    if c.count > 0 {
      assert QuietRun(stream, c.count) == 0;
    }
  }

  // ---------------------------------------------------------------------
  // Engine state and the recording entry point

  datatype Engine = Engine(initialized: bool, hasPa: bool, isRecording: bool, recordingStopped: bool)

  /** The input device as the recorder uses it: whether `pa.open` succeeds,
      whether stopping and closing the stream succeeds, and what is read. */
  datatype Device = Device(opens: bool, closes: bool, stream: nat -> Read)

  /** The data of the first n stream, as `frames` holds it. */
  function Frames(stream: nat -> Read, n: nat): (fs: seq<bytes>)
    ensures |fs| == n
    ensures forall j :: 0 <= j < n && stream(j).Chunk? ==> fs[j] == stream(j).data
  {
    seq(n, j requires 0 <= j < n => if stream(j).Chunk? then stream(j).data else [])
  }

  /** `stop_recording`: clears `is_recording` and records the stop request. */
  function StopRecording(e: Engine): (e': Engine)
    ensures !e'.isRecording && e'.recordingStopped
    ensures e'.initialized == e.initialized && e'.hasPa == e.hasPa
  {
    e.(isRecording := false, recordingStopped := true)
  }

  /** `record_audio_improved`. An uninitialised engine is left untouched;
      otherwise `is_recording` is false on every way out, and the result is
      the concatenation of every chunk read, or None when there was none or
      the stream could not be opened or closed. */
  function Record(e: Engine, dev: Device, cap: nat): (res: (Engine, Option<bytes>))
    ensures !e.initialized || !e.hasPa ==> res == (e, None)
    ensures e.initialized && e.hasPa ==> !res.0.isRecording
    ensures res.0.initialized == e.initialized && res.0.hasPa == e.hasPa
    ensures res.1.Some? ==> |res.1.value| > 0 || exists j :: 0 <= j < cap && dev.stream(j).Chunk?
  {
    if !e.initialized || !e.hasPa then (e, None)
    else if !dev.opens then (e.(isRecording := false), None)
    else
      var c := Scan(dev.stream, cap, 0, 0);
      ScanFromStart(dev.stream, cap);
      var e' := e.(isRecording := false, recordingStopped := c.stop == Cancelled);
      if !dev.closes || c.count == 0 then (e', None)
      else
        assert dev.stream(0).Chunk?;
        (e', Some(Flatten(Frames(dev.stream, c.count))))
  }

  /** The recording loop written as the source writes it, with the frame list
      and silence counter updated in place; it computes what `Record` does. */
  method RecordLoop(e: Engine, dev: Device, cap: nat) returns (e': Engine, audio: Option<bytes>)
    ensures (e', audio) == Record(e, dev, cap)
    ensures e.initialized && e.hasPa ==> !e'.isRecording
    ensures audio.Some? ==> |audio.value| > 0 || dev.stream(0).Chunk?
  {
    if !e.initialized || !e.hasPa {
      return e, None;
    }
    if !dev.opens {
      return e.(isRecording := false), None;
    }
    var stopped := false;
    var frames: seq<bytes> := [];
    var silence := 0;
    var k := 0;
    ghost var c := Scan(dev.stream, cap, 0, 0);
    while k < cap
      invariant k <= cap
      invariant frames == Frames(dev.stream, k)
      invariant Scan(dev.stream, cap, k, silence) == c
      invariant !stopped
    {
      match dev.stream(k) {
        case StopRequested =>
          stopped := true;
          break;
        case ReadFailed =>
          break;
        case Chunk(d) =>
          frames := frames + [d];
          assert frames == Frames(dev.stream, k + 1);
          if |d| != ChunkBytes {
            break;
          }
          silence := if Loud(d) then 0 else silence + 1;
          k := k + 1;
          if k > MinChunks && silence > SilenceLimit {
            break;
          }
      }
    }
    assert |frames| == c.count && frames == Frames(dev.stream, c.count);
    assert stopped == (c.stop == Cancelled);
    ScanFromStart(dev.stream, cap);
    e' := e.(isRecording := false, recordingStopped := stopped);
    if !dev.closes || |frames| == 0 {
      return e', None;
    }
    audio := Some(Flatten(frames));
  }

  /** A recording ended by a stop request leaves the engine as
      `stop_recording` does. */
  lemma CancelledLeavesStopped(e: Engine, dev: Device, cap: nat)
    requires e.initialized && e.hasPa && dev.opens
    requires Scan(dev.stream, cap, 0, 0).stop == Cancelled
    ensures Record(e, dev, cap).0 == StopRecording(e)
  {
  }

  /** The buffer is the in-order concatenation of every chunk read, trailing
      silence included, and an empty loop yields None rather than `b''`. */
  lemma RecordIsConcatenation(e: Engine, dev: Device, cap: nat)
    requires e.initialized && e.hasPa && dev.opens && dev.closes
    ensures var c := Scan(dev.stream, cap, 0, 0);
      var audio := Record(e, dev, cap).1;
      && (audio == None <==> c.count == 0)
      && (audio.Some? ==>
            |audio.value| == TotalLength(Frames(dev.stream, c.count))
            && audio.value == Flatten(Frames(dev.stream, c.count)))
  {
    var c := Scan(dev.stream, cap, 0, 0);
    FlattenLength(Frames(dev.stream, c.count));
  }

  /** Every chunk of an all-quiet recording of at least 31 iterations is kept:
      the buffer holds exactly 31 chunks' worth of bytes. */
  lemma AllQuietBufferLength(e: Engine, dev: Device, cap: nat)
    requires e.initialized && e.hasPa && dev.opens && dev.closes
    requires forall j :: Quiet(dev.stream(j))
    requires cap >= 31
    ensures Record(e, dev, cap).1.Some?
    ensures |Record(e, dev, cap).1.value| == 31 * ChunkBytes
  {
    AllQuietStopsAt31(dev.stream, cap);
    FlattenLength(Frames(dev.stream, 31));
    FullChunksLength(dev.stream, 31);
  }

  lemma {:induction false} FullChunksLength(stream: nat -> Read, n: nat)
    requires forall j :: 0 <= j < n ==> WellFormed(stream(j))
    ensures TotalLength(Frames(stream, n)) == n * ChunkBytes
    decreases n
  {
    if n > 0 {
      FullChunksLength(stream, n - 1);
      assert Frames(stream, n)[..n - 1] == Frames(stream, n - 1);
    }
  }

  // ---------------------------------------------------------------------
  // Playback fallback chain

  datatype Backend = Pygame | SystemCommand | DefaultApp

  /** The backends `play_audio_improved` tries, in order: the mixer library
      only when it imported. */
  function BackendOrder(hasPygame: bool): (order: seq<Backend>)
    ensures |order| > 0 && order[|order| - 1] == DefaultApp
    ensures (Pygame in order) == hasPygame
  {
    (if hasPygame then [Pygame] else []) + [SystemCommand, DefaultApp]
  }

  datatype Playback = Playback(success: bool, tried: seq<Backend>)

  /** Tries each backend in turn and stops at the first that succeeds. */
  function TryInOrder(order: seq<Backend>, works: Backend -> bool): (p: Playback)
    ensures |p.tried| <= |order| && p.tried == order[..|p.tried|]
    ensures p.success <==> exists i :: 0 <= i < |order| && works(order[i])
    ensures p.success ==> |p.tried| > 0 && works(p.tried[|p.tried| - 1])
    ensures forall i :: 0 <= i < |p.tried| - 1 ==> !works(p.tried[i])
    ensures !p.success ==> p.tried == order
    decreases |order|
  {
    if |order| == 0 then Playback(false, [])
    else if works(order[0]) then Playback(true, [order[0]])
    else
      var rest := TryInOrder(order[1..], works);
      assert forall i :: 0 < i < |order| ==> order[i] == order[1..][i - 1];
      Playback(rest.success, [order[0]] + rest.tried)
  }

  /** `play_audio_improved`: empty data, or a temporary file that cannot be
      written, fails without trying any backend; otherwise backends are tried
      in priority order and the first success wins. */
  function PlayAudio(data: bytes, hasPygame: bool, tempFileOk: bool, works: Backend -> bool): (p: Playback)
    ensures |data| == 0 || !tempFileOk ==> p == Playback(false, [])
    ensures |data| > 0 && tempFileOk ==>
      (p.success <==> (hasPygame && works(Pygame)) || works(SystemCommand) || works(DefaultApp))
    ensures |p.tried| > 0 ==> p.tried[0] == (if hasPygame then Pygame else SystemCommand)
    ensures p.success ==> |p.tried| > 0 && works(p.tried[|p.tried| - 1])
  {
    if |data| == 0 || !tempFileOk then Playback(false, [])
    else
      var order := BackendOrder(hasPygame);
      var p := TryInOrder(order, works);
      if hasPygame then
        assert order == [Pygame, SystemCommand, DefaultApp];
        assert p.success <==> works(order[0]) || works(order[1]) || works(order[2]) by {
          if p.success { var i :| 0 <= i < |order| && works(order[i]); }
        }
        p
      else
        assert order == [SystemCommand, DefaultApp];
        assert p.success <==> works(order[0]) || works(order[1]) by {
          if p.success { var i :| 0 <= i < |order| && works(order[i]); }
        }
        p
  }
}

=== FILE: base.dfy ===
/** Small shared vocabulary: an optional value, bytes, and flattening a
    sequence of byte chunks into one buffer (Python's `b''.join`). */
module Base {

  datatype Option<+T> = None | Some(value: T)

  newtype byte = x: int | 0 <= x < 256

  type bytes = seq<byte>

  /** The in-order concatenation of every chunk. */
  function Flatten(chunks: seq<bytes>): (r: bytes)
    ensures |chunks| == 0 ==> r == []
    decreases |chunks|
  {
    if |chunks| == 0 then [] else Flatten(chunks[..|chunks| - 1]) + chunks[|chunks| - 1]
  }

  /** Total length of every chunk. */
  function TotalLength(chunks: seq<bytes>): nat
    decreases |chunks|
  {
    if |chunks| == 0 then 0 else TotalLength(chunks[..|chunks| - 1]) + |chunks[|chunks| - 1]|
  }

  /** Flattening keeps every byte: the buffer is as long as the chunks together. */
  lemma {:induction false} FlattenLength(chunks: seq<bytes>)
    ensures |Flatten(chunks)| == TotalLength(chunks)
    decreases |chunks|
  {
    if |chunks| > 0 {
      FlattenLength(chunks[..|chunks| - 1]);
    }
  }

  /** The host operating system, as `platform.system().lower()` classifies
      it: "windows", "darwin", and everything else treated as Linux. */
  datatype Platform = Windows | MacOS | Linux

  /** The bytes of an ASCII text. */
  function AsciiBytes(s: string): (r: bytes)
    requires forall i :: 0 <= i < |s| ==> s[i] as int < 256
    ensures |r| == |s|
    ensures forall i :: 0 <= i < |s| ==> r[i] as int == s[i] as int
  {
    seq(|s|, i requires 0 <= i < |s| => s[i] as int as byte)
  }
}

=== FILE: controller.dfy ===
/** The system controller: the decisions it makes before handing anything to
    the browser, the shell or the process launcher. Each operation returns
    what it would launch together with the message it reports; the launch
    itself is not modelled, and where a launch can raise, the exception's
    text is a parameter. */
module Controller {
  import opened Base
  import opened Strings

  /** What an operation hands to the operating system. */
  datatype Launch =
    | OpenUrl(url: string, browser: Option<string>)  // `webbrowser.get(b).open` or `webbrowser.open`
    | Shell(command: string)                          // `subprocess.Popen(cmd, shell=True)`
    | Exec(argv: seq<string>)                         // `subprocess.Popen([...])`
    | NoLaunch

  /** Exact lookup in a table of pairs, as a dict lookup. */
  function Lookup(table: seq<(string, string)>, key: string): (r: Option<string>)
    ensures r.Some? <==> exists k :: 0 <= k < |table| && table[k].0 == key
    ensures r.Some? ==> exists k :: 0 <= k < |table| && table[k] == (key, r.value)
    decreases |table|
  {
    if |table| == 0 then None
    else if table[0].0 == key then Some(table[0].1)
    else
      var r := Lookup(table[1..], key);
      assert forall k :: 0 < k < |table| ==> table[k] == table[1..][k - 1];
      r
  }

  // ---------------------------------------------------------------------
  // Websites

  const SupportedBrowsers: seq<string> := ["chrome", "firefox", "safari", "edge", "brave", "opera"]

  predicate HasScheme(url: string) {
    StartsWith(url, "http://") || StartsWith(url, "https://")
  }

  /** "https://" is put in front of a URL that carries neither scheme. */
  function NormalizeUrl(url: string): (r: string)
    ensures HasScheme(r)
    ensures HasScheme(url) ==> r == url
    ensures !HasScheme(url) ==> r == "https://" + url
  {
    if HasScheme(url) then url
    else
      var r := "https://" + url;
      assert r[..8] == "https://";
      r
  }

  lemma NormalizeUrlIdempotent(url: string)
    ensures NormalizeUrl(NormalizeUrl(url)) == NormalizeUrl(url)
  {
  }

  /** The browser actually asked for: the given name, unchanged, when it is
      non-empty and its lower-cased form is supported. */
  function ChooseBrowser(browser: string): (r: Option<string>)
    ensures r.Some? <==> browser != [] && Lower(browser) in SupportedBrowsers
    ensures r.Some? ==> r.value == browser
  {
    if browser != [] && Lower(browser) in SupportedBrowsers then Some(browser) else None
  }

  /** `open_website`. `error` is the text of the exception the browser call
      raised, if it did. */
  function OpenWebsite(url: string, browser: string, error: Option<string>): (res: (Launch, string))
    ensures res.0.OpenUrl? ==> HasScheme(res.0.url) && res.0.url == NormalizeUrl(url)
    ensures error.None? ==> res == (OpenUrl(NormalizeUrl(url), ChooseBrowser(browser)),
                                     "Opening " + NormalizeUrl(url) + " in browser.")
    ensures error.Some? ==> res == (NoLaunch, "Unable to open website: " + error.value)
  {
    var u := NormalizeUrl(url);
    match error
    case Some(e) => (NoLaunch, "Unable to open website: " + e)
    case None => (OpenUrl(u, ChooseBrowser(browser)), "Opening " + u + " in browser.")
  }

  const Websites: seq<(string, string)> := [
    ("google", "google.com"), ("youtube", "youtube.com"), ("facebook", "facebook.com"),
    ("twitter", "twitter.com"), ("instagram", "instagram.com"), ("linkedin", "linkedin.com"),
    ("github", "github.com"), ("stackoverflow", "stackoverflow.com"), ("reddit", "reddit.com"),
    ("amazon", "amazon.com"), ("netflix", "netflix.com"), ("gmail", "gmail.com"),
    ("outlook", "outlook.com"), ("wikipedia", "wikipedia.org"), ("whatsapp", "web.whatsapp.com")
  ]

  /** The address `open_specific_website` passes on: the table's domain for
      a known name, otherwise the name as given followed by ".com". */
  function SiteAddress(site: string): (r: string)
    ensures Lookup(Websites, Strip(Lower(site))).Some? ==> r == Lookup(Websites, Strip(Lower(site))).value
    ensures Lookup(Websites, Strip(Lower(site))).None? ==> r == site + ".com"
  {
    match Lookup(Websites, Strip(Lower(site)))
    case Some(d) => d
    case None => site + ".com"
  }

  /** `open_specific_website`: the address goes through `open_website`. */
  function OpenSpecificWebsite(site: string, error: Option<string>): (res: (Launch, string))
    ensures error.None? ==> res.0 == OpenUrl(NormalizeUrl(SiteAddress(site)), None)
    ensures error.Some? ==> res.0 == NoLaunch
  {
    OpenWebsite(SiteAddress(site), [], error)
  }

  /** No table domain starts with 'h', so none carries a scheme. */
  lemma DomainsLackScheme()
    ensures forall k :: 0 <= k < |Websites| ==> |Websites[k].1| > 0 && Websites[k].1[0] != 'h'
  {
  }

  /** A known site is opened over https at its table domain. */
  lemma KnownSiteOpensHttps(site: string, error: Option<string>)
    requires Lookup(Websites, Strip(Lower(site))).Some? && error.None?
    ensures OpenSpecificWebsite(site, error).0.url == "https://" + Lookup(Websites, Strip(Lower(site))).value
  {
    TableDomainLacksScheme(Strip(Lower(site)));
  }

  lemma TableDomainLacksScheme(key: string)
    requires Lookup(Websites, key).Some?
    ensures !HasScheme(Lookup(Websites, key).value)
  {
    var d := Lookup(Websites, key).value;
    var k :| 0 <= k < |Websites| && Websites[k] == (key, d);
    DomainsLackScheme();
    SchemeStartsWithH(d);
  }

  lemma SchemeStartsWithH(url: string)
    ensures HasScheme(url) ==> |url| > 0 && url[0] == 'h'
  {
    if StartsWith(url, "http://") {
      assert url[..7][0] == url[0];
    } else if StartsWith(url, "https://") {
      assert url[..8][0] == url[0];
    }
  }

  /** An unknown name is neither stripped nor lower-cased before ".com" is
      added. */
  lemma UnknownSiteKeepsSpelling(site: string, error: Option<string>)
    requires Lookup(Websites, Strip(Lower(site))).None? && error.None?
    ensures OpenSpecificWebsite(site, error).0.url == NormalizeUrl(site + ".com")
  {
  }

  // ---------------------------------------------------------------------
  // Searches

  const SearchEngines: seq<(string, string)> := [
    ("google", "https://www.google.com/search?q="),
    ("bing", "https://www.bing.com/search?q="),
    ("duckduckgo", "https://duckduckgo.com/?q="),
    ("yahoo", "https://search.yahoo.com/search?p=")
  ]

  const GoogleBase: string := "https://www.google.com/search?q="

  /** The base URL for an engine name, falling back to Google. */
  function SearchBase(engine: string): (r: string)
    ensures Lookup(SearchEngines, Lower(engine)).Some? ==> r == Lookup(SearchEngines, Lower(engine)).value
    ensures Lookup(SearchEngines, Lower(engine)).None? ==> r == GoogleBase
  {
    match Lookup(SearchEngines, Lower(engine))
    case Some(b) => b
    case None => GoogleBase
  }

  /** Every search base is an https address. */
  lemma SearchBaseIsHttps(engine: string)
    ensures StartsWith(SearchBase(engine), "https://")
  {
    var b := SearchBase(engine);
    if Lookup(SearchEngines, Lower(engine)).Some? {
      var k :| 0 <= k < |SearchEngines| && SearchEngines[k] == (Lower(engine), b);
    }
  }

  /** `search_web`: the browser is sent to base + encoded query, and the
      message names the engine title-cased. `encode` stands for
      `urllib.parse.quote_plus`. */
  function SearchWeb(query: string, engine: string, encode: string -> string, error: Option<string>): (res: (Launch, string))
    ensures error.None? ==> res.0 == OpenUrl(SearchBase(engine) + encode(query), None)
    ensures error.None? ==> res.1 == "Searching for '" + query + "' on " + Title(engine) + "."
    ensures error.Some? ==> res == (NoLaunch, "Search failed: " + error.value)
  {
    match error
    case Some(e) => (NoLaunch, "Search failed: " + e)
    case None => (OpenUrl(SearchBase(engine) + encode(query), None),
                  "Searching for '" + query + "' on " + Title(engine) + ".")
  }

  /** The URL a search opens starts with the engine's base and ends with the
      encoded query, so the two can be split apart again. */
  lemma SearchUrlSplits(query: string, engine: string, encode: string -> string)
    ensures var u := SearchWeb(query, engine, encode, None).0.url;
      StartsWith(u, SearchBase(engine)) && u[|SearchBase(engine)|..] == encode(query)
  {
  }

  const YoutubeResults: string := "https://www.youtube.com/results?search_query="

  /** `search_youtube`. */
  function SearchYoutube(query: string, encode: string -> string, error: Option<string>): (res: (Launch, string))
    ensures error.None? ==> res.0 == OpenUrl(YoutubeResults + encode(query), None)
    ensures error.None? ==> res.1 == "Searching YouTube for '" + query + "'. Opening results in your browser."
    ensures error.Some? ==> res.0 == NoLaunch
  {
    match error
    case Some(e) => (NoLaunch, "Failed to search YouTube: " + e)
    case None => (OpenUrl(YoutubeResults + encode(query), None),
                  "Searching YouTube for '" + query + "'. Opening results in your browser.")
  }

  /** `play_youtube_video`: the same results page with another message. */
  function PlayYoutubeVideo(term: string, encode: string -> string, error: Option<string>): (res: (Launch, string))
    ensures res.0 == SearchYoutube(term, encode, error).0
    ensures error.None? ==> res.1 == "Searching for '" + term + "' on YouTube. You can click the first result to play."
  {
    match error
    case Some(e) => (NoLaunch, "Failed to search YouTube: " + e)
    case None => (OpenUrl(YoutubeResults + encode(term), None),
                  "Searching for '" + term + "' on YouTube. You can click the first result to play.")
  }

  // ---------------------------------------------------------------------
  // Shell commands (`execute_command`)

  const SafeCommands: seq<string> := [
    "dir", "ls", "pwd", "date", "time", "whoami", "echo", "ping", "ipconfig", "ifconfig"
  ]

  /** What running the command produced. */
  datatype RunOutcome = Completed(stdout: string, stderr: string) | TimedOut | Raised(error: string)

  const EmptyCommand: string := "Empty command provided."
  const NotAllowed: string := "Command not allowed for security reasons."

  /** The allow-list gate: the first whitespace-separated word, lower-cased,
      must be a safe command. */
  predicate Allowed(command: string) {
    FirstToken(command).Some? && Lower(FirstToken(command).value) in SafeCommands
  }

  /** `execute_command`. The gate inspects only the first word; the whole
      line is what runs. `run` is the shell. */
  function ExecuteCommand(command: string, run: string -> RunOutcome): (res: (Launch, string))
    ensures res.0 != NoLaunch <==> Allowed(command)
    ensures res.0 != NoLaunch ==> res.0 == Shell(command)
    ensures (forall i :: 0 <= i < |command| ==> IsSpace(command[i])) ==> res == (NoLaunch, EmptyCommand)
    ensures FirstToken(command).Some? && !Allowed(command) ==> res == (NoLaunch, NotAllowed)
    ensures Allowed(command) ==> res.1 == CommandReport(run(command))
  {
    match FirstToken(command)
    case None => (NoLaunch, EmptyCommand)
    case Some(word) =>
      if Lower(word) !in SafeCommands then (NoLaunch, NotAllowed)
      else (Shell(command), CommandReport(run(command)))
  }

  const OutputHeader: string := "Command output:\n\n"

  /** The reply for a command that ran: the stripped standard output after
      a header, followed by the stripped standard error when there was any;
      or the time-out notice; or the text of the exception raised. */
  function CommandReport(o: RunOutcome): (r: string)
    ensures o.Completed? && o.stderr == [] ==> r == OutputHeader + Strip(o.stdout)
    ensures o.Completed? && o.stderr != [] ==> r == OutputHeader + Strip(o.stdout) + "\nError: " + Strip(o.stderr)
    ensures o.TimedOut? ==> r == "Command timed out."
    ensures o.Raised? ==> r == "Command execution failed: " + o.error
  {
    match o
    case Completed(out, err) =>
      OutputHeader + Strip(out) + (if err != [] then "\nError: " + Strip(err) else [])
    case TimedOut => "Command timed out."
    case Raised(e) => "Command execution failed: " + e
  }

  /** The reply tells a command that ran apart from one that timed out or
      raised: only the former carries the output header. */
  lemma ReportTellsOutcome(o: RunOutcome)
    ensures StartsWith(CommandReport(o), OutputHeader) <==> o.Completed?
  {
    if !o.Completed? {
      assert CommandReport(o)[8] != OutputHeader[8];
    }
  }

  /** A command the gate lets through always starts, after any leading
      whitespace, with a safe word followed by the end of the line or a
      space; everything after that word is run too. */
  lemma AllowedStartsWithSafeWord(command: string)
    requires Allowed(command)
    ensures exists k :: (0 <= k < |SafeCommands| && |FirstToken(command).value| == |SafeCommands[k]|
      && StartsWith(StripLeft(command), FirstToken(command).value)
      && Lower(FirstToken(command).value) == SafeCommands[k])
  {
    var w := FirstToken(command).value;
    var k :| 0 <= k < |SafeCommands| && SafeCommands[k] == Lower(w);
  }

  // ---------------------------------------------------------------------
  // Applications

  const WindowsApps: seq<(string, string)> := [
    ("notepad", "notepad.exe"), ("calculator", "calc.exe"), ("calc", "calc.exe"),
    ("paint", "mspaint.exe"), ("cmd", "cmd.exe"), ("command prompt", "cmd.exe"),
    ("powershell", "powershell.exe"), ("task manager", "taskmgr.exe"), ("taskmgr", "taskmgr.exe"),
    ("control panel", "control.exe"), ("settings", "ms-settings:"), ("system settings", "ms-settings:"),
    ("windows settings", "ms-settings:"), ("file explorer", "explorer.exe"), ("explorer", "explorer.exe"),
    ("chrome", "chrome.exe"), ("firefox", "firefox.exe"), ("edge", "msedge.exe"),
    ("code", "code.exe"), ("vscode", "code.exe"), ("visual studio code", "code.exe"),
    ("word", "winword.exe"), ("excel", "excel.exe"), ("powerpoint", "powerpnt.exe"),
    ("outlook", "outlook.exe")
  ]

  const MacApps: seq<(string, string)> := [
    ("safari", "Safari"), ("chrome", "Google Chrome"), ("firefox", "Firefox"),
    ("finder", "Finder"), ("terminal", "Terminal"), ("calculator", "Calculator"),
    ("textedit", "TextEdit"), ("code", "Visual Studio Code"), ("vscode", "Visual Studio Code"),
    ("settings", "System Preferences"), ("system settings", "System Preferences")
  ]

  const LinuxApps: seq<(string, string)> := [
    ("firefox", "firefox"), ("chrome", "google-chrome"), ("chromium", "chromium-browser"),
    ("terminal", "gnome-terminal"), ("calculator", "gnome-calculator"), ("gedit", "gedit"),
    ("nautilus", "nautilus"), ("code", "code"), ("vscode", "code"), ("settings", "gnome-control-center")
  ]

  const SettingsUri: string := "ms-settings:"

  /** `_open_windows_app`: a known name runs its table command, the settings
      URI through `start` with its own message; an unknown name is tried
      with `start`. */
  function WindowsApp(name: string): (res: (Launch, string))
    ensures Lookup(WindowsApps, Lower(name)) == Some(SettingsUri) ==>
      res == (Shell("start " + SettingsUri), "Opening Windows Settings.")
    ensures Lookup(WindowsApps, Lower(name)).Some? && Lookup(WindowsApps, Lower(name)) != Some(SettingsUri) ==>
      res == (Shell(Lookup(WindowsApps, Lower(name)).value), "Opening " + name + ".")
    ensures Lookup(WindowsApps, Lower(name)).None? ==>
      res == (Shell("start " + name), "Attempting to open " + name + ".")
  {
    match Lookup(WindowsApps, Lower(name))
    case Some(cmd) =>
      if cmd == SettingsUri then (Shell("start " + cmd), "Opening Windows Settings.")
      else (Shell(cmd), "Opening " + name + ".")
    case None => (Shell("start " + name), "Attempting to open " + name + ".")
  }

  /** An entry whose key no earlier entry has is what the lookup finds. */
  lemma {:induction false} LookupAt(table: seq<(string, string)>, k: nat)
    requires k < |table|
    requires forall m :: 0 <= m < k ==> table[m].0 != table[k].0
    ensures Lookup(table, table[k].0) == Some(table[k].1)
    decreases k
  {
    if k > 0 {
      assert table[1..][k - 1] == table[k];
      LookupAt(table[1..], k - 1);
    }
  }

  /** Each of the three names for the settings app reaches the settings URI. */
  lemma SettingsNamesOpenSettings(name: string, k: nat)
    requires k in {10, 11, 12} && Lower(name) == WindowsApps[k].0
    ensures WindowsApp(name).1 == "Opening Windows Settings."
  {
    LookupAt(WindowsApps, k);
  }

  /** `_open_macos_app` and `_open_linux_app`: a table name is mapped, any
      other name is passed through unchanged. */
  function UnixApp(table: seq<(string, string)>, name: string): (r: string)
    ensures Lookup(table, Lower(name)).None? ==> r == name
    ensures Lookup(table, Lower(name)).Some? ==> r == Lookup(table, Lower(name)).value
  {
    match Lookup(table, Lower(name))
    case Some(app) => app
    case None => name
  }

  /** `open_application`: the platform's table, and an exception from the
      launcher reported with the name. */
  function OpenApplication(platform: Platform, name: string, error: Option<string>): (res: (Launch, string))
    ensures error.Some? ==> res == (NoLaunch, "Unable to open " + name + ": " + error.value)
    ensures error.None? && platform == Windows ==> res == WindowsApp(name)
    ensures error.None? && platform == MacOS ==>
      res == (Exec(["open", "-a", UnixApp(MacApps, name)]), "Opening " + name + ".")
    ensures error.None? && platform == Linux ==>
      res == (Exec([UnixApp(LinuxApps, name)]), "Opening " + name + ".")
  {
    match error
    case Some(e) => (NoLaunch, "Unable to open " + name + ": " + e)
    case None =>
      match platform
      case Windows => WindowsApp(name)
      case MacOS => (Exec(["open", "-a", UnixApp(MacApps, name)]), "Opening " + name + ".")
      case Linux => (Exec([UnixApp(LinuxApps, name)]), "Opening " + name + ".")
  }

  // ---------------------------------------------------------------------
  // Volume

  /** What a volume request does to the mixer. Windows "set" only presses
      the volume-up key: the level is not applied. */
  datatype VolumeEffect = Mute | Unmute | SetLevel(level: int) | VolumeUpKey | NoChange

  /** `_manage_*_volume`. */
  function ManageVolume(platform: Platform, action: string, level: Option<int>): (res: (VolumeEffect, string))
    ensures Lower(action) == "mute" ==> res == (Mute, "Volume muted.")
    ensures Lower(action) == "unmute" ==> res == (Unmute, "Volume unmuted.")
    ensures Lower(action) == "set" && level.Some? && platform == Windows ==>
      res == (VolumeUpKey, "Volume adjusted.")
    ensures Lower(action) == "set" && level.Some? && platform != Windows ==>
      res == (SetLevel(level.value), "Volume set to " + IntToString(level.value) + "%.")
    ensures Lower(action) !in ["mute", "unmute"] && !(Lower(action) == "set" && level.Some?) ==>
      res == (NoChange, "Volume control completed.")
  {
    var a := Lower(action);
    if a == "mute" then (Mute, "Volume muted.")
    else if a == "unmute" then (Unmute, "Volume unmuted.")
    else if a == "set" && level.Some? then
      if platform == Windows then (VolumeUpKey, "Volume adjusted.")
      else (SetLevel(level.value), "Volume set to " + IntToString(level.value) + "%.")
    else (NoChange, "Volume control completed.")
  }

  /** The level a "set" request reports reads back as the level asked for. */
  lemma VolumeReportsLevel(platform: Platform, level: nat)
    requires platform != Windows
    ensures var m := ManageVolume(platform, "set", Some(level)).1;
      m == "Volume set to " + NatToString(level) + "%." && DigitsValue(NatToString(level)) == level
  {
    assert Lower("set") == "set";
    NatToStringRoundTrip(level);
  }
}

=== FILE: desktop.dfy ===
/** The desktop window's decision logic: how a typed or spoken message is
    routed, which controller call a system command becomes, the camera
    commands, and the guards around recording and speaking. The window runs
    these on threads; here each is one sequential step over the window's
    flags. */
module Desktop {
  import opened Base
  import opened Strings
  import Audio
  import Dialogue
  import Speech
  import Controller

  // ---------------------------------------------------------------------
  // System-command detection (`is_enhanced_system_command`)

  const CommandPatterns: seq<string> := [
    "play", "watch", "show me", "search for",
    "open", "go to", "browse", "visit",
    "open settings", "show settings", "control panel",
    "open calculator", "open notepad", "open paint",
    "search google", "google search", "look up"
  ]

  const QuestionWords: seq<string> := ["what is", "tell me about", "explain", "how does", "why does"]

  predicate IsEnhancedSystemCommand(message: string) {
    var t := Normalize(message);
    AnyIn(CommandPatterns, t) && !AnyIn(QuestionWords, t)
  }

  /** A message is a system command exactly when some command pattern and no
      question phrase occurs in it. */
  lemma EnhancedSystemCommandIff(message: string)
    ensures IsEnhancedSystemCommand(message) <==>
      Mentions(Normalize(message), CommandPatterns) && !Mentions(Normalize(message), QuestionWords)
  {
    MentionsIff(Normalize(message), CommandPatterns);
    MentionsIff(Normalize(message), QuestionWords);
  }

  // ---------------------------------------------------------------------
  // Which controller call a command becomes (`handle_enhanced_system_commands`)

  datatype Command =
    | PlayVideo(terms: string)       // `play_youtube_video`
    | OpenUrl(url: string)           // `open_website`
    | SearchVideos(terms: string)    // `search_youtube`
    | SearchGoogle(terms: string)    // `search_web(terms, "google")`
    | OpenNamedSite(site: string)    // `open_specific_website`
    | OpenApp(name: string)          // `open_application`

  /** The words that send a message to the website branch, and the verbs
      that branch then removes; the two lists differ in "browse". */
  const SiteWords: seq<string> := ["open", "go to", "browse", "visit"]
  const SiteVerbs: seq<string> := ["open", "go to", "browse to", "visit"]

  /** Verb `v` names a site in `t`: it occurs, and removing it leaves a
      non-empty name. */
  predicate Qualifies(t: string, v: string)
    requires |v| > 0
  {
    Contains(t, v) && Strip(Replace(t, v, "")) != []
  }

  /** The website loop: the first verb, in list order, whose removal leaves
      a non-empty site name; None when no verb does. */
  function SiteCommand(t: string, verbs: seq<string>): (r: Option<Command>)
    requires forall k :: 0 <= k < |verbs| ==> |verbs[k]| > 0
    ensures r.None? <==> forall k :: 0 <= k < |verbs| ==> !Qualifies(t, verbs[k])
    ensures r.Some? ==> exists k :: (0 <= k < |verbs| && Qualifies(t, verbs[k])
      && r.value == OpenNamedSite(Strip(Replace(t, verbs[k], "")))
      && forall j :: 0 <= j < k ==> !Qualifies(t, verbs[j]))
    decreases |verbs|
  {
    if |verbs| == 0 then None
    else if Qualifies(t, verbs[0]) then
      Some(OpenNamedSite(Strip(Replace(t, verbs[0], ""))))
    else
      var r := SiteCommand(t, verbs[1..]);
      SiteLoopSkips(t, verbs, r);
      r
  }

  /** When the first verb does not qualify, what the loop finds among the
      rest is what it finds among all the verbs. */
  lemma SiteLoopSkips(t: string, verbs: seq<string>, r: Option<Command>)
    requires |verbs| > 0 && forall k :: 0 <= k < |verbs| ==> |verbs[k]| > 0
    requires !Qualifies(t, verbs[0])
    requires r.None? <==> forall k :: 0 <= k < |verbs[1..]| ==> !Qualifies(t, verbs[1..][k])
    requires r.Some? ==> exists k :: (0 <= k < |verbs[1..]| && Qualifies(t, verbs[1..][k])
      && r.value == OpenNamedSite(Strip(Replace(t, verbs[1..][k], "")))
      && forall j :: 0 <= j < k ==> !Qualifies(t, verbs[1..][j]))
    ensures r.None? <==> forall k :: 0 <= k < |verbs| ==> !Qualifies(t, verbs[k])
    ensures r.Some? ==> exists k :: (0 <= k < |verbs| && Qualifies(t, verbs[k])
      && r.value == OpenNamedSite(Strip(Replace(t, verbs[k], "")))
      && forall j :: 0 <= j < k ==> !Qualifies(t, verbs[j]))
  {
    assert forall k :: 0 < k < |verbs| ==> verbs[k] == verbs[1..][k - 1];
    if r.Some? {
      var k :| 0 <= k < |verbs[1..]| && Qualifies(t, verbs[1..][k])
        && r.value == OpenNamedSite(Strip(Replace(t, verbs[1..][k], "")))
        && forall j :: 0 <= j < k ==> !Qualifies(t, verbs[1..][j]);
      FirstQualifierShifts(t, verbs, k);
    }
  }

  /** The first qualifying verb after the head, counted from the head. */
  lemma FirstQualifierShifts(t: string, verbs: seq<string>, k: nat)
    requires k + 1 < |verbs| && forall i :: 0 <= i < |verbs| ==> |verbs[i]| > 0
    requires !Qualifies(t, verbs[0]) && Qualifies(t, verbs[1..][k])
    requires forall j :: 0 <= j < k ==> !Qualifies(t, verbs[1..][j])
    ensures Qualifies(t, verbs[k + 1]) && forall j :: 0 <= j < k + 1 ==> !Qualifies(t, verbs[j])
  {
    assert verbs[k + 1] == verbs[1..][k];
    forall j | 0 < j < k + 1 ensures !Qualifies(t, verbs[j]) {
      assert verbs[j] == verbs[1..][j - 1];
    }
  }

  /** One rung of the application chain: the words that select it and the
      name handed to the controller. */
  datatype AppRung = AppRung(words: seq<string>, app: string)

  /** The application chain in priority order. */
  const AppLadder: seq<AppRung> := [
    AppRung(["calculator"], "calculator"),
    AppRung(["notepad"], "notepad"),
    AppRung(["paint"], "paint"),
    AppRung(["settings"], "settings"),
    AppRung(["cmd", "command prompt"], "cmd"),
    AppRung(["task manager"], "task manager"),
    AppRung(["explorer", "files"], "file explorer")
  ]

  /** Rung `k` is where the chain stops on `t`: its words occur and no
      earlier rung's do. */
  predicate RungFirst(t: string, k: nat)
    requires k < |AppLadder|
  {
    Mentions(t, AppLadder[k].words) && forall j :: 0 <= j < k ==> !Mentions(t, AppLadder[j].words)
  }

  /** The application a message names, by the `if`/`elif` chain; None when
      no rung's words occur. */
  function AppName(t: string): (r: Option<string>)
    ensures r.None? <==> forall k :: 0 <= k < |AppLadder| ==> !Mentions(t, AppLadder[k].words)
    // the first rung in priority order whose words occur decides
    ensures r.Some? ==> exists k :: 0 <= k < |AppLadder| && RungFirst(t, k) && r.value == AppLadder[k].app
  {
    LadderMentions(t);
    if Contains(t, "calculator") then assert RungFirst(t, 0); Some("calculator")
    else if Contains(t, "notepad") then assert RungFirst(t, 1); Some("notepad")
    else if Contains(t, "paint") then assert RungFirst(t, 2); Some("paint")
    else if Contains(t, "settings") then assert RungFirst(t, 3); Some("settings")
    else if Contains(t, "cmd") || Contains(t, "command prompt") then assert RungFirst(t, 4); Some("cmd")
    else if Contains(t, "task manager") then assert RungFirst(t, 5); Some("task manager")
    else if Contains(t, "explorer") || Contains(t, "files") then assert RungFirst(t, 6); Some("file explorer")
    else None
  }

  /** What each rung's word list asks of the message, written out. */
  lemma LadderMentions(t: string)
    ensures Mentions(t, AppLadder[0].words) <==> Contains(t, "calculator")
    ensures Mentions(t, AppLadder[1].words) <==> Contains(t, "notepad")
    ensures Mentions(t, AppLadder[2].words) <==> Contains(t, "paint")
    ensures Mentions(t, AppLadder[3].words) <==> Contains(t, "settings")
    ensures Mentions(t, AppLadder[4].words) <==> Contains(t, "cmd") || Contains(t, "command prompt")
    ensures Mentions(t, AppLadder[5].words) <==> Contains(t, "task manager")
    ensures Mentions(t, AppLadder[6].words) <==> Contains(t, "explorer") || Contains(t, "files")
  {
    MentionsShort(t, "calculator", "");
    MentionsShort(t, "notepad", "");
    MentionsShort(t, "paint", "");
    MentionsShort(t, "settings", "");
    MentionsShort(t, "cmd", "command prompt");
    MentionsShort(t, "task manager", "");
    MentionsShort(t, "explorer", "files");
  }

  const AppWords: seq<string> := ["calculator", "notepad", "paint", "settings", "cmd", "task manager", "explorer"]

  /** Removes the play words, as the YouTube branch does. */
  function PlayTerms(t: string): string {
    Strip(Replace(Replace(Replace(t, "play", ""), "watch", ""), "show me", ""))
  }

  /** Removes the search words, as the Google branch does. */
  function GoogleTerms(t: string): string {
    Strip(Replace(Replace(Replace(t, "google search", ""), "search google", ""), "search for", ""))
  }

  predicate WantsPlay(t: string) {
    (Contains(t, "play") || Contains(t, "watch")) && !Contains(t, "youtube")
  }

  predicate WantsGoogle(t: string) {
    AnyIn(["google search", "search google", "search for"], t)
  }

  /** The YouTube branch: a search when a search word is present, with the
      text after the last "youtube" as its terms; the home page otherwise. */
  function YoutubeCommand(t: string): (r: Option<Command>)
    ensures r.Some? && r.value.SearchVideos? ==> !Contains(r.value.terms, "youtube") && |r.value.terms| > 0
    ensures !AnyIn(["search", "look up", "find"], t) ==> r == Some(OpenUrl("youtube.com"))
    // with a search word: the stripped text after the last "youtube", and
    // nothing at all when that text is blank
    ensures AnyIn(["search", "look up", "find"], t) ==>
      (r.None? <==> Strip(LastPiece(t, "youtube")) == [])
      && (r.Some? ==> r.value == SearchVideos(Strip(LastPiece(t, "youtube"))))
  {
    if AnyIn(["search", "look up", "find"], t) then
      var rest := LastPiece(t, "youtube");
      var terms := Strip(rest);
      StripKeepsMissing(rest, "youtube");
      if terms != [] then Some(SearchVideos(terms)) else None
    else Some(OpenUrl("youtube.com"))
  }

  /** The application branch. */
  function AppCommand(t: string): (r: Option<Command>)
    ensures r.Some? <==> Mentions(t, AppWords)
    // the application is the one the priority chain names
    ensures r.Some? ==> AppName(t).Some? && r.value == OpenApp(AppName(t).value)
  {
    MentionsIff(t, AppWords);
    if AnyIn(AppWords, t) then
      match AppName(t)
      case Some(name) => Some(OpenApp(name))
      case None => None
    else None
  }

  /** `handle_enhanced_system_commands` on the normalised text: the branches
      are tried in the order play, YouTube, Google, website, application. */
  function CommandFor(t: string): (r: Option<Command>)
    ensures WantsPlay(t) ==>
      r == Some(if PlayTerms(t) != [] then PlayVideo(PlayTerms(t)) else OpenUrl("youtube.com"))
    ensures !WantsPlay(t) && Contains(t, "youtube") ==> r == YoutubeCommand(t)
    // Google comes before websites, websites before applications
    ensures !WantsPlay(t) && !Contains(t, "youtube") && WantsGoogle(t) ==>
      r == Some(if GoogleTerms(t) != [] then SearchGoogle(GoogleTerms(t)) else OpenUrl("google.com"))
    ensures !WantsPlay(t) && !Contains(t, "youtube") && !WantsGoogle(t) && Mentions(t, SiteWords) ==>
      r == SiteCommand(t, SiteVerbs)
    ensures !WantsPlay(t) && !Contains(t, "youtube") && !WantsGoogle(t) && !Mentions(t, SiteWords) ==>
      r == AppCommand(t)
    ensures r.Some? && r.value.SearchVideos? ==> Contains(t, "youtube") && !Contains(r.value.terms, "youtube")
    ensures r.Some? && r.value.SearchGoogle? ==> WantsGoogle(t) && !Contains(t, "youtube")
    ensures r.Some? && r.value.OpenNamedSite? ==> r.value.site != []
    ensures r.Some? && r.value.OpenApp? ==> Mentions(t, AppWords)
  {
    MentionsIff(t, SiteWords);
    if WantsPlay(t) then
      var terms := PlayTerms(t);
      Some(if terms != [] then PlayVideo(terms) else OpenUrl("youtube.com"))
    else if Contains(t, "youtube") then YoutubeCommand(t)
    else if WantsGoogle(t) then
      var terms := GoogleTerms(t);
      Some(if terms != [] then SearchGoogle(terms) else OpenUrl("google.com"))
    else if AnyIn(SiteWords, t) then SiteCommand(t, SiteVerbs)
    else AppCommand(t)
  }

  /** `handle_enhanced_system_commands`: the message is lower-cased and
      stripped, then a command is chosen. */
  function HandleSystemCommand(message: string): Option<Command> {
    CommandFor(Normalize(message))
  }

  /** "browse" alone names no site: with none of the other branches' words
      and none of "open", "go to", "browse to", "visit", nothing is done. */
  lemma BrowseAloneDoesNothing(message: string)
    requires var t := Normalize(message);
      Contains(t, "browse") && !WantsPlay(t) && !Contains(t, "youtube") && !WantsGoogle(t)
      && forall k :: 0 <= k < |SiteVerbs| ==> !Contains(t, SiteVerbs[k])
    ensures HandleSystemCommand(message) == None
  {
    var t := Normalize(message);
    MentionsIff(t, SiteWords);
    assert Contains(t, SiteWords[2]);
  }

  /** When the first verb qualifies, the loop stops there. */
  lemma SiteCommandHead(t: string, verbs: seq<string>)
    requires |verbs| > 0 && forall k :: 0 <= k < |verbs| ==> |verbs[k]| > 0
    requires Qualifies(t, verbs[0])
    ensures SiteCommand(t, verbs) == Some(OpenNamedSite(Strip(Replace(t, verbs[0], ""))))
  {
  }

  /** "open calculator" is one of the system-command patterns, and the
      application branch knows the calculator, but the website branch runs
      first and claims the message: a website named "calculator" opens. */
  lemma OpenCalculatorOpensSite(t: string)
    requires t == "open calculator"
    ensures CommandFor(t) == Some(OpenNamedSite("calculator"))
  {
    OpenCalculatorShape(t);
    OpenCalculatorLetters(t);
    OpenNameOpensSite(t);
  }

  /** "open calculator" is "open", a space and an unspaced name. This and
      the next lemma only state the literal facts `OpenNameOpensSite` needs,
      kept apart so the general proof never unfolds the literal. */
  lemma OpenCalculatorShape(t: string)
    requires t == "open calculator"
    ensures |t| > 5 && t[..4] == "open" && IsSpace(t[4]) && !IsSpace(t[5]) && !IsSpace(t[|t| - 1])
    ensures t[5..] == "calculator"
  {
  }

  /** The letters "open calculator" lacks. */
  lemma OpenCalculatorLetters(t: string)
    requires t == "open calculator"
    ensures 'p' !in t[5..] && 'y' !in t && 'w' !in t && 'g' !in t && 's' !in t
  {
  }

  /** "open", a space and a plain name without the letters of the play,
      YouTube and Google words: the website of that name opens. */
  lemma OpenNameOpensSite(t: string)
    requires |t| > 5 && t[..4] == "open" && IsSpace(t[4]) && !IsSpace(t[5]) && !IsSpace(t[|t| - 1])
    requires 'p' !in t[5..] && 'y' !in t && 'w' !in t && 'g' !in t && 's' !in t
    ensures CommandFor(t) == Some(OpenNamedSite(t[5..]))
  {
    var r := OpenSiteAt(t);
    OpenFirstGoesToSites(t, r);
  }

  /** The website loop on such a message, with the site read off the text. */
  lemma OpenSiteAt(t: string) returns (r: Option<Command>)
    requires |t| > 5 && t[..4] == "open" && IsSpace(t[4]) && !IsSpace(t[5]) && !IsSpace(t[|t| - 1])
    requires 'p' !in t[5..]
    ensures r == Some(OpenNamedSite(t[5..])) && SiteCommand(t, SiteVerbs) == r
  {
    assert t == "open" + ([t[4]] + t[5..]);
    OpenSiteName(t[4], t[5..], SiteVerbs);
    r := Some(OpenNamedSite(t[5..]));
  }

  /** A message that starts with "open" and has no 'y', 'w', 'g' or 's'
      holds no play, YouTube or Google word, so the website branch takes it. */
  lemma OpenFirstGoesToSites(t: string, r: Option<Command>)
    requires |t| >= 4 && t[..4] == "open"
    requires 'y' !in t && 'w' !in t && 'g' !in t && 's' !in t
    requires SiteCommand(t, SiteVerbs) == r
    ensures CommandFor(t) == r
  {
    NoEarlierBranch(t);
    OccursContains(t, "open", 0);
    assert Contains(t, SiteWords[0]);
  }

  /** Without a 'y', 'w', 'g' or 's' no play, YouTube or Google word
      occurs. */
  lemma NoEarlierBranch(t: string)
    requires 'y' !in t && 'w' !in t && 'g' !in t && 's' !in t
    ensures !WantsPlay(t) && !Contains(t, "youtube") && !WantsGoogle(t)
  {
    MissingLetter(t, "play", 3);
    MissingLetter(t, "watch", 0);
    MissingLetter(t, "youtube", 0);
    MissingLetter(t, "google search", 0);
    MissingLetter(t, "search google", 0);
    MissingLetter(t, "search for", 0);
    var google := ["google search", "search google", "search for"];
    MentionsIff(t, google);
    assert google[0] == "google search" && google[1] == "search google" && google[2] == "search for";
  }

  /** "open", a space and a plain name: the website loop stops at "open" and
      the site is the name. */
  lemma OpenSiteName(c: char, name: string, verbs: seq<string>)
    requires IsSpace(c) && |name| > 0 && !IsSpace(name[0]) && !IsSpace(name[|name| - 1])
    requires 'p' !in name
    requires |verbs| > 0 && verbs[0] == "open" && forall k :: 0 <= k < |verbs| ==> |verbs[k]| > 0
    ensures SiteCommand("open" + ([c] + name), verbs) == Some(OpenNamedSite(name))
  {
    var t := "open" + ([c] + name);
    OpenRemoved([c] + name);
    StripLeadingSpace(c, name);
    OccursContains(t, "open", 0);
    SiteCommandHead(t, verbs);
    assert Qualifies(t, SiteVerbs[0]);
  }

  /** Taking "open" out of "open" followed by text without a 'p' leaves
      that text. */
  lemma OpenRemoved(rest: string)
    requires 'p' !in rest
    ensures Replace("open" + rest, "open", "") == rest
  {
    ReplaceHit(rest, "open", "");
    MissingLetter(rest, "open", 1);
    ReplaceWithoutMatch(rest, "open", "");
  }

  /** The controller call a command stands for. A failing call launches
      nothing; otherwise every command but an application opens a URL in
      the default browser, and the video commands open YouTube's results
      page for their terms. */
  function Perform(c: Command, platform: Platform, encode: string -> string, error: Option<string>): (res: (Controller.Launch, string))
    ensures error.Some? ==> res.0 == Controller.NoLaunch
    ensures error.None? && !c.OpenApp? ==> res.0.OpenUrl? && res.0.browser == None
    ensures error.None? && (c.PlayVideo? || c.SearchVideos?) ==>
      res.0 == Controller.OpenUrl(Controller.YoutubeResults + encode(c.terms), None)
    ensures error.None? && c.SearchGoogle? ==>
      res.0 == Controller.OpenUrl(Controller.SearchBase("google") + encode(c.terms), None)
    ensures error.None? && c.OpenNamedSite? ==>
      res.0 == Controller.OpenUrl(Controller.NormalizeUrl(Controller.SiteAddress(c.site)), None)
    ensures error.None? && c.OpenUrl? ==> res.0 == Controller.OpenUrl(Controller.NormalizeUrl(c.url), None)
    ensures c.OpenApp? ==> res == Controller.OpenApplication(platform, c.name, error)
  {
    match c
    case PlayVideo(t) => Controller.PlayYoutubeVideo(t, encode, error)
    case OpenUrl(u) => Controller.OpenWebsite(u, [], error)
    case SearchVideos(t) => Controller.SearchYoutube(t, encode, error)
    case SearchGoogle(t) => Controller.SearchWeb(t, "google", encode, error)
    case OpenNamedSite(s) => Controller.OpenSpecificWebsite(s, error)
    case OpenApp(n) => Controller.OpenApplication(platform, n, error)
  }

  // ---------------------------------------------------------------------
  // Routing (`process_message`)

  const CameraWords: seq<string> := ["camera", "see", "look", "view", "visual", "watch", "observe"]
  const ControlWords: seq<string> := ["open", "start", "enable", "activate", "turn on", "close", "stop", "disable"]
  const AnalysisWords: seq<string> := [
    "what do you see", "describe", "analyze", "look around", "tell me what", "show me what"
  ]
  const SightWords: seq<string> := ["see", "look", "view"]

  datatype Route = CameraControl | VisualAnalysis | SystemAction(command: Command) | Conversation

  /** `process_message`: camera control first, then visual analysis, then a
      system command that names an action, and the conversation otherwise. */
  function RouteMessage(message: string): (r: Route)
    ensures var t := Normalize(message);
      r == CameraControl <==> Mentions(t, CameraWords) && Mentions(t, ControlWords)
    ensures var t := Normalize(message);
      r == VisualAnalysis <==> (Mentions(t, CameraWords) && !Mentions(t, ControlWords)
        && (Mentions(t, AnalysisWords) || Mentions(t, SightWords)))
    ensures r.SystemAction? ==> (IsEnhancedSystemCommand(message)
      && HandleSystemCommand(message) == Some(r.command))
    ensures var t := Normalize(message);
      r.SystemAction? <==> (!(Mentions(t, CameraWords) && Mentions(t, ControlWords))
        && !(Mentions(t, CameraWords) && (Mentions(t, AnalysisWords) || Mentions(t, SightWords)))
        && IsEnhancedSystemCommand(message) && HandleSystemCommand(message).Some?)
  {
    var t := Normalize(message);
    MentionsIff(t, CameraWords);
    MentionsIff(t, ControlWords);
    MentionsIff(t, AnalysisWords);
    MentionsIff(t, SightWords);
    var cam := AnyIn(CameraWords, t);
    if cam && AnyIn(ControlWords, t) then CameraControl
    else if cam && (AnyIn(AnalysisWords, t) || AnyIn(SightWords, t)) then VisualAnalysis
    else if IsEnhancedSystemCommand(message) && HandleSystemCommand(message).Some? then
      SystemAction(HandleSystemCommand(message).value)
    else Conversation
  }

  // ---------------------------------------------------------------------
  // Camera commands (`handle_camera_control`, `toggle_camera`)

  const OnVerbs: seq<string> := ["open", "start", "enable", "turn on"]
  const OffVerbs: seq<string> := ["close", "stop", "disable", "turn off"]

  const CameraActivated: string := "Camera activated. I can now see what's in front of me."
  const CameraAlreadyActive: string := "Camera is already active and ready."
  const CameraDeactivated: string := "Camera deactivated."
  const CameraAlreadyOff: string := "Camera is already off."
  const CameraUnsure: string := "I'm not sure what you want me to do with the camera."

  /** `toggle_camera`: stopping always succeeds; starting succeeds only when
      the camera opens, and a failed start leaves it off. */
  function ToggleCamera(active: bool, startOk: bool): (r: bool)
    ensures active ==> !r
    ensures !active ==> r == startOk
  {
    if active then false else startOk
  }

  /** `handle_camera_control`: the on-verbs are checked before the
      off-verbs; the camera is toggled only when its state differs from the
      one asked for. Returns the new state and the reply. */
  function HandleCameraControl(message: string, active: bool, startOk: bool): (res: (bool, string))
    ensures var t := Normalize(message);
      AnyIn(OnVerbs, t) ==>
        res == (if active then (true, CameraAlreadyActive) else (startOk, CameraActivated))
    ensures var t := Normalize(message);
      !AnyIn(OnVerbs, t) && AnyIn(OffVerbs, t) ==>
        res == (if active then (false, CameraDeactivated) else (false, CameraAlreadyOff))
    ensures var t := Normalize(message);
      !AnyIn(OnVerbs, t) && !AnyIn(OffVerbs, t) ==> res == (active, CameraUnsure)
  {
    var t := Normalize(message);
    if AnyIn(OnVerbs, t) then
      if !active then (ToggleCamera(active, startOk), CameraActivated) else (active, CameraAlreadyActive)
    else if AnyIn(OffVerbs, t) then
      if active then (ToggleCamera(active, startOk), CameraDeactivated) else (active, CameraAlreadyOff)
    else (active, CameraUnsure)
  }

  /** Asking twice is the same as asking once: the camera is never toggled
      back by a repeated request. */
  lemma CameraRequestIdempotent(message: string, active: bool)
    ensures var once := HandleCameraControl(message, active, true).0;
      HandleCameraControl(message, once, true).0 == once
  {
  }

  /** The reply claims activation even when the camera failed to start. */
  lemma ActivationClaimedOnFailedStart(message: string)
    requires AnyIn(OnVerbs, Normalize(message))
    ensures HandleCameraControl(message, false, false) == (false, CameraActivated)
  {
  }

  // ---------------------------------------------------------------------
  // Recording and speaking

  /** The window's flags and the audio engine it drives. */
  datatype Window = Window(isRecording: bool, isSpeaking: bool, engine: Audio.Engine)

  /** `start_automatic_voice_recording`: a no-op while recording; otherwise
      the flag is set and a recorder starts. */
  function StartAutomaticRecording(w: Window): (res: (Window, bool))
    ensures w.isRecording ==> res == (w, false)
    ensures !w.isRecording ==> res == (w.(isRecording := true), true)
  {
    if w.isRecording then (w, false) else (w.(isRecording := true), true)
  }

  /** What a recorded voice command came to. */
  datatype Heard = Transcript(text: string) | NotUnderstood | NoClearAudio

  /** Audio at most this long is not sent for transcription. */
  const MinCommandBytes: nat := 2000

  /** The two gates: audio longer than 2000 bytes is transcribed, and a
      transcript is processed only when non-empty after stripping. */
  function HearCommand(audio: Option<bytes>, hasTranscriber: bool, service: bytes -> Option<string>): (h: Heard)
    ensures h.Transcript? <==>
      audio.Some? && |audio.value| > MinCommandBytes
      && Dialogue.Transcribe(hasTranscriber, audio.value, service).Some?
    ensures h.Transcript? ==> h.text == Dialogue.Transcribe(hasTranscriber, audio.value, service).value
    ensures h == NoClearAudio <==> audio.None? || |audio.value| <= MinCommandBytes
  {
    if audio.Some? && |audio.value| > MinCommandBytes then
      var u := Dialogue.Transcribe(hasTranscriber, audio.value, service);
      if u.Some? && |Strip(u.value)| > 0 then Transcript(u.value) else NotUnderstood
    else NoClearAudio
  }

  /** The window's gate is stricter than the engine's: audio that passes it
      is never refused for length, so only the transcriber decides; and the
      window's own emptiness test never rejects what the engine returns. */
  lemma WindowGateSubsumesEngineGuard(audio: bytes, hasTranscriber: bool, service: bytes -> Option<string>)
    requires |audio| > MinCommandBytes
    ensures |audio| >= Dialogue.MinTranscribeBytes
    ensures Dialogue.Transcribe(hasTranscriber, audio, service).Some? ==>
      HearCommand(Some(audio), hasTranscriber, service)
        == Transcript(Dialogue.Transcribe(hasTranscriber, audio, service).value)
  {
    var u := Dialogue.Transcribe(hasTranscriber, audio, service);
    if u.Some? {
      StripIdempotent(service(audio).value);
    }
  }

  /** `_automatic_voice_recording`: record, gate, transcribe; the recording
      flag is cleared whatever happened. */
  function AutomaticRecording(w: Window, dev: Audio.Device, cap: nat, hasTranscriber: bool,
                              service: bytes -> Option<string>): (res: (Window, Heard))
    ensures !res.0.isRecording && res.0.isSpeaking == w.isSpeaking
    ensures res.0.engine == Audio.Record(w.engine, dev, cap).0
    ensures res.1 == HearCommand(Audio.Record(w.engine, dev, cap).1, hasTranscriber, service)
  {
    var (e, audio) := Audio.Record(w.engine, dev, cap);
    (w.(isRecording := false, engine := e), HearCommand(audio, hasTranscriber, service))
  }

  /** An engine that is not ready yields no audio, so the command is
      reported as unclear audio. */
  lemma UnreadyEngineHearsNothing(w: Window, dev: Audio.Device, cap: nat, hasTranscriber: bool,
                                  service: bytes -> Option<string>)
    requires !w.engine.initialized
    ensures AutomaticRecording(w, dev, cap, hasTranscriber, service).1 == NoClearAudio
  {
  }

  datatype VoiceButton = Warned | Started | Stopped

  /** `manual_voice_recording`: warns when audio is unavailable; otherwise
      starts a recording, or stops the one running through the engine's
      `stop_recording`. */
  function ManualVoiceRecording(w: Window): (res: (Window, VoiceButton))
    ensures !w.engine.initialized ==> res == (w, Warned)
    ensures w.engine.initialized && !w.isRecording ==> res == (w.(isRecording := true), Started)
    ensures w.engine.initialized && w.isRecording ==>
      res.1 == Stopped && !res.0.isRecording && res.0.engine == Audio.StopRecording(w.engine)
  {
    if !w.engine.initialized then (w, Warned)
    else if !w.isRecording then (w.(isRecording := true), Started)
    else (w.(isRecording := false, engine := Audio.StopRecording(w.engine)), Stopped)
  }

  /** Pressing the button twice starts and then stops a recording, leaving
      the engine with its stop request set. */
  lemma ButtonTwiceStops(w: Window)
    requires w.engine.initialized && !w.isRecording
    ensures var once := ManualVoiceRecording(w).0;
      ManualVoiceRecording(once).1 == Stopped
      && !ManualVoiceRecording(once).0.isRecording
      && ManualVoiceRecording(once).0.engine.recordingStopped
  {
  }

  datatype Speaking = NotStarted | Played | PlaybackFailed | GenerationFailed

  /** The playback environment `play_audio_improved` sees. */
  datatype Speakers = Speakers(hasPygame: bool, tempFileOk: bool, works: Audio.Backend -> bool)

  /** `speak_response`: a no-op while speaking; otherwise the text is
      synthesised and, when audio came back, played. The flag is clear
      again once the speech has finished. */
  function SpeakResponse(w: Window, tts: Speech.Tts, p: Speech.Providers, sp: Speakers, text: string)
    : (res: (Window, Speech.Tts, Speaking))
    ensures w.isSpeaking ==> res == (w, tts, NotStarted)
    ensures !w.isSpeaking ==> !res.0.isSpeaking && res.2 != NotStarted
    ensures !w.isSpeaking ==> res.1 == Speech.TextToSpeech(tts, p, text).0
    ensures res.2 == Played ==> Speech.TextToSpeech(tts, p, text).1.audio.Some?
    // empty or missing audio is a generation failure; any other audio is
    // handed to playback, whose success alone decides the outcome
    ensures var s := Speech.TextToSpeech(tts, p, text).1;
      !w.isSpeaking ==> (res.2 == GenerationFailed <==> s.audio.None? || |s.audio.value| == 0)
    ensures var s := Speech.TextToSpeech(tts, p, text).1;
      res.2 == Played <==> (!w.isSpeaking && s.audio.Some? && |s.audio.value| > 0
        && Audio.PlayAudio(s.audio.value, sp.hasPygame, sp.tempFileOk, sp.works).success)
    ensures var s := Speech.TextToSpeech(tts, p, text).1;
      res.2 == PlaybackFailed <==> (!w.isSpeaking && s.audio.Some? && |s.audio.value| > 0
        && !Audio.PlayAudio(s.audio.value, sp.hasPygame, sp.tempFileOk, sp.works).success)
  {
    if w.isSpeaking then (w, tts, NotStarted)
    else
      var (tts', s) := Speech.TextToSpeech(tts, p, text);
      var outcome :=
        if s.audio.Some? && |s.audio.value| > 0 then
          if Audio.PlayAudio(s.audio.value, sp.hasPygame, sp.tempFileOk, sp.works).success then Played
          else PlaybackFailed
        else GenerationFailed;
      (w.(isSpeaking := false), tts', outcome)
  }

  /** Blank text never reaches a speaker: synthesis returns nothing. */
  lemma BlankTextIsNotSpoken(w: Window, tts: Speech.Tts, p: Speech.Providers, sp: Speakers, text: string)
    requires !w.isSpeaking && Strip(text) == []
    ensures SpeakResponse(w, tts, p, sp, text).2 == GenerationFailed
    ensures SpeakResponse(w, tts, p, sp, text).1 == tts
  {
  }

  // ---------------------------------------------------------------------
  // Typed input (`send_message`)

  const Placeholder: string := "Type your message or say 'Friday' to wake me..."

  /** `send_message`: the stripped text is sent unless it is empty or the
      placeholder. */
  function SendMessage(input: string): (r: Option<string>)
    ensures r.None? <==> Strip(input) == [] || Strip(input) == Placeholder
    ensures r.Some? ==> r.value == Strip(input) && r.value != Placeholder
  {
    var m := Strip(input);
    if m == [] || m == Placeholder then None else Some(m)
  }
}

=== FILE: dialogue.dfy ===
/** The conversational side of the AI engine: the transcription input guard,
    the system-command classifier, the bounded conversation history kept by
    `get_response`, the context block built from it, and the summary line.

    The language model and the transcription service are oracles: each maps
    what it is given to its reply, None where the call raised. */
module Dialogue {
  import opened Base
  import opened Strings

  // ---------------------------------------------------------------------
  // Transcription guard (`transcribe_audio`)

  /** Audio shorter than this is rejected before any upload. */
  const MinTranscribeBytes: nat := 1000

  /** `transcribe_audio`: None without a transcriber or for short audio;
      otherwise the service's text, stripped, with an empty result reported
      as None. `service` maps the audio to the completed transcript, None
      when the transcript failed or the call raised. */
  function Transcribe(hasTranscriber: bool, audio: bytes, service: bytes -> Option<string>): (r: Option<string>)
    ensures r.Some? <==>
      hasTranscriber && |audio| >= MinTranscribeBytes && service(audio).Some?
      && Strip(service(audio).value) != []
    ensures r.Some? ==> r.value == Strip(service(audio).value)
    ensures r.Some? ==> !IsSpace(r.value[0]) && !IsSpace(r.value[|r.value| - 1])
  {
    if !hasTranscriber then None
    else if |audio| < MinTranscribeBytes then None
    else match service(audio)
      case None => None
      case Some(t) => var s := Strip(t); if s == [] then None else Some(s)
  }

  // ---------------------------------------------------------------------
  // System-command classifier (`is_system_command`)

  const CommandIndicators: seq<string> := [
    "open ", "launch ", "start ", "go to ", "browse to ",
    "show me ", "take me to ", "navigate to "
  ]

  const SystemTargets: seq<string> := [
    "google.com", "google", "youtube.com", "youtube",
    "notepad", "calculator", "browser", "website"
  ]

  const QuestionPatterns: seq<string> := [
    "what is", "tell me about", "explain", "how does",
    "why does", "can you help", "do you know about"
  ]

  /** `is_system_command`, as the source computes it on the lower-cased,
      stripped text. */
  function IsSystemCommand(text: string): (r: bool)
    ensures r ==> |text| > 0 && AnyIn(CommandIndicators, Normalize(text))
  {
    var t := Normalize(text);
    if |text| == 0 then false
    else if !AnyIn(CommandIndicators, t) then false
    else if AnyIn(QuestionPatterns, t) then false
    else AnyIn(SystemTargets, t)
  }

  /** A text is a system command exactly when it is non-empty and, once
      lower-cased and stripped, mentions a command indicator and a system
      target but no question pattern. */
  lemma SystemCommandIff(text: string)
    ensures var t := Normalize(text);
      IsSystemCommand(text) <==>
        |text| > 0 && Mentions(t, CommandIndicators) && !Mentions(t, QuestionPatterns)
        && Mentions(t, SystemTargets)
  {
    var t := Normalize(text);
    MentionsIff(t, CommandIndicators);
    MentionsIff(t, QuestionPatterns);
    MentionsIff(t, SystemTargets);
  }

  // ---------------------------------------------------------------------
  // History

  datatype Role = User | Assistant

  /** One `(role, message)` entry of `conversation_history`. */
  datatype Turn = Turn(role: Role, text: string)

  /** Python's `h[-n:]` for any integer `n`: the last `n` entries when `n` is
      positive, the whole list when `n` is 0 (since `-0` is `0`), and the
      list without its first `-n` entries when `n` is negative. */
  function TakeLast<T>(h: seq<T>, n: int): (r: seq<T>)
    ensures |r| <= |h| && r == h[|h| - |r|..]
    ensures n > 0 ==> |r| == if n < |h| then n else |h|
    ensures n == 0 ==> r == h
    ensures n < 0 ==> |r| == if -n < |h| then |h| + n else 0
  {
    if n > 0 then (if n < |h| then h[|h| - n..] else h)
    else if n == 0 then h
    else if -n < |h| then h[-n..] else []
  }

  /** The trim after a reply: `h[-limit:]` applied only when the history has
      grown past the limit. */
  function Trim<T>(h: seq<T>, limit: int): (r: seq<T>)
    ensures |r| <= |h| && r == h[|h| - |r|..]
    ensures limit > 0 ==> |r| == if limit < |h| then limit else |h|
    ensures limit == 0 ==> r == h
    ensures |h| <= limit ==> r == h
  {
    if |h| > limit then TakeLast(h, limit) else h
  }

  const NotInitialized: string := "AI engine not initialized"
  const Apology: string := "I apologize, I'm experiencing some technical difficulties at the moment."

  /** The engine's conversational state. */
  datatype Chat = Chat(hasModel: bool, history: seq<Turn>, limit: int)

  /** The step after the model was asked about history `h`: a failure keeps
      `h` and apologises, a reply is stripped, appended and trimmed. */
  function Reply(c: Chat, h: seq<Turn>, ask: Option<string>): (res: (Chat, string))
    ensures res.0.hasModel == c.hasModel && res.0.limit == c.limit
    ensures ask.None? ==> res == (c.(history := h), Apology)
    ensures ask.Some? ==>
      var grown := h + [Turn(Assistant, Strip(ask.value))];
      res.1 == Strip(ask.value)
      && |res.0.history| <= |grown| && res.0.history == grown[|grown| - |res.0.history|..]
      && (c.limit > 0 ==> |res.0.history| == if c.limit < |grown| then c.limit else |grown|)
  {
    match ask
    case None => (c.(history := h), Apology)
    case Some(text) =>
      var grown := h + [Turn(Assistant, Strip(text))];
      (c.(history := Trim(grown, c.limit)), Strip(text))
  }

  /** `get_response`. The user turn is appended first; the model is asked with
      the context built from that history; a reply is stripped, appended and
      the history trimmed. When the model raises, the user turn stays and no
      trim happens. `model` maps (context, user input) to the reply text. */
  function GetResponse(c: Chat, input: string, model: (string, string) -> Option<string>): (res: (Chat, string))
    ensures res.0.hasModel == c.hasModel && res.0.limit == c.limit
    ensures !c.hasModel ==> res == (c, NotInitialized)
    ensures c.hasModel ==>
      var ask := model(BuildContext(c.history + [Turn(User, input)]), input);
      (ask.None? ==> res.1 == Apology && res.0.history == c.history + [Turn(User, input)])
      && (ask.Some? ==>
        var grown := c.history + [Turn(User, input), Turn(Assistant, Strip(ask.value))];
        res.1 == Strip(ask.value)
        && |res.0.history| <= |grown| && res.0.history == grown[|grown| - |res.0.history|..]
        && (c.limit > 0 ==> |res.0.history| == if c.limit < |grown| then c.limit else |grown|))
  {
    if !c.hasModel then (c, NotInitialized)
    else
      var h := c.history + [Turn(User, input)];
      var ask := model(BuildContext(h), input);
      assert ask.Some? ==> (h + [Turn(Assistant, Strip(ask.value))]
        == c.history + [Turn(User, input), Turn(Assistant, Strip(ask.value))]);
      Reply(c, h, ask)
  }

  /** With a positive limit, every successful reply leaves the history within
      the limit, whatever state it started in; the exchange just made is the
      last thing kept. */
  lemma ReplyRestoresBound(c: Chat, input: string, model: (string, string) -> Option<string>)
    requires c.hasModel && c.limit > 0
    requires model(BuildContext(c.history + [Turn(User, input)]), input).Some?
    ensures |GetResponse(c, input, model).0.history| <= c.limit
    ensures var h := GetResponse(c, input, model).0.history;
      h[|h| - 1] == Turn(Assistant, GetResponse(c, input, model).1)
    ensures c.limit >= 2 ==> var h := GetResponse(c, input, model).0.history;
      h[|h| - 2] == Turn(User, input)
  {
    var ask := model(BuildContext(c.history + [Turn(User, input)]), input);
    assert GetResponse(c, input, model) == Reply(c, c.history + [Turn(User, input)], ask);
    ReplyEnds(c, input, ask.value);
  }

  /** The answered step on its own, with the model's text as a parameter. */
  lemma ReplyEnds(c: Chat, input: string, text: string)
    requires c.limit > 0
    ensures var res := Reply(c, c.history + [Turn(User, input)], Some(text));
      |res.0.history| <= c.limit && res.0.history[|res.0.history| - 1] == Turn(Assistant, res.1)
      && (c.limit >= 2 ==> res.0.history[|res.0.history| - 2] == Turn(User, input))
  {
    var x, y := Turn(User, input), Turn(Assistant, Strip(text));
    assert (c.history + [x]) + [y] == c.history + [x, y];
    TrimKeepsExchange(c.history, x, y, c.limit);
  }

  /** Trimming to a positive limit keeps the last exchange at the end. */
  lemma TrimKeepsExchange<T>(pre: seq<T>, x: T, y: T, limit: int)
    requires limit > 0
    ensures var h := Trim(pre + [x, y], limit);
      0 < |h| <= limit && h[|h| - 1] == y && (limit >= 2 ==> h[|h| - 2] == x)
  {
    SuffixEnds(Trim(pre + [x, y], limit), pre, x, y);
  }

  /** The last entries of a suffix of `pre + [x, y]`. */
  lemma SuffixEnds<T>(h: seq<T>, pre: seq<T>, x: T, y: T)
    requires 0 < |h| <= |pre| + 2 && h == (pre + [x, y])[|pre| + 2 - |h|..]
    ensures h[|h| - 1] == y
    ensures |h| >= 2 ==> h[|h| - 2] == x
  {
    var g := pre + [x, y];
    assert h[|h| - 1] == g[|g| - 1];
    if |h| >= 2 {
      assert h[|h| - 2] == g[|g| - 2];
    }
  }

  /** Runs a series of inputs against the same model. */
  function Converse(c: Chat, inputs: seq<string>, model: (string, string) -> Option<string>): Chat
    decreases |inputs|
  {
    if |inputs| == 0 then c
    else Converse(GetResponse(c, inputs[0], model).0, inputs[1..], model)
  }

  /** A history within a positive limit stays within it as long as the model
      answers every call. */
  predicate AlwaysAnswers(c: Chat, inputs: seq<string>, model: (string, string) -> Option<string>)
    decreases |inputs|
  {
    |inputs| == 0 ||
    ((c.hasModel ==> model(BuildContext(c.history + [Turn(User, inputs[0])]), inputs[0]).Some?)
     && AlwaysAnswers(GetResponse(c, inputs[0], model).0, inputs[1..], model))
  }

  lemma {:induction false} ConverseKeepsBound(c: Chat, inputs: seq<string>, model: (string, string) -> Option<string>)
    requires c.limit > 0 && |c.history| <= c.limit
    requires AlwaysAnswers(c, inputs, model)
    ensures |Converse(c, inputs, model).history| <= c.limit
    ensures Converse(c, inputs, model).limit == c.limit
    decreases |inputs|
  {
    if |inputs| > 0 {
      var c' := GetResponse(c, inputs[0], model).0;
      if c.hasModel {
        ReplyRestoresBound(c, inputs[0], model);
      }
      ConverseKeepsBound(c', inputs[1..], model);
    }
  }

  /** When the model raises, the history grows past a limit it had reached:
      the exception path appends without trimming. */
  lemma FailureOverrunsLimit(c: Chat, input: string, model: (string, string) -> Option<string>)
    requires c.hasModel && |c.history| == c.limit
    requires model(BuildContext(c.history + [Turn(User, input)]), input).None?
    ensures |GetResponse(c, input, model).0.history| == c.limit + 1
  {
  }

  // ---------------------------------------------------------------------
  // Context (`_build_conversation_context`) and summary

  /** `m[:n]` followed by "..." when `m` is longer than `n`. */
  function Snip(m: string, n: nat): (r: string)
    ensures |m| <= n ==> r == m
    ensures |m| > n ==> |r| == n + 3 && r[..n] == m[..n] && r[n..] == "..."
  {
    if |m| > n then m[..n] + "..." else m
  }

  const ContextHeader: string := "Recent conversation context:\n"

  /** `h[-5:-1]` for a history of at least two entries: up to four entries
      before the last one. */
  function Window(h: seq<Turn>): (w: seq<Turn>)
    requires |h| >= 2
    ensures |w| == if |h| >= 5 then 4 else |h| - 1
    ensures w == h[|h| - 1 - |w|..|h| - 1]
  {
    var start := if |h| >= 5 then |h| - 5 else 0;
    h[start..|h| - 1]
  }

  function ContextLine(t: Turn): string {
    (if t.role == User then "User: " else "FRIDAY: ") + Snip(t.text, 80) + "\n"
  }

  function Lines(ts: seq<Turn>): string
    decreases |ts|
  {
    if |ts| == 0 then [] else Lines(ts[..|ts| - 1]) + ContextLine(ts[|ts| - 1])
  }

  /** `_build_conversation_context`. */
  function BuildContext(h: seq<Turn>): string {
    if |h| <= 1 then [] else ContextHeader + Lines(Window(h))
  }

  /** Each of the (up to) four entries before the newest is shown in the
      context as its speaker label, its message cut to 80 characters, and a
      line break. */
  lemma ContextShowsRecentEntries(h: seq<Turn>, i: int)
    requires 0 <= i < |h| - 1 && |h| - 5 <= i
    ensures Contains(BuildContext(h),
      (if h[i].role == User then "User: " else "FRIDAY: ") + Snip(h[i].text, 80) + "\n")
  {
    var w := Window(h);
    var j := i - (|h| - 1 - |w|);
    assert w[j] == h[i];
    var o := LineOffset(w, j);
    var line := ContextLine(h[i]);
    OccursAfter(ContextHeader, Lines(w), line, o);
    OccursContains(ContextHeader + Lines(w), line, |ContextHeader| + o);
  }

  /** Where the line of entry j sits in the rendering of `ts`. */
  lemma {:induction false} LineOffset(ts: seq<Turn>, j: nat) returns (o: nat)
    requires j < |ts|
    ensures OccursAt(Lines(ts), ContextLine(ts[j]), o)
    decreases |ts|
  {
    var init := ts[..|ts| - 1];
    var a, b := Lines(init), ContextLine(ts[|ts| - 1]);
    assert Lines(ts) == a + b;
    if j == |ts| - 1 {
      OccursAfter(a, b, b, 0);
      o := |a|;
    } else {
      assert init[j] == ts[j];
      o := LineOffset(init, j);
      OccursBefore(a, b, ContextLine(ts[j]), o);
    }
  }

  /** The context never shows the newest entry: two histories that differ
      only in their last entry give the same context. */
  lemma ContextIgnoresLatest(h: seq<Turn>, a: Turn, b: Turn)
    ensures BuildContext(h + [a]) == BuildContext(h + [b])
  {
    if |h| >= 1 {
      assert Window(h + [a]) == Window(h + [b]);
    }
  }

  /** Entries older than the last five never reach the context. */
  lemma ContextSeesOnlyLastFive(old_: seq<Turn>, h: seq<Turn>)
    requires |h| >= 5
    ensures BuildContext(old_ + h) == BuildContext(h)
  {
    var g := old_ + h;
    assert g[|g| - 5..|g| - 1] == h[|h| - 5..|h| - 1];
    assert Window(g) == Window(h);
  }

  /** Every line of the context is at most 8 + 80 + 3 + 1 characters, so the
      whole context is bounded. */
  lemma {:induction false} LinesBounded(ts: seq<Turn>)
    ensures |Lines(ts)| <= 92 * |ts|
    decreases |ts|
  {
    if |ts| > 0 {
      LinesBounded(ts[..|ts| - 1]);
    }
  }

  lemma ContextBounded(h: seq<Turn>)
    ensures |BuildContext(h)| <= |ContextHeader| + 4 * 92
  {
    if |h| > 1 {
      LinesBounded(Window(h));
    }
  }

  const NoHistory: string := "No conversation history"

  /** The user messages of `ts`, each cut to 50 characters plus "...". */
  function UserTopics(ts: seq<Turn>): (r: seq<string>)
    ensures |r| <= |ts|
    decreases |ts|
  {
    if |ts| == 0 then []
    else if ts[0].role == User then [Snip(ts[0].text, 50)] + UserTopics(ts[1..])
    else UserTopics(ts[1..])
  }

  /** The user entries of `ts` in order. */
  function UserMessages(ts: seq<Turn>): seq<string>
    decreases |ts|
  {
    if |ts| == 0 then []
    else if ts[0].role == User then [ts[0].text] + UserMessages(ts[1..])
    else UserMessages(ts[1..])
  }

  /** The topics are exactly the user messages, in order, each snipped. */
  lemma {:induction false} TopicsAreSnippedMessages(ts: seq<Turn>)
    ensures |UserTopics(ts)| == |UserMessages(ts)|
    ensures forall i :: 0 <= i < |UserTopics(ts)| ==> UserTopics(ts)[i] == Snip(UserMessages(ts)[i], 50)
    decreases |ts|
  {
    if |ts| > 0 {
      TopicsAreSnippedMessages(ts[1..]);
    }
  }

  /** Python's `sep.join(xs)`. */
  function Join(sep: string, xs: seq<string>): string
    decreases |xs|
  {
    if |xs| == 0 then [] else if |xs| == 1 then xs[0] else xs[0] + sep + Join(sep, xs[1..])
  }

  /** The first `n` entries, `xs[:n]`. */
  function Take<T>(xs: seq<T>, n: nat): (r: seq<T>)
    ensures |r| == if n < |xs| then n else |xs|
    ensures r == xs[..|r|]
  {
    if n < |xs| then xs[..n] else xs
  }

  /** The topics shown: the first three user messages among the last six
      entries (all of them when there are fewer), each snipped. */
  function RecentTopics(h: seq<Turn>): (r: seq<string>)
    ensures var n := |UserMessages(TakeLast(h, 6))|; |r| == if n < 3 then n else 3
    ensures forall i :: 0 <= i < |r| ==> r[i] == Snip(UserMessages(TakeLast(h, 6))[i], 50)
  {
    TopicsAreSnippedMessages(TakeLast(h, 6));
    Take(UserTopics(TakeLast(h, 6)), 3)
  }

  /** The opening of the summary, up to the topic list. */
  function CountLine(n: nat): string {
    "Conversation: " + NatToString(n) + " exchanges. Recent topics: "
  }

  /** `get_conversation_summary`. */
  function Summary(h: seq<Turn>): (r: string)
    ensures |h| == 0 <==> r == NoHistory
  {
    if |h| == 0 then NoHistory
    else
      var s := CountLine(|h| / 2) + Join(", ", RecentTopics(h));
      assert s[0] == 'C' && NoHistory[0] == 'N';
      s
  }

  /** The summary reports the number of complete exchanges: the count it
      prints reads back as half the history length. */
  lemma SummaryCount(h: seq<Turn>)
    requires |h| > 0
    ensures var digits := NatToString(|h| / 2);
      Summary(h)[14..14 + |digits|] == digits && DigitsValue(digits) == |h| / 2
  {
    NatToStringRoundTrip(|h| / 2);
    var d := NatToString(|h| / 2);
    var p := "Conversation: ";
    var q := " exchanges. Recent topics: " + Join(", ", RecentTopics(h));
    assert |p| == 14;
    assert Summary(h) == p + d + q;
    assert (p + d + q)[14..14 + |d|] == d;
  }

  /** Each topic shown is the snip of a user message from the last six
      entries, in order, and no more than three are shown. */
  lemma TopicsComeFromRecentUsers(h: seq<Turn>)
    ensures var n := |UserMessages(TakeLast(h, 6))|; |RecentTopics(h)| == if n < 3 then n else 3
    ensures forall i :: 0 <= i < |RecentTopics(h)| ==>
      RecentTopics(h)[i] == Snip(UserMessages(TakeLast(h, 6))[i], 50)
  {
    TopicsAreSnippedMessages(TakeLast(h, 6));
  }

  /** After three ordinary exchanges the summary lists the three user
      messages of those exchanges, oldest first. */
  lemma TopicsOfThreeExchanges(h: seq<Turn>)
    requires |h| >= 6
    requires forall i :: |h| - 6 <= i < |h| ==> h[i].role == (if (|h| - i) % 2 == 0 then User else Assistant)
    ensures RecentTopics(h) == [Snip(h[|h| - 6].text, 50), Snip(h[|h| - 4].text, 50), Snip(h[|h| - 2].text, 50)]
  {
    var w := TakeLast(h, 6);
    var b := |h| - 6;
    assert w == h[b..];
    assert w[0] == h[b] && w[2] == h[b + 2] && w[4] == h[b + 4];
    assert h[b].role == User && h[b + 2].role == User && h[b + 4].role == User;
    assert h[b + 1].role == Assistant && h[b + 3].role == Assistant && h[b + 5].role == Assistant;
    assert UserMessages(w[5..]) == [] by { assert w[5..][1..] == []; }
    assert UserMessages(w[4..]) == [h[b + 4].text] by { assert w[4..][1..] == w[5..]; }
    assert UserMessages(w[2..]) == [h[b + 2].text, h[b + 4].text] by {
      assert w[2..][1..] == w[3..] && w[3..][1..] == w[4..];
    }
    assert UserMessages(w) == [h[b].text, h[b + 2].text, h[b + 4].text] by {
      assert w[1..][1..] == w[2..];
    }
  }
}

=== FILE: speech.dfy ===
/** Speech synthesis in the AI engine: the text normalisation applied before
    any provider is called, and the provider dispatch over `tts_mode` with
    its one-way demotion from ElevenLabs to the local engine.

    Providers are oracles: each is a function from the text it is given to
    what the call produced (None where the call raised). */
module Speech {
  import opened Base
  import opened Strings

  // ---------------------------------------------------------------------
  // Normalisation (`_clean_text_for_tts`)

  /** Markdown markers removed first, in the order the source removes them. */
  function StripMarkup(t: string): string {
    var a := Replace(Replace(Replace(t, "*", ""), "_", ""), "#", "");
    Replace(Replace(a, "```", ""), "`", "")
  }

  /** The abbreviation table, in dictionary (insertion) order. */
  const Abbreviations: seq<(string, string)> := [
    ("e.g.", "for example"),
    ("i.e.", "that is"),
    ("etc.", "etcetera"),
    ("vs.", "versus"),
    ("Mr.", "Mister"),
    ("Dr.", "Doctor"),
    ("Prof.", "Professor")
  ]

  /** Applies each replacement of the table in turn, first entry first. */
  function ExpandAll(t: string, table: seq<(string, string)>): string
    requires forall k :: 0 <= k < |table| ==> |table[k].0| > 0
    decreases |table|
  {
    if |table| == 0 then t else ExpandAll(Replace(t, table[0].0, table[0].1), table[1..])
  }

  /** One `replace` pass per pattern, so "!!!" becomes "!!". */
  function CollapsePunctuation(t: string): string {
    Replace(Replace(Replace(t, "...", "."), "!!", "!"), "??", "?")
  }

  predicate IsTerminal(c: char) {
    c == '.' || c == '!' || c == '?'
  }

  /** Strips the text and appends '.' when it is non-empty and does not
      already end in terminal punctuation. */
  function EnsureTerminal(t: string): (r: string)
    ensures r == [] <==> Strip(t) == []
    ensures |r| > 0 ==> IsTerminal(r[|r| - 1])
    ensures |Strip(t)| > 0 && IsTerminal(Strip(t)[|Strip(t)| - 1]) ==> r == Strip(t)
    ensures |Strip(t)| > 0 && !IsTerminal(Strip(t)[|Strip(t)| - 1]) ==> r == Strip(t) + "."
  {
    var u := Strip(t);
    if |u| > 0 && !(EndsWith(u, ".") || EndsWith(u, "!") || EndsWith(u, "?")) then u + "."
    else
      assert |u| > 0 ==> u[|u| - 1..] == [u[|u| - 1]];
      u
  }

  function CleanText(t: string): string {
    EnsureTerminal(CollapsePunctuation(ExpandAll(StripMarkup(t), Abbreviations)))
  }

  /** Normalised text is empty or ends in '.', '!' or '?'. */
  lemma CleanTextTerminal(t: string)
    ensures var r := CleanText(t); r == [] || IsTerminal(r[|r| - 1])
  {
  }

  /** The markers '*', '_', '#' and '`' never survive normalisation. */
  lemma CleanTextHasNoMarkup(t: string, c: char)
    requires c in "*_#`"
    ensures c !in CleanText(t)
  {
    var f := StripMarkup(t);
    StripMarkupRemovesMarkers(t, c);
    AbbreviationsPlain(c);
    ExpandKeepsAbsent(f, Abbreviations, c);
    var g := ExpandAll(f, Abbreviations);
    CollapseKeepsAbsent(g, c);
    StripKeepsAbsent(CollapsePunctuation(g), c);
  }

  /** The first stage already removes every marker. */
  lemma StripMarkupRemovesMarkers(t: string, c: char)
    requires c in "*_#`"
    ensures c !in StripMarkup(t)
  {
    var a := Replace(t, "*", "");
    var b := Replace(a, "_", "");
    var d := Replace(b, "#", "");
    var e := Replace(d, "```", "");
    ReplaceRemovesChar(t, '*');
    ReplaceRemovesChar(a, '_');
    ReplaceRemovesChar(b, '#');
    ReplaceRemovesChar(e, '`');
    if c == '*' {
      ReplaceKeepsAbsent(a, "_", "", c);
    }
    if c == '*' || c == '_' {
      ReplaceKeepsAbsent(b, "#", "", c);
    }
    if c != '`' {
      ReplaceKeepsAbsent(d, "```", "", c);
      ReplaceKeepsAbsent(e, "`", "", c);
    }
  }

  /** No expansion in the table introduces a marker. */
  lemma AbbreviationsPlain(c: char)
    requires c in "*_#`"
    ensures forall k :: 0 <= k < |Abbreviations| ==> |Abbreviations[k].0| > 0 && c !in Abbreviations[k].1
  {
  }

  /** Collapsing punctuation introduces only '.', '!' and '?'. */
  lemma CollapseKeepsAbsent(t: string, c: char)
    requires c !in t && c !in ".!?"
    ensures c !in CollapsePunctuation(t)
  {
    var a := Replace(t, "...", ".");
    ReplaceKeepsAbsent(t, "...", ".", c);
    var b := Replace(a, "!!", "!");
    ReplaceKeepsAbsent(a, "!!", "!", c);
    ReplaceKeepsAbsent(b, "??", "?", c);
  }

  lemma {:induction false} ExpandKeepsAbsent(t: string, table: seq<(string, string)>, c: char)
    requires forall k :: 0 <= k < |table| ==> |table[k].0| > 0 && c !in table[k].1
    requires c !in t
    ensures c !in ExpandAll(t, table)
    decreases |table|
  {
    if |table| > 0 {
      ReplaceKeepsAbsent(t, table[0].0, table[0].1, c);
      ExpandKeepsAbsent(Replace(t, table[0].0, table[0].1), table[1..], c);
    }
  }

  /** An expansion whose pattern's first letter is absent from the text
      leaves the text alone. */
  lemma {:induction false} ExpandWithoutLeaders(t: string, table: seq<(string, string)>)
    requires forall k :: 0 <= k < |table| ==> |table[k].0| > 0 && table[k].0[0] !in t
    ensures ExpandAll(t, table) == t
    decreases |table|
  {
    if |table| > 0 {
      ReplaceWithoutLeader(t, table[0].0, table[0].1);
      ExpandWithoutLeaders(t, table[1..]);
    }
  }

  /** Text with no marker and no abbreviation's first letter goes through
      the first two stages untouched. */
  lemma CleanTextOfPlain(t: string)
    requires forall c :: c in "*_#`" ==> c !in t
    requires forall k :: 0 <= k < |Abbreviations| ==> Abbreviations[k].0[0] !in t
    ensures CleanText(t) == EnsureTerminal(CollapsePunctuation(t))
  {
    StripMarkupOfPlain(t);
    ExpandWithoutLeaders(t, Abbreviations);
  }

  /** Text without markers is left alone by the first stage. */
  lemma StripMarkupOfPlain(t: string)
    requires forall c :: c in "*_#`" ==> c !in t
    ensures StripMarkup(t) == t
  {
    ReplaceWithoutLeader(t, "*", "");
    ReplaceWithoutLeader(t, "_", "");
    ReplaceWithoutLeader(t, "#", "");
    ReplaceWithoutLeader(t, "```", "");
    ReplaceWithoutLeader(t, "`", "");
  }

  /** Each abbreviation of the table is replaced in turn, first entry first. */
  lemma ExpandAllInOrder(t: string)
    ensures ExpandAll(t, Abbreviations) ==
      Replace(Replace(Replace(Replace(Replace(Replace(Replace(t,
        "e.g.", "for example"), "i.e.", "that is"), "etc.", "etcetera"), "vs.", "versus"),
        "Mr.", "Mister"), "Dr.", "Doctor"), "Prof.", "Professor")
  {
    var tb := Abbreviations;
    assert tb[1..][1..][1..][1..][1..][1..][1..] == [];
  }

  /** The table is applied in its order, one pattern at a time: in "i.e.g."
      the "e.g." entry fires first and leaves no "i.e." behind, so the text
      becomes "i.for example"; taking "i.e." first would have given
      "that isg.". */
  lemma TableOrderExample(t: string)
    requires t == "i.e.g."
    ensures ExpandAll(t, Abbreviations) == "i.for example"
  {
    ExpandAllInOrder(t);
    var a := OrderHead(t);
    ReplaceLead(a, "e.g.", [], "for example");
    assert Replace([], "e.g.", "for example") == [];
    var u := a + ("for example" + []);
    var rest := OrderExpanded(a, u);
    ReplaceMiss('i', rest, "i.e.", "that is");
    ReplaceWithoutLeader(rest, "i.e.", "that is");
    assert Replace(u, "i.e.", "that is") == u;
    OrderWithoutEtc(u);
    OrderWithoutTitles(u);
  }

  /** The same two entries taken the other way round give another text,
      so the order of the table is observable. */
  lemma ReversedOrderDiffers(t: string)
    requires t == "i.e.g."
    ensures Replace(Replace(t, "i.e.", "that is"), "e.g.", "for example") == "that isg."
    ensures ExpandAll(t, Abbreviations) != Replace(Replace(t, "i.e.", "that is"), "e.g.", "for example")
  {
    var g := OrderLatinFirst(t);
    ReplaceLead([], "i.e.", g, "that is");
    assert Replace(g, "i.e.", "that is") == g;
    var v := OrderSwapped(g);
    ReplaceWithoutLeader(v, "e.g.", "for example");
    TableOrderExample(t);
    OrderResultsDiffer("i.for example", v);
  }

  lemma OrderLatinFirst(t: string) returns (g: string)
    requires t == "i.e.g."
    ensures t == [] + ("i.e." + g) && g == "g."
  {
    g := "g.";
  }

  lemma OrderSwapped(g: string) returns (v: string)
    requires g == "g."
    ensures [] + ("that is" + g) == v && v == "that isg." && 'e' !in v
  {
    v := "that isg.";
  }

  lemma OrderResultsDiffer(x: string, y: string)
    requires x == "i.for example" && y == "that isg."
    ensures x != y
  {
    assert x[0] != y[0];
  }

  lemma OrderHead(t: string) returns (a: string)
    requires t == "i.e.g."
    ensures t == a + ("e.g." + []) && a == "i." && 'e' !in a
  {
    a := "i.";
  }

  lemma OrderExpanded(a: string, u: string) returns (rest: string)
    requires a == "i." && u == a + ("for example" + [])
    ensures u == "i.for example" && u == ['i'] + rest && 'i' !in rest
    ensures !StartsWith(['i'] + rest, "i.e.")
  {
    rest := ".for example";
    assert (['i'] + rest)[2] == 'f';
  }

  /** "etc." does not occur in "i.for example": neither 'e' is followed
      by 't'. */
  lemma OrderWithoutEtc(u: string)
    requires u == "i.for example"
    ensures Replace(u, "etc.", "etcetera") == u
  {
    var pre, mid := OrderAroundE(u);
    ReplaceNear(pre, 'e', mid, "etc.", "etcetera");
    var m := OrderBeforeLastE(mid);
    ReplaceConcat(m, "e", "etc.", "etcetera");
    assert Replace("e", "etc.", "etcetera") == "e";
  }

  lemma OrderAroundE(u: string) returns (pre: string, mid: string)
    requires u == "i.for example"
    ensures u == pre + (['e'] + mid) && 'e' !in pre && mid == "xample" && mid[0] == 'x'
  {
    pre, mid := "i.for ", "xample";
  }

  lemma OrderBeforeLastE(mid: string) returns (m: string)
    requires mid == "xample"
    ensures mid == m + "e" && 'e' !in m
  {
    m := "xampl";
  }

  /** No title or "vs." leader occurs in "i.for example". */
  lemma OrderWithoutTitles(u: string)
    requires u == "i.for example"
    ensures Replace(Replace(Replace(Replace(u, "vs.", "versus"), "Mr.", "Mister"), "Dr.", "Doctor"), "Prof.", "Professor") == u
  {
    OrderLeadersAbsent(u);
    ReplaceWithoutLeader(u, "vs.", "versus");
    ReplaceWithoutLeader(u, "Mr.", "Mister");
    ReplaceWithoutLeader(u, "Dr.", "Doctor");
    ReplaceWithoutLeader(u, "Prof.", "Professor");
  }

  lemma OrderLeadersAbsent(u: string)
    requires u == "i.for example"
    ensures 'v' !in u && 'M' !in u && 'D' !in u && 'P' !in u
  {
  }

  /** Abbreviations inside a sentence are expanded and the trailing
      ellipsis collapses: "Dr. Smith vs. Dr. Jones..." is spoken as
      "Doctor Smith versus Doctor Jones.". */
  lemma DoctorExample(t: string)
    requires t == "Dr. Smith vs. Dr. Jones..."
    ensures CleanText(t) == "Doctor Smith versus Doctor Jones."
  {
    DoctorMarkup(t);
    ExpandAllInOrder(t);
    DoctorNoLatin(t);
    var u := Replace(t, "vs.", "versus");
    DoctorVersus(t, u);
    var v := Replace(Replace(Replace(u, "Mr.", "Mister"), "Dr.", "Doctor"), "Prof.", "Professor");
    DoctorTitles(u, v);
    var w := CollapsePunctuation(v);
    DoctorCollapse(v, w);
    DoctorTerminal(w);
  }

  lemma DoctorMarkup(t: string)
    requires t == "Dr. Smith vs. Dr. Jones..."
    ensures StripMarkup(t) == t
  {
    DoctorHasNoMarker(t);
    StripMarkupOfPlain(t);
  }

  lemma DoctorHasNoMarker(t: string)
    requires t == "Dr. Smith vs. Dr. Jones..."
    ensures forall c :: c in "*_#`" ==> c !in t
  {
  }

  /** "e.g.", "i.e." and "etc." do not occur: each 'e' and 'i' is followed
      by a letter. */
  lemma DoctorNoLatin(t: string)
    requires t == "Dr. Smith vs. Dr. Jones..."
    ensures Replace(Replace(Replace(t, "e.g.", "for example"), "i.e.", "that is"), "etc.", "etcetera") == t
  {
    var a, b := DoctorAroundE(t);
    ReplaceNear(a, 'e', b, "e.g.", "for example");
    ReplaceWithoutLeader(b, "e.g.", "for example");
    ReplaceNear(a, 'e', b, "etc.", "etcetera");
    ReplaceWithoutLeader(b, "etc.", "etcetera");
    var c, d := DoctorAroundI(t);
    ReplaceNear(c, 'i', d, "i.e.", "that is");
    ReplaceWithoutLeader(d, "i.e.", "that is");
  }

  lemma DoctorAroundE(t: string) returns (a: string, b: string)
    requires t == "Dr. Smith vs. Dr. Jones..."
    ensures t == a + (['e'] + b) && 'e' !in a && 'e' !in b && |b| > 0 && b[0] == 's'
  {
    a, b := "Dr. Smith vs. Dr. Jon", "s...";
  }

  lemma DoctorAroundI(t: string) returns (a: string, b: string)
    requires t == "Dr. Smith vs. Dr. Jones..."
    ensures t == a + (['i'] + b) && 'i' !in a && 'i' !in b && |b| > 0 && b[0] == 't'
  {
    a, b := "Dr. Sm", "th vs. Dr. Jones...";
  }

  /** The one "vs." becomes "versus". */
  lemma DoctorVersus(t: string, u: string)
    requires t == "Dr. Smith vs. Dr. Jones..."
    requires u == Replace(t, "vs.", "versus")
    ensures u == "Dr. Smith versus Dr. Jones..."
  {
    var a, b := DoctorAroundVersus(t);
    ReplaceLead(a, "vs.", b, "versus");
    ReplaceWithoutLeader(b, "vs.", "versus");
  }

  lemma DoctorAroundVersus(t: string) returns (a: string, b: string)
    requires t == "Dr. Smith vs. Dr. Jones..."
    ensures t == a + ("vs." + b) && 'v' !in a && 'v' !in b
    ensures a + ("versus" + b) == "Dr. Smith versus Dr. Jones..."
  {
    a, b := "Dr. Smith ", " Dr. Jones...";
  }

  /** "Mr." and "Prof." do not occur; both "Dr." do. */
  lemma DoctorTitles(u: string, v: string)
    requires u == "Dr. Smith versus Dr. Jones..."
    requires v == Replace(Replace(Replace(u, "Mr.", "Mister"), "Dr.", "Doctor"), "Prof.", "Professor")
    ensures v == "Doctor Smith versus Doctor Jones..."
  {
    var a, b := DoctorAroundTitles(u);
    DoctorTitleGaps(a, b);
    DoctorWithoutMister(u);
    ReplaceWithoutLeader(u, "Mr.", "Mister");
    ReplaceLead([], "Dr.", a + ("Dr." + b), "Doctor");
    ReplaceLead(a, "Dr.", b, "Doctor");
    ReplaceWithoutLeader(b, "Dr.", "Doctor");
    var w := "Doctor" + (a + ("Doctor" + b));
    assert [] + ("Dr." + (a + ("Dr." + b))) == u;
    DoctorJoinTitles(a, b);
    DoctorWithoutProfessor(w);
    ReplaceWithoutLeader(w, "Prof.", "Professor");
  }

  lemma DoctorAroundTitles(u: string) returns (a: string, b: string)
    requires u == "Dr. Smith versus Dr. Jones..."
    ensures a == " Smith versus " && b == " Jones..."
    ensures u == "Dr." + (a + ("Dr." + b))
  {
    a, b := " Smith versus ", " Jones...";
  }

  lemma DoctorTitleGaps(a: string, b: string)
    requires a == " Smith versus " && b == " Jones..."
    ensures 'D' !in a && 'D' !in b
  {
  }

  lemma DoctorWithoutMister(u: string)
    requires u == "Dr. Smith versus Dr. Jones..."
    ensures 'M' !in u
  {
  }

  lemma DoctorJoinTitles(a: string, b: string)
    requires a == " Smith versus " && b == " Jones..."
    ensures "Doctor" + (a + ("Doctor" + b)) == "Doctor Smith versus Doctor Jones..."
  {
  }

  lemma DoctorWithoutProfessor(w: string)
    requires w == "Doctor Smith versus Doctor Jones..."
    ensures 'P' !in w
  {
  }

  /** The trailing ellipsis collapses to one full stop. */
  lemma DoctorCollapse(v: string, w: string)
    requires v == "Doctor Smith versus Doctor Jones..."
    requires w == CollapsePunctuation(v)
    ensures w == "Doctor Smith versus Doctor Jones."
  {
    var a := DoctorBeforeEllipsis(v);
    ReplaceLead(a, "...", [], ".");
    assert Replace([], "...", ".") == [];
    assert a + ("..." + []) == v;
    var x := a + ".";
    assert Replace(v, "...", ".") == x;
    DoctorEndsInStop(a, x);
    DoctorNoRepeats(x);
    ReplaceWithoutLeader(x, "!!", "!");
    ReplaceWithoutLeader(x, "??", "?");
  }

  lemma DoctorBeforeEllipsis(v: string) returns (a: string)
    requires v == "Doctor Smith versus Doctor Jones..."
    ensures a == "Doctor Smith versus Doctor Jones"
    ensures v == a + "..." && '.' !in a
  {
    a := "Doctor Smith versus Doctor Jones";
  }

  lemma DoctorEndsInStop(a: string, x: string)
    requires a == "Doctor Smith versus Doctor Jones" && x == a + "."
    ensures x == "Doctor Smith versus Doctor Jones."
  {
  }

  lemma DoctorNoRepeats(x: string)
    requires x == "Doctor Smith versus Doctor Jones."
    ensures '!' !in x && '?' !in x
  {
  }

  /** The result already ends in a full stop and has no surrounding space. */
  lemma DoctorTerminal(w: string)
    requires w == "Doctor Smith versus Doctor Jones."
    ensures EnsureTerminal(w) == w
  {
    StripUnspaced(w);
  }

  /** Punctuation collapsing is a single pass: "!!!" keeps two marks. */
  lemma TripleBangKeepsTwo()
    ensures CollapsePunctuation("!!!") == "!!"
  {
    ReplaceWithoutLeader("!!!", "...", ".");
    BangsKeepTwo();
    ReplaceWithoutLeader("!!", "??", "?");
  }

  /** The same collapse inside a sentence: "Wow!!!" is spoken as "Wow!!". */
  lemma WowKeepsTwo()
    ensures CleanText("Wow!!!") == "Wow!!"
  {
    CleanTextOfPlain("Wow!!!");
    WowCollapses();
    WowIsTerminal();
  }

  lemma WowCollapses()
    ensures CollapsePunctuation("Wow!!!") == "Wow!!"
  {
    var w: string := "Wow!!!";
    ReplaceWithoutLeader(w, "...", ".");
    WowBangs();
    var v: string := "Wow!!";
    ReplaceWithoutLeader(v, "??", "?");
  }

  lemma WowBangs()
    ensures Replace("Wow!!!", "!!", "!") == "Wow!!"
  {
    var a: string := "Wow";
    var b: string := "!!!";
    assert a + b == "Wow!!!";
    ReplaceConcat(a, b, "!!", "!");
    BangsKeepTwo();
  }

  lemma BangsKeepTwo()
    ensures Replace("!!!", "!!", "!") == "!!"
  {
    var b: string := "!!!";
    assert b[..2] == "!!" && b[2..] == "!";
  }

  lemma WowIsTerminal()
    ensures EnsureTerminal("Wow!!") == "Wow!!"
  {
    var w: string := "Wow!!";
    StripUnspaced(w);
  }

  // ---------------------------------------------------------------------
  // Providers

  /** The values `tts_mode` takes. */
  datatype Mode = ElevenLabsMode | GttsMode | LocalMode | SystemMode

  /** Preference order: a higher rank is a later fallback. */
  function Rank(m: Mode): nat {
    match m
    case ElevenLabsMode => 0
    case GttsMode => 1
    case LocalMode => 2
    case SystemMode => 3
  }

  datatype Provider = ElevenLabs | Gtts | LocalEngine | NativeSpeech

  /** One provider call and the text it was given. */
  datatype Call = Call(provider: Provider, text: string)

  /** What the platform's speech commands do: the Windows PowerShell call and
      the Linux espeak and festival calls succeed or raise. macOS uses
      `os.system`, which never raises. */
  datatype NativeEngines = NativeEngines(powershellOk: bool, espeakOk: bool, festivalOk: bool)

  /** The provider oracles. `elevenlabs` yields the streamed chunks; `gtts`
      and `local` the bytes of the file written, None where the call raised. */
  datatype Providers = Providers(
    elevenlabs: string -> Option<seq<bytes>>,
    gtts: string -> Option<bytes>,
    hasPyttsx3: bool,
    local: string -> Option<bytes>,
    native: string -> NativeEngines,
    platform: Platform)

  /** `b"system_tts_played"`, returned when native speech has played. */
  const PlayedSentinel: bytes := AsciiBytes("system_tts_played")

  /** Files of at most this many bytes are rejected as invalid audio. */
  const MinAudioBytes: nat := 1000

  datatype Synthesis = Synthesis(audio: Option<bytes>, calls: seq<Call>)

  /** `_system_tts` as written: on Linux the `subprocess` module is referenced
      without having been imported in that branch, so both the espeak and
      the festival attempts raise and the call ends in the error path. */
  function SystemTtsAsWritten(p: Providers, text: string): (s: Synthesis)
    ensures s.calls == [Call(NativeSpeech, text)]
    ensures p.platform == Linux ==> s.audio == None
  {
    var n := p.native(text);
    var audio := match p.platform
      case Windows => if n.powershellOk then Some(PlayedSentinel) else None
      case MacOS => Some(PlayedSentinel)
      case Linux => None;
    Synthesis(audio, [Call(NativeSpeech, text)])
  }

  /** `_system_tts` with `subprocess` in scope on every platform: Linux tries
      espeak, then festival. */
  function SystemTts(p: Providers, text: string): (s: Synthesis)
    ensures s.calls == [Call(NativeSpeech, text)]
    ensures s.audio.Some? ==> s.audio.value == PlayedSentinel
    ensures p.platform == Linux ==>
      (s.audio.Some? <==> p.native(text).espeakOk || p.native(text).festivalOk)
    ensures p.platform != Linux ==> s == SystemTtsAsWritten(p, text)
  {
    var n := p.native(text);
    var audio := match p.platform
      case Windows => if n.powershellOk then Some(PlayedSentinel) else None
      case MacOS => Some(PlayedSentinel)
      case Linux => if n.espeakOk || n.festivalOk then Some(PlayedSentinel) else None;
    Synthesis(audio, [Call(NativeSpeech, text)])
  }

  /** On Linux, a working espeak shows the difference: the corrected call
      plays, the call as written reports failure. */
  lemma LinuxNativeSpeechAsWrittenFails(p: Providers, text: string)
    requires p.platform == Linux && p.native(text).espeakOk
    ensures SystemTtsAsWritten(p, text).audio == None
    ensures SystemTts(p, text).audio == Some(PlayedSentinel)
  {
  }

  /** Every call in a synthesis was given the same text. */
  predicate AllGiven(calls: seq<Call>, text: string) {
    forall i :: 0 <= i < |calls| ==> calls[i].text == text
  }

  /** A file-producing provider's result: accepted when over 1000 bytes,
      otherwise native speech is used instead. */
  function AcceptOrNative(p: Providers, text: string, first: Call, out: Option<bytes>): (s: Synthesis)
    requires first.text == text
    ensures |s.calls| > 0 && s.calls[0] == first && AllGiven(s.calls, text)
    ensures out.Some? && |out.value| > MinAudioBytes ==> s.audio == out && |s.calls| == 1
    ensures !(out.Some? && |out.value| > MinAudioBytes) ==>
      s.audio == SystemTts(p, text).audio && s.calls == [first, Call(NativeSpeech, text)]
  {
    if out.Some? && |out.value| > MinAudioBytes then Synthesis(out, [first])
    else Synthesis(SystemTts(p, text).audio, [first] + SystemTts(p, text).calls)
  }

  /** `_gtts_tts`. */
  function GttsTts(p: Providers, text: string): (s: Synthesis)
    ensures |s.calls| > 0 && s.calls[0] == Call(Gtts, text) && AllGiven(s.calls, text)
    ensures s.audio.Some? ==> s.audio.value == PlayedSentinel || |s.audio.value| > MinAudioBytes
    ensures p.gtts(text).Some? && |p.gtts(text).value| > MinAudioBytes ==>
      s.audio == p.gtts(text) && |s.calls| == 1
    ensures !(p.gtts(text).Some? && |p.gtts(text).value| > MinAudioBytes) ==>
      s.audio == SystemTts(p, text).audio && s.calls == [Call(Gtts, text), Call(NativeSpeech, text)]
  {
    AcceptOrNative(p, text, Call(Gtts, text), p.gtts(text))
  }

  /** `_local_tts`: without pyttsx3 the native engine is used directly. */
  function LocalTts(p: Providers, text: string): (s: Synthesis)
    ensures |s.calls| > 0 && AllGiven(s.calls, text)
    ensures !p.hasPyttsx3 ==> s == SystemTts(p, text)
    ensures p.hasPyttsx3 ==> s.calls[0] == Call(LocalEngine, text)
    ensures s.audio.Some? ==> s.audio.value == PlayedSentinel || |s.audio.value| > MinAudioBytes
    ensures p.hasPyttsx3 && p.local(text).Some? && |p.local(text).value| > MinAudioBytes ==>
      s.audio == p.local(text) && |s.calls| == 1
    ensures p.hasPyttsx3 && !(p.local(text).Some? && |p.local(text).value| > MinAudioBytes) ==>
      s.audio == SystemTts(p, text).audio && s.calls == [Call(LocalEngine, text), Call(NativeSpeech, text)]
  {
    if !p.hasPyttsx3 then SystemTts(p, text)
    else AcceptOrNative(p, text, Call(LocalEngine, text), p.local(text))
  }

  /** The AI engine's speech state. */
  datatype Tts = Tts(mode: Mode, hasClient: bool)

  /** ElevenLabs produced usable output: a call that returned a non-empty
      sequence of chunks. */
  predicate ElevenLabsDelivers(p: Providers, text: string) {
    p.elevenlabs(text).Some? && |p.elevenlabs(text).value| > 0
  }

  /** `_elevenlabs_tts`: a non-empty chunk stream is joined and returned;
      an empty stream or a raised call demotes the mode to local for good and
      falls back to the local engine. */
  function ElevenLabsTts(st: Tts, p: Providers, text: string): (res: (Tts, Synthesis))
    ensures |res.1.calls| > 0 && res.1.calls[0] == Call(ElevenLabs, text) && AllGiven(res.1.calls, text)
    ensures ElevenLabsDelivers(p, text) ==>
      res.0 == st && res.1.audio == Some(Flatten(p.elevenlabs(text).value)) && |res.1.calls| == 1
    ensures !ElevenLabsDelivers(p, text) ==>
      res.0 == st.(mode := LocalMode) && res.1.audio == LocalTts(p, text).audio
      && res.1.calls[1..] == LocalTts(p, text).calls
  {
    var out := p.elevenlabs(text);
    if out.Some? && |out.value| > 0 then
      (st, Synthesis(Some(Flatten(out.value)), [Call(ElevenLabs, text)]))
    else
      var s := LocalTts(p, text);
      var calls := [Call(ElevenLabs, text)] + s.calls;
      assert calls[1..] == s.calls;
      (st.(mode := LocalMode), Synthesis(s.audio, calls))
  }

  /** The provider `text_to_speech` calls first for a mode. */
  function FirstProvider(st: Tts): Provider {
    if st.mode == ElevenLabsMode && st.hasClient then ElevenLabs
    else if st.mode == GttsMode then Gtts
    else NativeSpeech
  }

  /** The only state change speech ever makes: ElevenLabs with a client
      demoted to the local engine. */
  predicate DemotedOrKept(st: Tts, st': Tts) {
    st' == st || (st.mode == ElevenLabsMode && st.hasClient && st' == st.(mode := LocalMode))
  }

  /** The dispatch on `tts_mode` once the text is normalised. Audio handed
      back is the native-speech marker, a file over 1000 bytes, or what
      ElevenLabs delivered. */
  function Dispatch(st: Tts, p: Providers, clean: string): (res: (Tts, Synthesis))
    ensures |res.1.calls| > 0 && res.1.calls[0] == Call(FirstProvider(st), clean)
    ensures AllGiven(res.1.calls, clean)
    ensures DemotedOrKept(st, res.0)
    ensures res.0 != st <==> FirstProvider(st) == ElevenLabs && !ElevenLabsDelivers(p, clean)
    ensures res.1.audio.Some? ==>
      res.1.audio.value == PlayedSentinel || |res.1.audio.value| > MinAudioBytes
      || (FirstProvider(st) == ElevenLabs && ElevenLabsDelivers(p, clean))
  {
    if st.mode == ElevenLabsMode && st.hasClient then ElevenLabsTts(st, p, clean)
    else if st.mode == GttsMode then (st, GttsTts(p, clean))
    else (st, SystemTts(p, clean))
  }

  /** `text_to_speech`. Blank text returns None without consulting any
      provider; otherwise the normalised text goes to the provider the mode
      selects, and the only state change is the demotion to local. */
  function TextToSpeech(st: Tts, p: Providers, text: string): (res: (Tts, Synthesis))
    ensures Strip(text) == [] ==> res == (st, Synthesis(None, []))
    ensures Strip(text) != [] ==>
      |res.1.calls| > 0 && res.1.calls[0] == Call(FirstProvider(st), CleanText(text))
    ensures AllGiven(res.1.calls, CleanText(text))
    ensures DemotedOrKept(st, res.0)
  {
    if Strip(text) == [] then (st, Synthesis(None, []))
    else Dispatch(st, p, CleanText(text))
  }

  /** `local` is not a dispatch target of its own: it routes to native speech
      exactly as `system` does, and neither mode changes. */
  lemma LocalModeUsesNativeSpeech(p: Providers, text: string, hasClient: bool)
    ensures TextToSpeech(Tts(LocalMode, hasClient), p, text).1
         == TextToSpeech(Tts(SystemMode, hasClient), p, text).1
    ensures TextToSpeech(Tts(LocalMode, hasClient), p, text).0 == Tts(LocalMode, hasClient)
  {
    if Strip(text) != [] {
      LocalDispatch(p, CleanText(text), hasClient);
    }
  }

  lemma LocalDispatch(p: Providers, clean: string, hasClient: bool)
    ensures Dispatch(Tts(LocalMode, hasClient), p, clean) == (Tts(LocalMode, hasClient), SystemTts(p, clean))
    ensures Dispatch(Tts(SystemMode, hasClient), p, clean) == (Tts(SystemMode, hasClient), SystemTts(p, clean))
  {
  }

  /** A failed ElevenLabs call followed by a good local file returns that
      file and leaves the engine in local mode. */
  lemma ElevenLabsFailureDemotes(st: Tts, p: Providers, text: string)
    requires st.mode == ElevenLabsMode && st.hasClient && Strip(text) != []
    requires p.elevenlabs(CleanText(text)).None? && p.hasPyttsx3
    requires p.local(CleanText(text)).Some? && |p.local(CleanText(text)).value| > MinAudioBytes
    ensures TextToSpeech(st, p, text).0.mode == LocalMode
    ensures TextToSpeech(st, p, text).1.audio == p.local(CleanText(text))
    ensures TextToSpeech(st, p, text).1.calls
         == [Call(ElevenLabs, CleanText(text)), Call(LocalEngine, CleanText(text))]
  {
    ElevenLabsFallback(st, p, CleanText(text));
  }

  lemma ElevenLabsFallback(st: Tts, p: Providers, clean: string)
    requires st.mode == ElevenLabsMode && st.hasClient
    requires p.elevenlabs(clean).None? && p.hasPyttsx3
    requires p.local(clean).Some? && |p.local(clean).value| > MinAudioBytes
    ensures Dispatch(st, p, clean).0.mode == LocalMode
    ensures Dispatch(st, p, clean).1.audio == p.local(clean)
    ensures Dispatch(st, p, clean).1.calls == [Call(ElevenLabs, clean), Call(LocalEngine, clean)]
  {
    var l := LocalTts(p, clean);
    assert l.calls == [Call(LocalEngine, clean)];
    var e := ElevenLabsTts(st, p, clean);
    assert e.1.calls == [Call(ElevenLabs, clean)] + l.calls;
  }

  /** Runs `text_to_speech` on each text in turn, threading the mode. */
  function Session(st: Tts, p: Providers, texts: seq<string>): Tts
    decreases |texts|
  {
    if |texts| == 0 then st else Session(TextToSpeech(st, p, texts[0]).0, p, texts[1..])
  }

  /** Over any run of calls the mode only moves to a later fallback, the
      client is never lost, and once demoted it never returns to ElevenLabs. */
  lemma {:induction false} SessionNeverPromotes(st: Tts, p: Providers, texts: seq<string>)
    ensures Rank(Session(st, p, texts).mode) >= Rank(st.mode)
    ensures Session(st, p, texts).hasClient == st.hasClient
    ensures st.mode != ElevenLabsMode ==> Session(st, p, texts) == st
    decreases |texts|
  {
    if |texts| > 0 {
      SessionNeverPromotes(TextToSpeech(st, p, texts[0]).0, p, texts[1..]);
    }
  }

  /** `_initialize_tts`: ElevenLabs when a key is set, the client builds and
      the test phrase returns audio; otherwise gTTS when it imports and
      constructs; otherwise native speech. The client is kept whenever it was
      built, even if the test failed. */
  function InitTts(hasKey: bool, clientOk: bool, testOk: bool, hasGtts: bool, gttsOk: bool): (st: Tts)
    ensures st.mode == ElevenLabsMode <==> hasKey && clientOk && testOk
    ensures st.mode != LocalMode
    ensures st.hasClient <==> hasKey && clientOk
    ensures st.mode == GttsMode <==> !(hasKey && clientOk && testOk) && hasGtts && gttsOk
  {
    var client := hasKey && clientOk;
    if client && testOk then Tts(ElevenLabsMode, true)
    else if hasGtts && gttsOk then Tts(GttsMode, client)
    else Tts(SystemMode, client)
  }

  /** Unless ElevenLabs passed its start-up test, the mode chosen at start-up
      serves every later utterance: only an ElevenLabs mode is ever demoted. */
  lemma {:induction false} InitModeLasts(hasKey: bool, clientOk: bool, testOk: bool, hasGtts: bool, gttsOk: bool,
                                         p: Providers, texts: seq<string>)
    requires !(hasKey && clientOk && testOk)
    ensures var st := InitTts(hasKey, clientOk, testOk, hasGtts, gttsOk);
      Session(st, p, texts) == st
      && FirstProvider(st) == (if hasGtts && gttsOk then Gtts else NativeSpeech)
  {
    SessionNeverPromotes(InitTts(hasKey, clientOk, testOk, hasGtts, gttsOk), p, texts);
  }
}

=== FILE: strings.dfy ===
/** The handful of Python `str` operations the voice pipeline relies on,
    written out with the semantics CPython gives them: `in` is substring
    containment, `replace` rewrites non-overlapping occurrences left to right,
    `strip` and `split` use Python's whitespace set, `lower` folds ASCII. */
module Strings {
  import opened Base

  // ---------------------------------------------------------------------
  // Prefixes, suffixes and containment

  predicate StartsWith(s: string, p: string) {
    |p| <= |s| && s[..|p|] == p
  }

  predicate EndsWith(s: string, p: string) {
    |p| <= |s| && s[|s| - |p|..] == p
  }

  /** `p` occurs in `s` at offset `i`. */
  predicate OccursAt(s: string, p: string, i: int) {
    0 <= i && i + |p| <= |s| && s[i..i + |p|] == p
  }

  /** Python's `p in s`, computed by scanning. */
  predicate Contains(s: string, p: string)
    decreases |s|
  {
    StartsWith(s, p) || (|s| > 0 && Contains(s[1..], p))
  }

  /** The scan finds an occurrence exactly when one exists. */
  lemma ContainsIff(s: string, p: string)
    ensures Contains(s, p) <==> exists i :: OccursAt(s, p, i)
  {
    if Contains(s, p) {
      ContainsWitness(s, p);
    }
    if exists i :: OccursAt(s, p, i) {
      var i :| OccursAt(s, p, i);
      OccursContains(s, p, i);
    }
  }

  lemma {:induction false} ContainsWitness(s: string, p: string)
    requires Contains(s, p)
    ensures exists i :: OccursAt(s, p, i)
    decreases |s|
  {
    if StartsWith(s, p) {
      assert OccursAt(s, p, 0);
    } else {
      ContainsWitness(s[1..], p);
      var i :| OccursAt(s[1..], p, i);
      assert s[1..][i..i + |p|] == s[i + 1..i + 1 + |p|];
      assert OccursAt(s, p, i + 1);
    }
  }

  lemma {:induction false} OccursContains(s: string, p: string, i: int)
    requires OccursAt(s, p, i)
    ensures Contains(s, p)
    decreases i
  {
    if i > 0 {
      assert s[1..][i - 1..i - 1 + |p|] == s[i..i + |p|];
      OccursContains(s[1..], p, i - 1);
    }
  }

  /** A text missing one of the pattern's letters cannot contain it. */
  lemma MissingLetter(s: string, p: string, j: nat)
    requires j < |p| && p[j] !in s
    ensures !Contains(s, p)
  {
    ContainsIff(s, p);
    forall i | 0 <= i
      ensures !OccursAt(s, p, i)
    {
      if i + |p| <= |s| {
        assert s[i..i + |p|][j] == s[i + j];
      }
    }
  }

  /** An occurrence stays put when text is appended... */
  lemma OccursBefore(a: string, b: string, p: string, o: nat)
    requires OccursAt(a, p, o)
    ensures OccursAt(a + b, p, o)
  {
    assert (a + b)[o..o + |p|] == a[o..o + |p|];
  }

  /** ...and moves by the length of what is prepended. */
  lemma OccursAfter(a: string, b: string, p: string, o: nat)
    requires OccursAt(b, p, o)
    ensures OccursAt(a + b, p, |a| + o)
  {
    assert (a + b)[|a| + o..|a| + o + |p|] == b[o..o + |p|];
  }

  /** An occurrence inside a slice is an occurrence in the whole text. */
  lemma ContainsInSlice(s: string, r: string, i: int, p: string)
    requires OccursAt(s, r, i) && Contains(r, p)
    ensures Contains(s, p)
  {
    ContainsWitness(r, p);
    var j :| OccursAt(r, p, j);
    assert forall k :: 0 <= k < |p| ==> s[i + j..i + j + |p|][k] == s[i + j + k] == r[j + k] == p[k];
    OccursContains(s, p, i + j);
  }

  /** Stripping cannot create an occurrence. */
  lemma StripKeepsMissing(s: string, p: string)
    requires !Contains(s, p)
    ensures !Contains(Strip(s), p)
  {
    if Contains(Strip(s), p) {
      var i :| OccursAt(s, Strip(s), i);
      ContainsInSlice(s, Strip(s), i, p);
    }
  }

  /** Python's `any(p in s for p in ps)`. */
  predicate AnyIn(ps: seq<string>, s: string)
    decreases |ps|
  {
    |ps| > 0 && (Contains(s, ps[0]) || AnyIn(ps[1..], s))
  }

  /** Some entry of `ps` occurs in `s`. */
  predicate Mentions(s: string, ps: seq<string>) {
    exists k :: 0 <= k < |ps| && Contains(s, ps[k])
  }

  lemma MentionsIff(s: string, ps: seq<string>)
    ensures AnyIn(ps, s) <==> Mentions(s, ps)
  {
    AnyInIff(ps, s);
  }

  /** Mentioning a one- or two-word list, written out. */
  lemma MentionsShort(t: string, a: string, b: string)
    ensures Mentions(t, [a]) <==> Contains(t, a)
    ensures Mentions(t, [a, b]) <==> Contains(t, a) || Contains(t, b)
  {
    assert [a][0] == a;
    assert [a, b][0] == a && [a, b][1] == b;
  }

  lemma {:induction false} AnyInIff(ps: seq<string>, s: string)
    ensures AnyIn(ps, s) <==> exists k :: 0 <= k < |ps| && Contains(s, ps[k])
    decreases |ps|
  {
    if |ps| > 0 {
      AnyInIff(ps[1..], s);
      if AnyIn(ps[1..], s) {
        var k :| 0 <= k < |ps[1..]| && Contains(s, ps[1..][k]);
        assert Contains(s, ps[k + 1]);
      }
      forall k | 0 < k < |ps| && Contains(s, ps[k]) ensures AnyIn(ps[1..], s) {
        assert ps[1..][k - 1] == ps[k];
      }
    }
  }

  // ---------------------------------------------------------------------
  // Character classes

  /** The characters Python's `str.isspace` accepts, which are the ones
      `strip()` and `split()` with no argument remove. */
  predicate IsSpace(c: char) {
    c == ' ' || ('\t' <= c <= '\r') || ('\U{1C}' <= c <= '\U{1F}')
    || c == '\U{85}' || c == '\U{A0}' || c == '\U{1680}'
    || ('\U{2000}' <= c <= '\U{200A}') || c == '\U{2028}' || c == '\U{2029}'
    || c == '\U{202F}' || c == '\U{205F}' || c == '\U{3000}'
  }

  function LowerChar(c: char): (r: char)
    ensures 'A' <= c <= 'Z' ==> 'a' <= r <= 'z'
    ensures !('A' <= c <= 'Z') ==> r == c
  {
    if 'A' <= c <= 'Z' then (c as int - 'A' as int + 'a' as int) as char else c
  }

  function UpperChar(c: char): (r: char)
    ensures 'a' <= c <= 'z' ==> 'A' <= r <= 'Z'
    ensures !('a' <= c <= 'z') ==> r == c
  {
    if 'a' <= c <= 'z' then (c as int - 'a' as int + 'A' as int) as char else c
  }

  predicate IsLetter(c: char) {
    ('a' <= c <= 'z') || ('A' <= c <= 'Z')
  }

  /** Python's `lower()` on the ASCII letters. */
  function Lower(s: string): (r: string)
    ensures |r| == |s|
    ensures forall i :: 0 <= i < |s| ==> r[i] == LowerChar(s[i])
  {
    seq(|s|, i requires 0 <= i < |s| => LowerChar(s[i]))
  }

  lemma LowerIdempotent(s: string)
    ensures Lower(Lower(s)) == Lower(s)
  {
  }

  /** A slice of lower-case text is lower-case. */
  lemma LowerOfSlice(u: string, t: string, i: int)
    requires OccursAt(u, t, i) && Lower(u) == u
    ensures Lower(t) == t
  {
    forall k | 0 <= k < |t| ensures LowerChar(t[k]) == t[k] {
      assert t[k] == u[i + k];
      assert Lower(u)[i + k] == LowerChar(u[i + k]);
    }
  }

  /** Python's `title()` on ASCII: a letter is upper-cased when it follows a
      non-letter (or starts the string) and lower-cased otherwise. */
  function Title(s: string): (r: string)
    ensures |r| == |s|
    ensures forall i :: 0 <= i < |s| && !IsLetter(s[i]) ==> r[i] == s[i]
  {
    seq(|s|, i requires 0 <= i < |s| =>
      if i == 0 || !IsLetter(s[i - 1]) then UpperChar(s[i]) else LowerChar(s[i]))
  }

  // ---------------------------------------------------------------------
  // strip

  function StripLeft(s: string): (r: string)
    ensures |r| <= |s| && r == s[|s| - |r|..]
    ensures |r| > 0 ==> !IsSpace(r[0])
    ensures forall i :: 0 <= i < |s| - |r| ==> IsSpace(s[i])
    decreases |s|
  {
    if |s| > 0 && IsSpace(s[0]) then StripLeft(s[1..]) else s
  }

  function StripRight(s: string): (r: string)
    ensures |r| <= |s| && r == s[..|r|]
    ensures |r| > 0 ==> !IsSpace(r[|r| - 1])
    ensures forall i :: |r| <= i < |s| ==> IsSpace(s[i])
    decreases |s|
  {
    if |s| > 0 && IsSpace(s[|s| - 1]) then StripRight(s[..|s| - 1]) else s
  }

  /** The number of leading whitespace characters. */
  function LeftCut(s: string): (n: nat)
    ensures n <= |s|
    ensures forall i :: 0 <= i < n ==> IsSpace(s[i])
    ensures n < |s| ==> !IsSpace(s[n])
    decreases |s|
  {
    if |s| > 0 && IsSpace(s[0]) then 1 + LeftCut(s[1..]) else 0
  }

  /** The end of `s[lo..hi]` once its trailing whitespace is removed. */
  function RightCut(s: string, lo: nat, hi: nat): (n: nat)
    requires lo <= hi <= |s|
    ensures lo <= n <= hi
    ensures forall i :: n <= i < hi ==> IsSpace(s[i])
    ensures n > lo ==> !IsSpace(s[n - 1])
    decreases hi
  {
    if hi > lo && IsSpace(s[hi - 1]) then RightCut(s, lo, hi - 1) else hi
  }

  /** Python's `strip()`: the result is the slice of `s` left after removing
      every leading and trailing whitespace character. */
  function Strip(s: string): (r: string)
    ensures |r| <= |s|
    ensures exists i :: OccursAt(s, r, i)
    ensures |r| > 0 ==> !IsSpace(r[0]) && !IsSpace(r[|r| - 1])
    ensures r == [] <==> forall i :: 0 <= i < |s| ==> IsSpace(s[i])
  {
    var a := LeftCut(s);
    var b := RightCut(s, a, |s|);
    assert OccursAt(s, s[a..b], a);
    s[a..b]
  }

  /** `s.lower().strip()`: the form in which the program compares user
      text against its phrase and command tables. */
  function Normalize(s: string): string {
    Strip(Lower(s))
  }

  /** A text with no whitespace at either end is its own strip. */
  lemma StripUnspaced(s: string)
    requires |s| > 0 && !IsSpace(s[0]) && !IsSpace(s[|s| - 1])
    ensures Strip(s) == s
  {
    assert LeftCut(s) == 0;
    assert RightCut(s, 0, |s|) == |s|;
  }

  /** One leading space before an unspaced word is all `strip` removes. */
  lemma StripLeadingSpace(c: char, w: string)
    requires IsSpace(c) && |w| > 0 && !IsSpace(w[0]) && !IsSpace(w[|w| - 1])
    ensures Strip([c] + w) == w
  {
    var s := [c] + w;
    assert s[1..] == w;
    assert LeftCut(s) == 1;
    assert RightCut(s, 1, |s|) == |s|;
  }

  lemma StripIdempotent(s: string)
    ensures Strip(Strip(s)) == Strip(s)
  {
    if |Strip(s)| > 0 {
      StripUnspaced(Strip(s));
    }
  }

  /** Characters absent from `s` stay absent from `Strip(s)`. */
  lemma StripKeepsAbsent(s: string, c: char)
    requires c !in s
    ensures c !in Strip(s)
  {
    var r := Strip(s);
    var i :| OccursAt(s, r, i);
    forall k | 0 <= k < |r| ensures r[k] != c {
      assert r[k] == s[i + k];
    }
  }

  // ---------------------------------------------------------------------
  // replace

  /** Python's `s.replace(p, r)` for a non-empty pattern: occurrences are
      found left to right and never overlap. */
  function Replace(s: string, p: string, r: string): string
    requires |p| > 0
    decreases |s|
  {
    if |s| < |p| then s
    else if s[..|p|] == p then r + Replace(s[|p|..], p, r)
    else [s[0]] + Replace(s[1..], p, r)
  }

  /** Removing a single character removes every copy of it. */
  lemma {:induction false} ReplaceRemovesChar(s: string, c: char)
    ensures c !in Replace(s, [c], "")
    decreases |s|
  {
    if |s| >= 1 {
      ReplaceRemovesChar(s[1..], c);
      assert s[1..] == s[|[c]|..];
    }
  }

  /** A replacement cannot introduce a character that neither the input nor
      the replacement text holds. */
  lemma {:induction false} ReplaceKeepsAbsent(s: string, p: string, r: string, c: char)
    requires |p| > 0
    requires c !in s && c !in r
    ensures c !in Replace(s, p, r)
    decreases |s|
  {
    if |s| >= |p| {
      if s[..|p|] == p {
        ReplaceKeepsAbsent(s[|p|..], p, r, c);
      } else {
        ReplaceKeepsAbsent(s[1..], p, r, c);
      }
    }
  }

  /** When the pattern does not occur, `replace` changes nothing. */
  lemma {:induction false} ReplaceWithoutMatch(s: string, p: string, r: string)
    requires |p| > 0
    requires !Contains(s, p)
    ensures Replace(s, p, r) == s
    decreases |s|
  {
    if |s| >= |p| {
      assert s[..|p|] != p;
      ReplaceWithoutMatch(s[1..], p, r);
    }
  }

  /** A text that never holds the pattern's first character is left as is. */
  lemma {:induction false} ReplaceWithoutLeader(s: string, p: string, r: string)
    requires |p| > 0 && p[0] !in s
    ensures Replace(s, p, r) == s
    decreases |s|
  {
    if |s| >= |p| {
      assert s[..|p|][0] == s[0];
      ReplaceWithoutLeader(s[1..], p, r);
    }
  }

  /** A prefix without the pattern's first character is copied unchanged and
      the scan resumes at its end. */
  lemma {:induction false} ReplaceConcat(a: string, b: string, p: string, r: string)
    requires |p| > 0 && p[0] !in a
    ensures Replace(a + b, p, r) == a + Replace(b, p, r)
    decreases |a|
  {
    if |a| == 0 {
      assert a + b == b;
    } else {
      var c, t := a[0], a[1..];
      assert a + b == [c] + (t + b);
      assert p[0] !in t by { assert forall i :: 0 <= i < |t| ==> t[i] == a[i + 1]; }
      assert !StartsWith([c] + (t + b), p) by { assert ([c] + (t + b))[0] == c; }
      ReplaceMiss(c, t + b, p, r);
      ReplaceConcat(t, b, p, r);
      assert a == [c] + t;
    }
  }

  /** An occurrence at the front is replaced and the scan resumes after it. */
  lemma ReplaceHit(b: string, p: string, r: string)
    requires |p| > 0
    ensures Replace(p + b, p, r) == r + Replace(b, p, r)
  {
    var s := p + b;
    assert s[..|p|] == p;
    assert s[|p|..] == b;
  }

  /** A character that does not start an occurrence is copied. */
  lemma ReplaceMiss(c: char, b: string, p: string, r: string)
    requires |p| > 0 && !StartsWith([c] + b, p)
    ensures Replace([c] + b, p, r) == [c] + Replace(b, p, r)
  {
    var s := [c] + b;
    assert s[1..] == b;
    if |s| < |p| {
      assert Replace(b, p, r) == b;
    }
  }

  /** The first occurrence after a prefix free of the pattern's first
      character is replaced, and the scan resumes after it. */
  lemma ReplaceLead(a: string, p: string, x: string, r: string)
    requires |p| > 0 && p[0] !in a
    ensures Replace(a + (p + x), p, r) == a + (r + Replace(x, p, r))
  {
    ReplaceConcat(a, p + x, p, r);
    ReplaceHit(x, p, r);
  }

  /** The pattern's first character, followed by something other than the
      pattern's second, is copied and the scan moves past it. */
  lemma ReplaceNear(a: string, c: char, x: string, p: string, r: string)
    requires |p| > 1 && p[0] == c && c !in a && |x| > 0 && x[0] != p[1]
    ensures Replace(a + ([c] + x), p, r) == a + ([c] + Replace(x, p, r))
  {
    ReplaceConcat(a, [c] + x, p, r);
    assert !StartsWith([c] + x, p) by {
      assert ([c] + x)[1] == x[0];
    }
    ReplaceMiss(c, x, p, r);
  }

  // ---------------------------------------------------------------------
  // split

  /** The first token of Python's `s.split()`, or None when the split is empty. */
  function FirstToken(s: string): (r: Option<string>)
    ensures r == None <==> forall i :: 0 <= i < |s| ==> IsSpace(s[i])
    ensures r.Some? ==> |r.value| > 0 && forall i :: 0 <= i < |r.value| ==> !IsSpace(r.value[i])
    ensures r.Some? ==> StartsWith(StripLeft(s), r.value)
    ensures r.Some? ==> |r.value| == |StripLeft(s)| || IsSpace(StripLeft(s)[|r.value|])
    decreases |s|
  {
    if |s| == 0 then None
    else if IsSpace(s[0]) then
      var r := FirstToken(s[1..]);
      assert forall i :: 1 <= i < |s| ==> s[i] == s[1..][i - 1];
      r
    else
      var n := WordLength(s);
      assert s[..n][..n] == s[..n];
      Some(s[..n])
  }

  /** Length of the leading run of non-whitespace characters. */
  function WordLength(s: string): (n: nat)
    ensures n <= |s|
    ensures forall i :: 0 <= i < n ==> !IsSpace(s[i])
    ensures n == |s| || IsSpace(s[n])
    decreases |s|
  {
    if |s| == 0 || IsSpace(s[0]) then 0 else 1 + WordLength(s[1..])
  }

  // ---------------------------------------------------------------------
  // split on a separator, last piece

  /** `r` is what follows the last cut when `s` is split on `p`: a suffix
      free of `p` that is all of `s` exactly when `p` does not occur, and
      that otherwise begins right after an occurrence of `p`. */
  predicate PieceOf(s: string, p: string, r: string) {
    && |r| <= |s| && r == s[|s| - |r|..]
    && !Contains(r, p)
    && (|r| == |s| <==> !Contains(s, p))
    && (|r| == |s| || OccursAt(s, p, |s| - |r| - |p|))
  }

  /** Python's `s.split(p)[-1]` for a non-empty separator. The split scans
      left to right: an occurrence at the front is cut off and the scan
      resumes after it; otherwise the first character is skipped, and when
      the rest holds no occurrence the piece is all of `s`. */
  function LastPiece(s: string, p: string): (r: string)
    requires |p| > 0
    ensures PieceOf(s, p, r)
    decreases |s|
  {
    if StartsWith(s, p) then
      var r := LastPiece(s[|p|..], p);
      CutFront(s, p, r);
      r
    else if |s| == 0 then s
    else
      var r := LastPiece(s[1..], p);
      SkipFront(s, p, r);
      if |r| == |s| - 1 then s else r
  }

  /** An occurrence at the front: the piece of the rest is the piece. */
  lemma CutFront(s: string, p: string, r: string)
    requires |p| > 0 && StartsWith(s, p) && PieceOf(s[|p|..], p, r)
    ensures PieceOf(s, p, r)
  {
    var t := s[|p|..];
    assert t[|t| - |r|..] == s[|s| - |r|..];
    assert OccursAt(s, p, 0);
    if |r| < |t| {
      assert s[|s| - |r| - |p|..|s| - |r|] == t[|t| - |r| - |p|..|t| - |r|];
    }
  }

  /** No occurrence at the front: the piece of the rest is the piece if the
      rest holds an occurrence, and `s` itself otherwise. */
  lemma SkipFront(s: string, p: string, r: string)
    requires |p| > 0 && |s| > 0 && !StartsWith(s, p) && PieceOf(s[1..], p, r)
    ensures PieceOf(s, p, if |r| == |s| - 1 then s else r)
  {
    if |r| == |s| - 1 {
      SkipWhole(s, p);
    } else {
      SkipInner(s, p, r);
    }
  }

  lemma SkipWhole(s: string, p: string)
    requires |p| > 0 && |s| > 0 && !StartsWith(s, p) && !Contains(s[1..], p)
    ensures PieceOf(s, p, s)
  {
    assert !Contains(s, p);
    assert s == s[|s| - |s|..];
  }

  lemma SkipInner(s: string, p: string, r: string)
    requires |p| > 0 && |s| > 0 && |r| < |s| - 1 && PieceOf(s[1..], p, r)
    ensures PieceOf(s, p, r)
  {
    OccursShift(s, p, |s| - 1 - |r| - |p|);
    OccursContains(s, p, |s| - |r| - |p|);
    SuffixShift(s, r);
  }

  /** An occurrence in the tail is one position later in the whole. */
  lemma OccursShift(s: string, p: string, o: nat)
    requires |s| > 0 && OccursAt(s[1..], p, o)
    ensures OccursAt(s, p, o + 1)
  {
    assert s == [s[0]] + s[1..];
    OccursAfter([s[0]], s[1..], p, o);
  }

  /** A suffix of the tail is a suffix of the whole. */
  lemma SuffixShift(s: string, r: string)
    requires |s| > 0 && |r| < |s| && r == s[1..][|s| - 1 - |r|..]
    ensures r == s[|s| - |r|..]
  {
    assert s[1..][|s| - 1 - |r|..] == s[|s| - |r|..];
  }

  // ---------------------------------------------------------------------
  // Decimal rendering (Python's `str(int)`)

  function DigitChar(d: nat): (c: char)
    requires d < 10
    ensures '0' <= c <= '9'
  {
    ('0' as int + d) as char
  }

  function NatToString(n: nat): (r: string)
    ensures |r| > 0
    ensures forall i :: 0 <= i < |r| ==> '0' <= r[i] <= '9'
    decreases n
  {
    if n < 10 then [DigitChar(n)] else NatToString(n / 10) + [DigitChar(n % 10)]
  }

  function IntToString(n: int): (r: string)
    ensures |r| > 0
  {
    if n < 0 then "-" + NatToString(-n) else NatToString(n)
  }

  /** The value a string of decimal digits denotes. */
  function DigitsValue(s: string): nat
    requires forall i :: 0 <= i < |s| ==> '0' <= s[i] <= '9'
    decreases |s|
  {
    if |s| == 0 then 0
    else DigitsValue(s[..|s| - 1]) * 10 + (s[|s| - 1] as int - '0' as int)
  }

  /** Rendering a count and reading it back gives the count. */
  lemma {:induction false} NatToStringRoundTrip(n: nat)
    ensures DigitsValue(NatToString(n)) == n
    decreases n
  {
    if n >= 10 {
      NatToStringRoundTrip(n / 10);
      var s := NatToString(n);
      assert s[..|s| - 1] == NatToString(n / 10);
    }
  }
}

=== FILE: wake.dfy ===
/** The wake-word detector: the phrase list with its add and remove rules,
    the matcher that decides whether a heard utterance wakes the assistant,
    and the listening and sensitivity state of the recognizer.

    The four fuzzy regular expressions are written out as matchers over the
    text and proved equal to a declarative reading of each expression:
    a whole word, bounded on both sides the way `\b` bounds it. */
module Wake {
  import opened Base
  import opened Strings

  // ---------------------------------------------------------------------
  // Word boundaries

  /** The characters `\w` accepts, on ASCII. */
  predicate WordChar(c: char) {
    ('a' <= c <= 'z') || ('A' <= c <= 'Z') || ('0' <= c <= '9') || c == '_'
  }

  /** `\b` before a word character at offset `i`. */
  predicate BoundaryBefore(t: string, i: int) {
    0 <= i <= |t| && (i == 0 || !WordChar(t[i - 1]))
  }

  /** `\b` after a word character ending at offset `j`. */
  predicate BoundaryAfter(t: string, j: int) {
    0 <= j <= |t| && (j == |t| || !WordChar(t[j]))
  }

  // ---------------------------------------------------------------------
  // The fuzzy patterns

  /** `\bfriday\b`, `\bfri+day\b`, `\bfridie\b`, `\bfridey\b`. */
  datatype Pattern = FridayWord | StretchedFriday | FridieWord | FrideyWord

  const FuzzyPatterns: seq<Pattern> := [FridayWord, StretchedFriday, FridieWord, FrideyWord]

  /** "fr", one or more 'i', then "day": the words `fri+day` spells. */
  predicate IsStretched(w: string) {
    |w| >= 6 && w[..2] == "fr" && w[|w| - 3..] == "day"
    && forall k :: 2 <= k < |w| - 3 ==> w[k] == 'i'
  }

  /** The words a pattern spells between its two boundaries. */
  predicate Spells(p: Pattern, w: string) {
    match p
    case FridayWord => w == "friday"
    case StretchedFriday => IsStretched(w)
    case FridieWord => w == "fridie"
    case FrideyWord => w == "fridey"
  }

  /** What `re.search` reports: some slice of the text, bounded on both
      sides, is a word the pattern spells. */
  predicate Matches(p: Pattern, t: string) {
    exists i, j :: 0 <= i <= j <= |t| && BoundaryBefore(t, i) && BoundaryAfter(t, j) && Spells(p, t[i..j])
  }

  /** Length of the run of 'i' starting at `k`. */
  function IRun(t: string, k: nat): (n: nat)
    requires k <= |t|
    ensures k + n <= |t|
    ensures forall m :: k <= m < k + n ==> t[m] == 'i'
    ensures k + n == |t| || t[k + n] != 'i'
    decreases |t| - k
  {
    if k < |t| && t[k] == 'i' then 1 + IRun(t, k + 1) else 0
  }

  /** A run of 'i' that stops at a non-'i' is the run `IRun` measures. */
  lemma {:induction false} IRunExact(t: string, k: nat, n: nat)
    requires k + n <= |t|
    requires forall m :: k <= m < k + n ==> t[m] == 'i'
    requires k + n == |t| || t[k + n] != 'i'
    ensures IRun(t, k) == n
    decreases n
  {
    if n > 0 {
      IRunExact(t, k + 1, n - 1);
    }
  }

  /** The exact word a fixed pattern spells. */
  function FixedWord(p: Pattern): string
    requires p != StretchedFriday
  {
    match p
    case FridayWord => "friday"
    case FridieWord => "fridie"
    case FrideyWord => "fridey"
  }

  /** The hand-coded matcher anchored at offset `i`. */
  predicate MatchAt(p: Pattern, t: string, i: nat)
    requires i <= |t|
  {
    BoundaryBefore(t, i) &&
    if p == StretchedFriday then
      OccursAt(t, "fr", i) && var n := IRun(t, i + 2);
      n >= 1 && OccursAt(t, "day", i + 2 + n) && BoundaryAfter(t, i + 5 + n)
    else
      OccursAt(t, FixedWord(p), i) && BoundaryAfter(t, i + |FixedWord(p)|)
  }

  /** Tries every anchor from `i` to the end of the text. */
  predicate SearchFrom(p: Pattern, t: string, i: nat)
    requires i <= |t|
    decreases |t| - i
  {
    MatchAt(p, t, i) || (i < |t| && SearchFrom(p, t, i + 1))
  }

  /** The anchored matcher succeeds exactly where a bounded word starts. */
  lemma MatchAtIff(p: Pattern, t: string, i: nat)
    requires i <= |t|
    ensures MatchAt(p, t, i) <==>
      exists j :: i <= j <= |t| && BoundaryBefore(t, i) && BoundaryAfter(t, j) && Spells(p, t[i..j])
  {
    if MatchAt(p, t, i) {
      if p == StretchedFriday {
        StretchedForward(t, i);
      } else {
        assert Spells(p, t[i..i + |FixedWord(p)|]);
      }
    }
    if exists j :: i <= j <= |t| && BoundaryBefore(t, i) && BoundaryAfter(t, j) && Spells(p, t[i..j]) {
      var j :| i <= j <= |t| && BoundaryBefore(t, i) && BoundaryAfter(t, j) && Spells(p, t[i..j]);
      if p == StretchedFriday {
        StretchedBackward(t, i, j);
      } else {
        assert OccursAt(t, FixedWord(p), i);
      }
    }
  }

  lemma StretchedForward(t: string, i: nat)
    requires i <= |t| && MatchAt(StretchedFriday, t, i)
    ensures var j := i + 5 + IRun(t, i + 2);
      j <= |t| && BoundaryAfter(t, j) && IsStretched(t[i..j])
  {
    var n := IRun(t, i + 2);
    var j := i + 5 + n;
    var w := t[i..j];
    assert w[..2] == t[i..i + 2];
    assert w[|w| - 3..] == t[i + 2 + n..i + 5 + n];
    forall k | 2 <= k < |w| - 3 ensures w[k] == 'i' {
      assert w[k] == t[i + k];
    }
  }

  lemma StretchedBackward(t: string, i: nat, j: nat)
    requires i <= j <= |t| && BoundaryBefore(t, i) && BoundaryAfter(t, j) && IsStretched(t[i..j])
    ensures MatchAt(StretchedFriday, t, i)
  {
    var n := j - i - 5;
    StretchedEnds(t, i, j);
    StretchedMiddle(t, i, j);
    IRunExact(t, i + 2, n);
  }

  /** A stretched word in place starts with "fr" and ends with "day". */
  lemma StretchedEnds(t: string, i: nat, j: nat)
    requires i <= j <= |t| && IsStretched(t[i..j])
    ensures OccursAt(t, "fr", i) && OccursAt(t, "day", j - 3)
  {
    var w := t[i..j];
    assert t[i..i + 2] == w[..2];
    assert t[j - 3..j] == w[|w| - 3..];
  }

  /** Between its ends a stretched word in place is a run of 'i' that
      stops at the 'd'. */
  lemma StretchedMiddle(t: string, i: nat, j: nat)
    requires i <= j <= |t| && IsStretched(t[i..j])
    ensures forall m :: i + 2 <= m < j - 3 ==> t[m] == 'i'
    ensures t[j - 3] == 'd'
  {
    var w := t[i..j];
    forall m | i + 2 <= m < j - 3 ensures t[m] == 'i' {
      assert t[m] == w[m - i];
    }
    assert t[j - 3] == w[|w| - 3];
  }

  /** Searching from `i` succeeds exactly when some anchor at or after `i`
      matches. */
  lemma {:induction false} SearchFromIff(p: Pattern, t: string, i: nat)
    requires i <= |t|
    ensures SearchFrom(p, t, i) <==> exists k :: i <= k <= |t| && MatchAt(p, t, k)
    decreases |t| - i
  {
    if i < |t| {
      SearchFromIff(p, t, i + 1);
    }
  }

  /** The hand-coded search is `re.search` of the pattern. */
  lemma SearchIff(p: Pattern, t: string)
    ensures SearchFrom(p, t, 0) <==> Matches(p, t)
  {
    SearchFromIff(p, t, 0);
    if SearchFrom(p, t, 0) {
      var k :| 0 <= k <= |t| && MatchAt(p, t, k);
      MatchAtIff(p, t, k);
    }
    if Matches(p, t) {
      var i, j :| 0 <= i <= j <= |t| && BoundaryBefore(t, i) && BoundaryAfter(t, j) && Spells(p, t[i..j]);
      MatchAtIff(p, t, i);
    }
  }

  /** Some pattern of the list finds a match. */
  predicate AnyPattern(ps: seq<Pattern>, t: string)
    decreases |ps|
  {
    |ps| > 0 && (SearchFrom(ps[0], t, 0) || AnyPattern(ps[1..], t))
  }

  // ---------------------------------------------------------------------
  // The matcher (`_contains_wake_word`)

  const DefaultPhrases: seq<string> := ["friday", "hey friday", "ok friday", "hello friday", "hi friday"]


  /** `_contains_wake_word`: a configured phrase anywhere in the normalised
      text, otherwise one of the fuzzy patterns. */
  function ContainsWakeWord(phrases: seq<string>, text: string): bool {
    var t := Normalize(text);
    AnyIn(phrases, t) || AnyPattern(FuzzyPatterns, t)
  }

  /** The text wakes the assistant exactly when a configured phrase occurs
      in it as a substring, or it holds one of the four fuzzy words as a
      whole word. */
  lemma ContainsWakeWordIff(phrases: seq<string>, text: string)
    ensures var t := Normalize(text);
      ContainsWakeWord(phrases, text) <==>
        (exists k :: 0 <= k < |phrases| && Contains(t, phrases[k]))
        || Matches(FridayWord, t) || Matches(StretchedFriday, t)
        || Matches(FridieWord, t) || Matches(FrideyWord, t)
  {
    var t := Normalize(text);
    AnyInIff(phrases, t);
    SearchIff(FridayWord, t);
    SearchIff(StretchedFriday, t);
    SearchIff(FridieWord, t);
    SearchIff(FrideyWord, t);
    assert FuzzyPatterns[1..][1..][1..][1..] == [];
  }

  /** Lower-case text with no whitespace at either end is already
      normalised. */
  lemma NormalizeFixed(t: string)
    requires |t| > 0 && !IsSpace(t[0]) && !IsSpace(t[|t| - 1])
    requires forall i :: 0 <= i < |t| ==> !('A' <= t[i] <= 'Z')
    ensures Normalize(t) == t
  {
    assert Lower(t) == t;
    StripUnspaced(t);
  }

  /** Normalising twice, as the chunk handler and the matcher together do,
      is the same as normalising once. */
  lemma NormalizeIdempotent(s: string)
    ensures Normalize(Normalize(s)) == Normalize(s)
  {
    var u := Lower(s);
    var t := Strip(u);
    LowerIdempotent(s);
    var i :| OccursAt(u, t, i);
    LowerOfSlice(u, t, i);
    assert Normalize(t) == Strip(t);
    StripIdempotent(u);
  }

  /** A configured phrase occurring in the normalised text wakes it. */
  lemma PhraseWakes(phrases: seq<string>, text: string, k: int)
    requires 0 <= k < |phrases| && Contains(Normalize(text), phrases[k])
    ensures ContainsWakeWord(phrases, text)
  {
    AnyInIff(phrases, Normalize(text));
  }

  /** The phrase test has no word boundary: "fridays" wakes the assistant
      because "friday" occurs inside it. */
  lemma FridaysMatchesAsSubstring()
    ensures ContainsWakeWord(DefaultPhrases, "fridays")
  {
    var t: string := "fridays";
    NormalizeFixed(t);
    assert OccursAt(t, DefaultPhrases[0], 0) by {
      assert t[0..6] == "friday";
    }
    OccursContains(t, DefaultPhrases[0], 0);
    PhraseWakes(DefaultPhrases, t, 0);
  }

  /** A stretched "fri…day" with three 'i' is accepted by `fri+day`. */
  lemma StretchedIsAccepted()
    ensures ContainsWakeWord([], "friiiday")
  {
    var t: string := "friiiday";
    NormalizeFixed(t);
    var w := t[0..8];
    assert w == t;
    assert w[..2] == "fr" && w[5..] == "day";
    assert w[2] == 'i' && w[3] == 'i' && w[4] == 'i';
    assert IsStretched(w);
    assert BoundaryBefore(t, 0) && BoundaryAfter(t, 8);
    assert Matches(StretchedFriday, t);
    ContainsWakeWordIff([], t);
  }

  /** "fridey" is accepted by its own pattern, with no phrase configured. */
  lemma FrideyIsAccepted()
    ensures ContainsWakeWord([], "fridey")
  {
    var t: string := "fridey";
    NormalizeFixed(t);
    assert t[0..6] == t;
    assert Spells(FrideyWord, t[0..6]);
    SearchIff(FrideyWord, t);
  }

  /** Inside a longer word the fuzzy patterns do not fire: "xfridey" holds
      "fridey" but not at a word boundary. */
  lemma EmbeddedFuzzyWordIsRejected()
    ensures !Matches(FrideyWord, "xfridey")
  {
    var t := "xfridey";
    forall i, j | 0 <= i <= j <= |t| && BoundaryBefore(t, i) && BoundaryAfter(t, j)
      ensures !Spells(FrideyWord, t[i..j])
    {
      assert i == 0;
    }
  }

  // ---------------------------------------------------------------------
  // The phrase list (`add_wake_phrase`, `remove_wake_phrase`)

  predicate NoDup(ps: seq<string>) {
    forall a, b :: 0 <= a < b < |ps| ==> ps[a] != ps[b]
  }

  /** What the list always satisfies: never empty, no duplicates and no
      empty phrase. */
  predicate ValidPhrases(ps: seq<string>) {
    |ps| > 0 && NoDup(ps) && forall k :: 0 <= k < |ps| ==> ps[k] != []
  }

  lemma DefaultPhrasesValid()
    ensures ValidPhrases(DefaultPhrases)
  {
  }

  /** `add_wake_phrase`: the normalised phrase is appended unless empty or
      already listed. */
  function AddPhrase(ps: seq<string>, phrase: string): (r: seq<string>)
    ensures var q := Normalize(phrase);
      (q != [] && q !in ps ==> r == ps + [q]) && (q == [] || q in ps ==> r == ps)
    ensures ValidPhrases(ps) ==> ValidPhrases(r)
  {
    var q := Normalize(phrase);
    if q != [] && q !in ps then ps + [q] else ps
  }

  /** The position of the first occurrence of `q`. */
  function FirstIndex(ps: seq<string>, q: string): (k: nat)
    requires q in ps
    ensures k < |ps| && ps[k] == q && q !in ps[..k]
    decreases |ps|
  {
    if ps[0] == q then 0
    else
      var k := FirstIndex(ps[1..], q) + 1;
      assert ps[..k] == [ps[0]] + ps[1..][..k - 1];
      k
  }

  /** `list.remove`: drops the first occurrence and keeps the rest in order. */
  function RemoveFirst(ps: seq<string>, q: string): (r: seq<string>)
    requires q in ps
    ensures exists k :: 0 <= k < |ps| && ps[k] == q && q !in ps[..k] && r == ps[..k] + ps[k + 1..]
    ensures multiset(r) + multiset{q} == multiset(ps)
  {
    var k := FirstIndex(ps, q);
    assert ps == ps[..k] + [q] + ps[k + 1..];
    ps[..k] + ps[k + 1..]
  }

  /** Removing from a list without duplicates removes the phrase entirely
      and keeps the list free of duplicates. */
  lemma RemoveFirstNoDup(ps: seq<string>, q: string)
    requires q in ps && NoDup(ps)
    ensures q !in RemoveFirst(ps, q) && NoDup(RemoveFirst(ps, q))
  {
    var r := RemoveFirst(ps, q);
    assert multiset(ps)[q] == 1 by {
      var k :| 0 <= k < |ps| && ps[k] == q;
      NoDupCount(ps, k);
    }
    assert multiset(r)[q] == 0;
    forall a, b | 0 <= a < b < |r| ensures r[a] != r[b] {
      if r[a] == r[b] {
        CountTwo(r, a, b);
        assert multiset(ps)[r[a]] >= 2;
        var k :| 0 <= k < |ps| && ps[k] == r[a];
        NoDupCount(ps, k);
      }
    }
  }

  /** In a list without duplicates each entry appears once. */
  lemma {:induction false} NoDupCount(ps: seq<string>, k: nat)
    requires NoDup(ps) && k < |ps|
    ensures multiset(ps)[ps[k]] == 1
    decreases |ps|
  {
    var x := ps[k];
    assert ps == ps[..|ps| - 1] + [ps[|ps| - 1]];
    var init := ps[..|ps| - 1];
    if k == |ps| - 1 {
      assert x !in init;
      assert multiset(init)[x] == 0;
    } else {
      assert NoDup(init);
      assert init[k] == x;
      NoDupCount(init, k);
    }
  }

  /** Two equal entries make the count at least two. */
  lemma CountTwo(r: seq<string>, a: nat, b: nat)
    requires a < b < |r| && r[a] == r[b]
    ensures multiset(r)[r[a]] >= 2
  {
    assert r == r[..b] + r[b..];
    assert r[a] in r[..b];
    assert r[b..] == [r[b]] + r[b + 1..];
    assert multiset(r[..b])[r[a]] >= 1;
  }

  /** `remove_wake_phrase`: the normalised phrase is removed only when it is
      listed and is not the last phrase. */
  function RemovePhrase(ps: seq<string>, phrase: string): (r: seq<string>)
    ensures var q := Normalize(phrase);
      (q in ps && |ps| > 1 ==> (multiset(r) + multiset{q} == multiset(ps)
        && exists k :: 0 <= k < |ps| && ps[k] == q && q !in ps[..k] && r == ps[..k] + ps[k + 1..]))
      && (!(q in ps && |ps| > 1) ==> r == ps)
  {
    var q := Normalize(phrase);
    if q in ps && |ps| > 1 then RemoveFirst(ps, q) else ps
  }

  /** A removal keeps the list valid, and an accepted one leaves no copy of
      the phrase and every other phrase in place. */
  lemma RemoveKeepsValid(ps: seq<string>, phrase: string)
    requires ValidPhrases(ps)
    ensures ValidPhrases(RemovePhrase(ps, phrase))
    ensures forall x :: x in ps && x != Normalize(phrase) ==> x in RemovePhrase(ps, phrase)
    ensures |ps| > 1 ==> Normalize(phrase) !in RemovePhrase(ps, phrase)
  {
    var q := Normalize(phrase);
    var r := RemovePhrase(ps, phrase);
    if q in ps && |ps| > 1 {
      RemoveFirstNoDup(ps, q);
      assert |r| == |ps| - 1 by {
        assert |multiset(r)| + 1 == |multiset(ps)|;
      }
      forall x | x in ps && x != q ensures x in r {
        assert x in multiset(ps);
      }
      forall k | 0 <= k < |r| ensures r[k] != [] {
        assert r[k] in multiset(r);
        assert r[k] in multiset(ps);
      }
    }
  }

  datatype PhraseEdit = Add(phrase: string) | Remove(phrase: string)

  function ApplyEdits(ps: seq<string>, edits: seq<PhraseEdit>): seq<string>
    decreases |edits|
  {
    if |edits| == 0 then ps
    else
      var next := match edits[0]
        case Add(p) => AddPhrase(ps, p)
        case Remove(p) => RemovePhrase(ps, p);
      ApplyEdits(next, edits[1..])
  }

  /** No sequence of edits empties the list or introduces a duplicate. */
  lemma {:induction false} EditsKeepValid(ps: seq<string>, edits: seq<PhraseEdit>)
    requires ValidPhrases(ps)
    ensures ValidPhrases(ApplyEdits(ps, edits))
    decreases |edits|
  {
    if |edits| > 0 {
      match edits[0]
      case Add(p) => EditsKeepValid(AddPhrase(ps, p), edits[1..]);
      case Remove(p) =>
        RemoveKeepsValid(ps, p);
        EditsKeepValid(RemovePhrase(ps, p), edits[1..]);
    }
  }

  // ---------------------------------------------------------------------
  // Listening and sensitivity

  /** The recognizer's energy settings. */
  datatype Energy = Energy(threshold: nat, dynamic: bool)

  /** The detector's state. `callback` is the registered callback's
      identity; `listeners` counts the listener threads started. */
  datatype Detector = Detector(recognizer: Option<Energy>, listening: bool, callback: Option<int>, listeners: nat)

  /** `start_listening`. */
  function StartListening(d: Detector, cb: int): (res: (Detector, bool))
    ensures d.recognizer.None? ==> res == (d, false)
    ensures d.recognizer.Some? ==> res.1 && res.0.listening
    ensures d.recognizer.Some? && d.listening ==> res.0 == d
    ensures d.recognizer.Some? && !d.listening ==>
      res.0 == d.(listening := true, callback := Some(cb), listeners := d.listeners + 1)
  {
    if d.recognizer.None? then (d, false)
    else if d.listening then (d, true)
    else (d.(listening := true, callback := Some(cb), listeners := d.listeners + 1), true)
  }

  /** `stop_listening`. */
  function StopListening(d: Detector): (r: Detector)
    ensures !r.listening
    ensures r.recognizer == d.recognizer && r.callback == d.callback && r.listeners == d.listeners
  {
    d.(listening := false)
  }

  /** A second start neither replaces the callback nor starts a second
      listener. */
  lemma StartTwiceStartsOnce(d: Detector, cb1: int, cb2: int)
    requires d.recognizer.Some?
    ensures StartListening(StartListening(d, cb1).0, cb2) == StartListening(d, cb1)
  {
  }

  datatype ListenEvent = Start(cb: int) | Stop

  function RunEvents(d: Detector, es: seq<ListenEvent>): Detector
    decreases |es|
  {
    if |es| == 0 then d
    else
      var next := match es[0]
        case Start(cb) => StartListening(d, cb).0
        case Stop => StopListening(d);
      RunEvents(next, es[1..])
  }

  /** Starts that turn listening on: each start while stopped. */
  function OffToOn(listening: bool, es: seq<ListenEvent>): nat
    decreases |es|
  {
    if |es| == 0 then 0
    else match es[0]
      case Start(_) => (if listening then 0 else 1) + OffToOn(true, es[1..])
      case Stop => OffToOn(false, es[1..])
  }

  /** With a recognizer, exactly one listener is started per start that
      finds the detector stopped. */
  lemma {:induction false} ListenersCountStarts(d: Detector, es: seq<ListenEvent>)
    requires d.recognizer.Some?
    ensures RunEvents(d, es).listeners == d.listeners + OffToOn(d.listening, es)
    ensures RunEvents(d, es).recognizer == d.recognizer
    decreases |es|
  {
    if |es| > 0 {
      match es[0]
      case Start(cb) => ListenersCountStarts(StartListening(d, cb).0, es[1..]);
      case Stop => ListenersCountStarts(StopListening(d), es[1..]);
    }
  }

  /** `_process_audio_chunk`: the callback fires when the recognised text is
      non-empty after normalisation and contains a wake word. `heard` is the
      recognition result, None when recognition raised. */
  function HeardWakeWord(d: Detector, phrases: seq<string>, heard: Option<string>): (fires: bool)
    ensures fires <==> (heard.Some? && Normalize(heard.value) != []
      && ContainsWakeWord(phrases, heard.value) && d.callback.Some?)
  {
    NormalizeIdempotent(if heard.Some? then heard.value else []);
    match heard
    case None => false
    case Some(text) =>
      var t := Normalize(text);
      t != [] && ContainsWakeWord(phrases, t) && d.callback.Some?
  }

  /** `set_sensitivity`: "high" is 200 with dynamic adjustment, "low" 500
      without, anything else 300 with. */
  function SetSensitivity(d: Detector, level: string): (res: (Detector, bool))
    ensures res.1 <==> d.recognizer.Some?
    ensures d.recognizer.None? ==> res.0 == d
    ensures res.0.listening == d.listening && res.0.callback == d.callback && res.0.listeners == d.listeners
    ensures d.recognizer.Some? && level == "high" ==> res.0.recognizer == Some(Energy(200, true))
    ensures d.recognizer.Some? && level == "low" ==> res.0.recognizer == Some(Energy(500, false))
    ensures d.recognizer.Some? && level != "high" && level != "low" ==>
      res.0.recognizer == Some(Energy(300, true))
  {
    if d.recognizer.None? then (d, false)
    else
      var e := if level == "high" then Energy(200, true)
        else if level == "low" then Energy(500, false)
        else Energy(300, true);
      (d.(recognizer := Some(e)), true)
  }

  /** Only "low" turns dynamic adjustment off, and the thresholds are
      ordered by sensitivity. */
  lemma SensitivityOrder(d: Detector)
    requires d.recognizer.Some?
    ensures SetSensitivity(d, "high").0.recognizer.value.threshold
          < SetSensitivity(d, "medium").0.recognizer.value.threshold
          < SetSensitivity(d, "low").0.recognizer.value.threshold
    ensures forall level :: !SetSensitivity(d, level).0.recognizer.value.dynamic <==> level == "low"
  {
  }

  /** Each call overwrites the whole setting: the last level given is the
      one in force, whatever came before. */
  lemma SensitivityLastWins(d: Detector, first: string, second: string)
    ensures SetSensitivity(SetSensitivity(d, first).0, second) == SetSensitivity(d, second)
  {
  }
}
